=== FILE: README.md ===
# Closet Craze storefront core, in Dafny

Closet Craze is a single-page fashion storefront. Its core is the **velocity score**
(`services/metricsService.ts`). This score measures how fast a product sells relative to its
audience and stock. The storefront uses it to rank products in a "hype" order. Around that
core sit the shopping rules of the shell and its views:

- the cart, the wishlist, quests and the category filter;
- the cart drawer's totals and countdown;
- the four-step checkout;
- the outfit builder;
- the daily flash sale;
- the mini-games;
- the hidden admin entrance and the sign-in delay;
- the style arena;
- the catalogue tile, the category panel, the lobby rows, the wishlist view and the
  FAMOUS ranking.

Behind those are the browser-storage database and the admin and supplier consoles:

- user bans and deletion;
- searches and ledger (CSV) export;
- the two product editors, and saving their forms;
- order status updates;
- supplier registration, and the supplier console's view of its own products and orders.

Every operation is a pure function over immutable records. Browser storage is a record
with one optional slot per storage key. A read that finds a slot empty returns the built-in
data and stores it. Each random draw is a real number in `[0, 1)` passed as a parameter.
Clock readings are integer parameters. React state updates become functions from the old
state to the new one, and timers become explicit steps. An expression that would crash the
source returns `None` instead, for example `allSuppliers[0]` on an empty list.

Modules follow the source files:

| module | source file |
|---|---|
| `Metrics` | metricsService |
| `Ranking` | the stable descending sort both rankings use |
| `App` | App.tsx |
| `CartDrawer`, `Checkout`, `Outfit`, `FlashSales`, `Games`, `Landing`, `Arena`, `ProductCard`, `CategoryPanel`, `HomeLobby`, `Wishlist`, `Famous`, `AdminDatabase`, `AdminPanel`, `SupplierDashboard` | one component each |
| `ProductForms` | both product editors |
| `Database` | databaseService |

`Types` holds the records. `Wrappers`, `Seqs`, `Text` and `Arith` hold the library
behaviour the code relies on: filtering, ASCII case mapping and trimming, substring search,
decimal printing, padding, splitting and joining, and `Math.round`/`Math.floor`.

The velocity score is computed exactly on rationals. `Math.round(x)` is `⌊x + ½⌋`.
The contracts state, among other things:

- the score is bounded;
- the score is monotone in purchases and hours;
- the score is antitone in users and in stock;
- the score has an integer closed form;
- the score is fixed on the built-in performance data;
- the hype ranking is a permutation, sorted and stable;
- that ranking is the only stable descending order.

## Model

| member | source | states |
|---|---|---|
| Metrics.FindSample | services/metricsService.ts:10 | the sample found has the product's id, and none is found exactly when no sample has that id |
| Metrics.FindSampleFirst | services/metricsService.ts:10 | the lookup returns the first sample with the id, so earlier samples shadow later ones |
| Metrics.AdoptionRate | services/metricsService.ts:13 | purchases per system user is never negative |
| Metrics.DepletionRate | services/metricsService.ts:14 | stock per hour is never negative, and it is zero exactly when the initial stock is zero |
| Metrics.SampleScore | services/metricsService.ts:13-21 | the score of one sample lies in 0..100, and a sample with no initial stock scores 0 |
| Metrics.VelocityScore | services/metricsService.ts:9-22 | a product's score lies in 0..100, and a product without a sample gets the default 50 |
| Metrics.RawScore | services/metricsService.ts:20 | the unrounded scaled ratio is never negative |
| Metrics.ScoreClosedForm | services/metricsService.ts:13-21 | for positive stock, the score is the capped rounding of (p/u)/(s/h)·2000 |
| Metrics.ScoreIntegral | services/metricsService.ts:13-21 | for whole hours, the score is min(100, round-half-up of 2000·p·h / (u·s)) in integer arithmetic |
| Metrics.IntegralClosed | services/metricsService.ts:20-21 | rounding the rational ratio equals integer half-up division of 2000·p·h by u·s |
| Metrics.ScoreMonotone | services/metricsService.ts:13-21 | more purchases, more hours, fewer users or less (positive) stock never lower the score |
| Metrics.ScoreMonotonePurchases | services/metricsService.ts:13 | raising purchases never lowers the score |
| Metrics.ScoreMonotoneHours | services/metricsService.ts:14 | a longer sell-out time never lowers the score |
| Metrics.ScoreAntitoneUsers | services/metricsService.ts:13 | more system users never raise the score |
| Metrics.ScoreAntitoneStock | services/metricsService.ts:14 | more positive stock never raises the score |
| Metrics.ZeroStockBreaksAntitone | services/metricsService.ts:17 | the zero-stock shortcut scores 0 where one unit of stock scores 100, so stock antitonicity needs stock > 0 |
| Metrics.FirstSampleWins | services/metricsService.ts:10 | a sample at the head of the data decides the product's score |
| Metrics.LaterSamplesIgnored | services/metricsService.ts:10 | appending samples never changes the score of a product that already has one |
| Metrics.Annotated | services/metricsService.ts:25-27 | the annotated product carries its velocity score, and every other field is unchanged |
| Metrics.Annotate | services/metricsService.ts:25-27 | every product is annotated in place, and the length is kept |
| Metrics.HypeRank | services/metricsService.ts:24-29 | the ranking is a permutation of the annotated catalogue, sorted by descending score, with each score class in input order |
| Metrics.HypeRankHasAll | services/metricsService.ts:24-29 | every annotated product appears in the ranking |
| Metrics.HypeRankOnlyAnnotated | services/metricsService.ts:24-29 | every ranked entry is an annotated product of the input |
| Metrics.HypeRankContents | services/metricsService.ts:24-29 | the ranking holds exactly the annotated products, each with the score computed for its id |
| Metrics.HypeRankUnique | services/metricsService.ts:28 | any sorted arrangement that agrees with the annotated catalogue on every score class is the ranking |
| Metrics.FixtureLookup | data/extendedMock.ts:4-11 | every built-in sample is the one found for its id |
| Metrics.FixtureAllScorable | data/extendedMock.ts:4-11 | every built-in sample has users and a positive sell-out time, so every product can be scored against the table |
| Metrics.FixtureSampleScores | data/extendedMock.ts:5-10 | the six built-in samples score 8, 20, 36, 4, 56 and 29 |
| Metrics.FixtureScores | data/extendedMock.ts:5-10 | products "1" to "6" get the scores 8, 20, 36, 4, 56 and 29 |
| Metrics.FixtureMissing | services/metricsService.ts:11 | a product without built-in data (id "7") gets the default 50 |
| Ranking.WithScore | services/metricsService.ts:28 | a score class holds only products of the input that carry that score |
| Ranking.InsertByVelocity | services/metricsService.ts:28 | insertion adds exactly the one product to the multiset |
| Ranking.InsertKeepsSorted | services/metricsService.ts:28 | inserting into a descending sequence keeps it descending |
| Ranking.InsertIsStable | services/metricsService.ts:28 | the inserted product goes before its equals, so every score class reads as if it had been first in the input |
| Ranking.SortByVelocity | services/metricsService.ts:28 | the sort is a permutation, descending by score, and keeps input order within each score |
| Ranking.InsertKeepsClasses | services/metricsService.ts:28 | one insertion step keeps every score class in input order |
| Ranking.HeadClassNonEmpty | services/metricsService.ts:28 | the head's score class starts with the head |
| Ranking.SortedHeadLeads | services/metricsService.ts:28 | in a sorted sequence no product outscores the first |
| Ranking.StableSortUnique | services/metricsService.ts:28 | two sorted sequences with equal score classes are equal |
| Types.FindProduct | App.tsx:113-114 | the product found has the id and no earlier product has it, and none is found exactly when no product has it |
| Types.FindProductFirst | App.tsx:113-114 | the first product carrying the id is the one found, whatever later products share it |
| Types.PriceSum | components/WishlistView.tsx:43 | the price sum is 0 for no products, the one price for a single product, and non-negative when no price is negative |
| Types.PriceSumAppend | components/WishlistView.tsx:43 | the price sum distributes over concatenation |
| App.Bump | App.tsx:81 | lines with the id gain one unit, all others keep their quantity, and products are unchanged |
| App.AddToCart | App.tsx:78-85 | a product already in the cart keeps the line count, and a new product is appended with one unit; afterwards it is in the cart |
| App.AddToCartExisting | App.tsx:80-81 | with unique ids, adding an existing product increments exactly its line |
| App.AddToCartCount | App.tsx:78-85 | with unique ids, adding raises the cart badge count by one |
| App.BumpCount | App.tsx:81 | bumping the single line with the id adds one unit to the count |
| App.BumpNone | App.tsx:81 | bumping an absent id leaves the cart as it was |
| App.CartCount | App.tsx:163 | the badge count is 0 for an empty cart, non-negative for non-negative quantities, and at least the number of lines when each line holds a unit |
| App.CartCountAppend | App.tsx:163 | the badge count distributes over concatenation |
| App.AddToCartWellFormed | App.tsx:78-85 | adding keeps ids unique and quantities positive |
| App.AddToCartById | App.tsx:113-114 | an unknown id leaves the cart alone, and a known one adds that catalogue product |
| App.RemoveLine | App.tsx:176 | removal drops the id's lines and keeps every other line |
| App.RemoveLineWellFormed | App.tsx:176 | removal keeps order and keeps the cart well formed |
| App.RemoveLineCount | App.tsx:176 | every line with another id is kept as many times as it occurred, and none with the id remains |
| App.SubsequenceKeepsWellFormed | App.tsx:176 | any order-preserving selection of a well-formed cart is well formed |
| App.UpdateQuantity | App.tsx:176 | the id's line moves by delta but not below 1, and other lines are untouched |
| App.UpdateQuantityWellFormed | App.tsx:176 | quantity changes keep the cart well formed |
| App.ToggleWishlist | App.tsx:87-93 | the id is in the result exactly when it was absent, other ids are unaffected, and an absent id is appended |
| App.ToggleTwice | App.tsx:87-93 | toggling an absent id twice restores the wishlist |
| App.CompleteQuest | App.tsx:119-124 | a quest is completed afterwards iff it was already or has the id, and nothing else changes |
| App.CompleteQuestIdempotent | App.tsx:119-124 | completing the same quest twice is the same as once |
| App.CategoryView | App.tsx:130 | "All" shows the catalogue, and any other category shows exactly its products |
| App.CategoryViewOrder | App.tsx:130 | the category view keeps catalogue order |
| CartDrawer.Subtotal | components/CartDrawer.tsx:15 | the subtotal is 0 for an empty cart or all-zero quantities, and non-negative when no price or quantity is negative |
| CartDrawer.TotalOriginal | components/CartDrawer.tsx:16 | the original total is 0 for an empty cart or all-zero quantities, and non-negative when no original price or quantity is negative |
| CartDrawer.TotalsAppend | components/CartDrawer.tsx:15-16 | both totals distribute over concatenation |
| CartDrawer.SubtotalBounds | components/CartDrawer.tsx:15-16 | on discounted lines, 0 ≤ subtotal ≤ original total |
| CartDrawer.RoundPercent | components/CartDrawer.tsx:17 | rounding ((orig−sub)/orig)·100 in reals half up gives the integer half-up quotient of 100·(orig−sub) by orig |
| CartDrawer.Efficiency | components/CartDrawer.tsx:17 | with a positive original total the percentage is the half-up quotient of 100·(orig−sub) by orig; otherwise it is 0 |
| CartDrawer.EfficiencyBounds | components/CartDrawer.tsx:17 | on discounted lines the percentage is 0..100, and it is 0 when nothing is saved |
| CartDrawer.Tick | components/CartDrawer.tsx:24 | a second never raises the countdown, takes exactly one off a running one, and leaves it alone exactly at zero |
| CartDrawer.DrawerTick | components/CartDrawer.tsx:22-26 | the countdown never rises, drops by one at most, and stands still exactly when the drawer is closed, the cart is empty or the time is up |
| CartDrawer.DrawerTicksValue | components/CartDrawer.tsx:22-26 | any number of seconds with the drawer closed or empty leave the countdown unchanged; n seconds open with lines give max(0, expiry − n) |
| CartDrawer.TicksValue | components/CartDrawer.tsx:20-26 | after n seconds the countdown reads max(0, expiry − n) |
| CartDrawer.MinSec | components/CartDrawer.tsx:28-29 | minutes·60 + seconds is the expiry, with seconds below 60 |
| CartDrawer.IsCritical | components/CartDrawer.tsx:30 | the critical look shows exactly when the minutes read 0 |
| CartDrawer.MsTextDecodes | components/CartDrawer.tsx:87 | for seconds below 60, the M:SS text splits at the colon into digit strings, the second of exactly two digits, that read back as minutes·60 + seconds |
| CartDrawer.TimerText | components/CartDrawer.tsx:28-29 | the timer text splits at the colon into digit strings, the second of exactly two digits, that read back as the expiry |
| Checkout.Next | components/CheckoutView.tsx:30-40 | submitting the form goes to payment, the return link back to the form, finalizing to processing and the elapsed delay to success; events whose control is absent change nothing, success comes only from processing, and processing only from payment |
| Checkout.BackUndoesSubmit | components/CheckoutView.tsx:270 | the return link undoes a submit, and from every step short of success at most three events complete the order |
| Checkout.SuccessAbsorbing | components/CheckoutView.tsx:102 | once completed, no event leaves the success screen |
| Checkout.SuccessNeedsFinalize | components/CheckoutView.tsx:35-40 | success from the form or payment step needs a finalize |
| Checkout.HappyPath | components/CheckoutView.tsx:30-40 | form, pay and wait completes; going back once and resubmitting still completes |
| Checkout.XpGained | components/CheckoutView.tsx:27 | XP is the subtotal divided by 10, rounded half up |
| Checkout.CoinsGained | components/CheckoutView.tsx:28 | coins are half the subtotal, rounded half up |
| Checkout.RewardsOrdered | components/CheckoutView.tsx:27-28 | for a non-negative subtotal, 0 ≤ XP ≤ coins |
| Checkout.Complete | components/CheckoutView.tsx:102 | completion reports the cart as checked out; its total is 0 for an empty cart, price times quantity for one line, and between 0 and the original total on discounted lines |
| Checkout.TotalBounds | components/CheckoutView.tsx:22 | the subtotal of one line is its price times quantity, and discounted lines total between 0 and the original total |
| Checkout.CompleteAppend | components/CheckoutView.tsx:22-28 | the reported total is additive over the cart's lines, and a discounted checkout earns 0 ≤ XP ≤ coins |
| Outfit.ToggleItem | components/OutfitBuilder.tsx:16-23 | a selected product is removed, and another replaces any product of its category; nothing new appears |
| Outfit.ToggleKeepsWellFormed | components/OutfitBuilder.tsx:16-23 | toggling keeps ids unique and at most one product per category |
| Outfit.ToggleTwice | components/OutfitBuilder.tsx:16-23 | toggling an unselected product twice leaves the selection without its category |
| Outfit.Total | components/OutfitBuilder.tsx:25 | the total is 0 for an empty selection, the one price for a single item, and non-negative when no price is negative |
| Outfit.ToggleTotal | components/OutfitBuilder.tsx:25 | selecting into an empty category adds exactly its price to the total |
| Outfit.SlotItem | components/OutfitBuilder.tsx:67 | a slot shows a selected product of its category, and shows nothing exactly when none is selected |
| Outfit.SlotItemUnique | components/OutfitBuilder.tsx:67 | in a well-formed selection, the slot shows the selected product of its category |
| Outfit.LockDisabled | components/OutfitBuilder.tsx:92 | the lock button is disabled exactly when nothing is selected, which is exactly when every slot is empty |
| Outfit.ToggleEnablesLock | components/OutfitBuilder.tsx:92 | picking an unselected product always enables the lock button |
| FlashSales.GenerateSale | components/FlashSales.tsx:75-89 | a sale exists iff the catalogue is non-empty; it is dated today, names a catalogue product, gives 12–50 % off and expires 900–10800 whole seconds from now |
| FlashSales.LoadSale | components/FlashSales.tsx:22-36 | a sale stored for today is reused unchanged; otherwise a new one is generated and stored |
| FlashSales.SameDaySameSale | components/FlashSales.tsx:22-36 | a second load on the same day shows the same sale, whatever the draws and the clock |
| FlashSales.SaleProduct | components/FlashSales.tsx:38 | the first product with the stored id, else the first product; none only for an empty catalogue |
| FlashSales.FlashPrice | components/FlashSales.tsx:41 | the flash price is ⌊orig·(100−d)/100⌋ and lies between 0 and the original price for a discount in 0..100 |
| FlashSales.MakeFlashProduct | components/FlashSales.tsx:39-44 | the shown product differs from the catalogue product only in its price, which is ⌊original·(100 − d)/100⌋ and lies between 0 and the original for a discount of 0..100; it carries the sale's discount and end time |
| FlashSales.Remaining | components/FlashSales.tsx:49-51 | whole seconds left: 0 iff under a second remains, else ⌊(expiry−now)/1000⌋ |
| FlashSales.Start | components/FlashSales.tsx:49-51 | a sale starts voided exactly when no time is left |
| FlashSales.Step | components/FlashSales.tsx:55-73 | a tick counts down by one, voids the sale on its last second, never un-voids it and never ticks from zero; a loaded sale at exactly zero becomes void, and otherwise a stopped timer leaves the void flag as it was |
| FlashSales.CountdownAfter | components/FlashSales.tsx:55-73 | after n ticks a live sale shows max(0, t−n), and it is void iff n ≥ t |
| FlashSales.SplitHms | components/FlashSales.tsx:91-96 | hours·3600 + minutes·60 + seconds is the input, with minutes and seconds below 60 |
| FlashSales.HmsTextDecodes | components/FlashSales.tsx:95 | for minutes and seconds below 60 the text has three parts iff there are hours, all parts are digits, the last two have two digits, and they read back as h·3600 + m·60 + s |
| FlashSales.FormatTime | components/FlashSales.tsx:91-96 | the text has three parts iff there are hours, the last two parts have two digits, and all parts read back as the seconds |
| Games.RpsOutcome | components/GameShowroom.tsx:14-33 | a tie iff equal moves, a win iff the player's move beats the bot's, a loss iff the bot's beats the player's |
| Games.RpsAntisymmetric | components/GameShowroom.tsx:14-33 | swapping the moves swaps win and loss and keeps ties |
| Games.RpsBalanced | components/GameShowroom.tsx:14-33 | each move beats exactly one move and loses to one |
| Games.PlayRps | components/GameShowroom.tsx:14-33 | refused iff no attempts are left; otherwise the result is the outcome, and 50 GEMS is paid iff it is a win |
| Games.PlayGuess | components/GameShowroom.tsx:35-45 | refused iff no attempts are left; otherwise the target is 1..5, and 500 COINS is paid iff the guess hits |
| Games.PlaySpin | components/GameShowroom.tsx:47-54 | refused iff no attempts are left; otherwise the prize is a wheel sector, paid unless it is LOSE or TRY AGAIN |
| Games.SpinPayingSectors | components/GameShowroom.tsx:47-54 | exactly four of the six sectors pay out |
| Landing.AdminClick | components/LandingScreen.tsx:13-23 | the fifth click fires admin access and resets the counter; other clicks count up |
| Landing.ClickRunCounts | components/LandingScreen.tsx:13-23 | after n clicks the counter reads n mod 5 and access has fired n div 5 times |
| Landing.AuthStep | components/LandingScreen.tsx:25-33 | submitting shows the spinner and schedules a completion; a firing timer completes one sign-in with the CYBER archetype |
| Landing.AuthRunInvariant | components/LandingScreen.tsx:25-33 | every completion uses the default archetype, and completions plus pending equal the number of submits |
| Arena.Vote.Score | components/StyleArena.tsx:74-84 | a vote reports −1 or +1 |
| Arena.CastVote | components/StyleArena.tsx:26-34 | a vote reports the shown entry's id with the vote's score, counts one vote and moves to the next entry cyclically |
| Arena.VoteRun | components/StyleArena.tsx:26-36 | any sequence of votes keeps the index on an entry |
| Arena.VoteRunPosition | components/StyleArena.tsx:26-36 | after n votes the arena shows entry (start + n) mod 3 and has counted n votes |
| Database.GetAdminCredentials | services/databaseService.ts:29-36 | the result is the stored pair or else the default one; afterwards the admin slot holds the result and no other slot has changed |
| Database.UpdateAdminCredentials | services/databaseService.ts:38-41 | the new pair is returned and held by the admin slot, and no other slot changes |
| Database.AdminCredentialsRoundTrip | services/databaseService.ts:29-41 | reading after an update gives the new pair, a second read repeats the first, and an empty store reads the default |
| Database.GetUsers | services/databaseService.ts:43-50 | the result is the stored list or else the built-in users; afterwards the users slot holds the result and no other slot has changed |
| Database.SaveUsers | services/databaseService.ts:52-54 | the users slot holds the list, and the other slots are unchanged |
| Database.UsersRoundTrip | services/databaseService.ts:43-54 | a saved list reads back, and reading twice is reading once |
| Database.UpdateUserStatus | services/databaseService.ts:86-91 | users with the id get the status, every other field and user is unchanged, and the list is saved |
| Database.UpdateUserStatusPersists | services/databaseService.ts:86-91 | the updated list is what later reads return, and repeating the update changes nothing |
| Database.DeleteUser | services/databaseService.ts:93-98 | exactly the users with other ids remain, and the result is saved |
| Database.DeleteUserOrder | services/databaseService.ts:93-98 | deletion keeps order, and deleting again changes nothing |
| Database.DeleteUserCount | services/databaseService.ts:95 | every user record with another id is kept as many times as it was stored, and none with the id remains |
| Database.Seed | services/databaseService.ts:59-62 | seeding changes only each product's supplier, alternately sup1 and sup2 by position |
| Database.GetProducts | services/databaseService.ts:56-67 | the result is the stored list or else the seeded catalogue; afterwards the products slot holds the result and no other slot has changed |
| Database.SaveProducts | services/databaseService.ts:69-71 | the products slot holds the list, and the other slots are unchanged |
| Database.ProductsRoundTrip | services/databaseService.ts:56-71 | a saved catalogue reads back, and reading twice is reading once |
| Database.SeedAlternates | services/databaseService.ts:59-62 | neighbouring seeded products belong to different suppliers |
| Database.GetSuppliers | services/databaseService.ts:73-80 | the result is the stored list or else the built-in suppliers; afterwards the suppliers slot holds the result and no other slot has changed |
| Database.SaveSuppliers | services/databaseService.ts:82-84 | the suppliers slot holds the list, and the other slots are unchanged |
| Database.SuppliersRoundTrip | services/databaseService.ts:73-84 | a saved list reads back, and reading twice is reading once |
| Database.SupplierId | services/databaseService.ts:104 | a minted id is "sup" followed by decimal digits |
| Database.SupplierIdInjective | services/databaseService.ts:104 | different registration times mint different ids |
| Database.RegisterSupplier | services/databaseService.ts:100-113 | one ACTIVE supplier with the form's data, score 50, no yield and today's date is appended, and the list is saved |
| Database.RegisterSupplierFrame | services/databaseService.ts:100-113 | registration leaves the users, products and admin slots alone |
| AdminDatabase.ToggleStatus | components/AdminDatabaseView.tsx:16-20 | an active user becomes banned, and any other user becomes active |
| AdminDatabase.ToggleStatusTwice | components/AdminDatabaseView.tsx:16-20 | two toggles restore an active or banned user, and turn a restricted one into banned |
| AdminDatabase.HandleToggleStatus | components/AdminDatabaseView.tsx:16-20 | the toggled status is written through the database for that user |
| AdminDatabase.FilteredUsers | components/AdminDatabaseView.tsx:22-25 | exactly the users whose handle or email contains the query, ignoring case, are listed; an empty query lists all |
| AdminDatabase.FilteredProducts | components/AdminDatabaseView.tsx:27-30 | exactly the products whose name contains the query ignoring case, or whose id contains it, are listed; an empty query lists all |
| AdminDatabase.MatchesIff | components/AdminDatabaseView.tsx:22-30 | a match is an occurrence of the lower-cased query in the lower-cased field, or of the raw query in the id |
| AdminDatabase.SearchKeepsOrder | components/AdminDatabaseView.tsx:22-30 | both searches keep listing order |
| AdminDatabase.Quote | components/AdminDatabaseView.tsx:51-58 | a quoted field is the text between two double quotes |
| AdminDatabase.UserRow | components/AdminDatabaseView.tsx:48-61 | a user line has one field per user header |
| AdminDatabase.ProductRow | components/AdminDatabaseView.tsx:62-73 | a product line has one field per product header |
| AdminDatabase.Ledger | components/AdminDatabaseView.tsx:61 | a ledger is the joined header line followed by one joined line per record, in order |
| AdminDatabase.UserLines | components/AdminDatabaseView.tsx:48-61 | the user ledger is the header line and then one line per user, in order |
| AdminDatabase.ProductLines | components/AdminDatabaseView.tsx:62-73 | the product ledger is the header line and then one line per product, in order |
| AdminDatabase.Csv | components/AdminDatabaseView.tsx:44-83 | the download starts with the open tab's header line; when no text field holds a comma or newline it splits on newlines into exactly the header line and one line per record, and ends without a newline |
| AdminDatabase.QuoteSafe | components/AdminDatabaseView.tsx:51-58 | quoting adds no comma or newline |
| AdminDatabase.IntSafe | components/AdminDatabaseView.tsx:54-59 | printed numbers hold no comma or newline |
| AdminDatabase.UserRowSafe | components/AdminDatabaseView.tsx:48-61 | a user without commas or newlines in its text yields safe fields |
| AdminDatabase.ProductRowSafe | components/AdminDatabaseView.tsx:62-73 | a product without commas or newlines in its text yields safe fields |
| AdminDatabase.LineDecodes | components/AdminDatabaseView.tsx:61 | a comma-joined line of safe fields splits back into those fields |
| AdminDatabase.HeadersSafe | components/AdminDatabaseView.tsx:48-73 | the header names are safe fields |
| AdminDatabase.UserLinesDecode | components/AdminDatabaseView.tsx:48-61 | every user line splits back into that user's fields and holds no newline |
| AdminDatabase.ProductLinesDecode | components/AdminDatabaseView.tsx:62-73 | every product line splits back into that product's fields and holds no newline |
| AdminDatabase.LineNonEmpty | components/AdminDatabaseView.tsx:61 | a comma-joined line whose last field is non-empty is non-empty |
| AdminDatabase.LedgerReads | components/AdminDatabaseView.tsx:61 | newline-free lines, the last non-empty, split back from their newline join, which is non-empty and does not end in a newline |
| AdminDatabase.UserLedgerReads | components/AdminDatabaseView.tsx:48-61 | the user download starts with its header line and, for safe users, splits back into its lines without a trailing newline |
| AdminDatabase.ProductLedgerReads | components/AdminDatabaseView.tsx:62-73 | the product download starts with its header line and, for safe products, splits back into its lines without a trailing newline |
| AdminDatabase.UserCsvDecodes | components/AdminDatabaseView.tsx:44-83 | for safe users, the user ledger splits into n+1 lines, each splitting into nine fields that give back the row |
| AdminDatabase.ProductCsvDecodes | components/AdminDatabaseView.tsx:44-83 | for safe products, the product ledger splits into n+1 lines, each splitting into seven fields that give back the row |
| ProductForms.Merge | components/AdminPanel.tsx:48 | a present form field overrides the product's field, and an absent one keeps it |
| ProductForms.FromProduct | components/AdminProductEditor.tsx:33-37 | a product's form holds all its fields, its scores and id included |
| ProductForms.MergeLaws | components/AdminPanel.tsx:48 | the empty form is neutral, a product's own form restores it, and merging is idempotent |
| ProductForms.ApplyEdit | components/AdminPanel.tsx:47-50 | the form is merged into the products with the edited id only, in place |
| ProductForms.SupplierLoad | components/SupplierProductEditor.tsx:31-45 | a supplier's loaded form holds no id, viewers or scores, and merging it back changes nothing |
| ProductForms.AdminOpen | components/AdminProductEditor.tsx:13-37 | a new form starts Apparel with hype and velocity 50, and an edit form keeps the product's id |
| ProductForms.SupplierOpen | components/SupplierProductEditor.tsx:14-45 | the supplier's form is always restricted, and an edit form merges back to the product |
| ProductForms.SpliceStart | components/AdminProductEditor.tsx:53 | the splice start is the index when in range, counts a negative index from the end clamped at 0, and clamps a large one at the length |
| ProductForms.RemoveAt | components/AdminProductEditor.tsx:51-55 | splice removes the entry at an index in range, counts a negative index from the end (below −length it removes the first entry), and removes nothing at or past the end |
| ProductForms.RemoveAtFromEnd | components/AdminProductEditor.tsx:53 | splice(−1, 1) on two entries removes the last, splice(−5, 1) the first, splice(2, 1) nothing |
| ProductForms.AddDetailTo | components/AdminProductEditor.tsx:44-49 | a blank input changes nothing; otherwise its trimmed text is appended and the input cleared |
| ProductForms.AddTagTo | components/AdminProductEditor.tsx:57-62 | a blank input changes nothing; otherwise its trimmed upper-cased text is appended and the input cleared |
| ProductForms.Step | components/AdminProductEditor.tsx:97-234 | no control changes the id, viewers or velocity, and only the hype slider changes hype |
| ProductForms.RemoveTagEffect | components/AdminProductEditor.tsx:64-66 | removing a tag drops every copy and keeps the other tags in order |
| ProductForms.AddTagNormalises | components/AdminProductEditor.tsx:57-62 | typing a non-blank tag and adding it appends the trimmed upper-cased tag and clears the input |
| ProductForms.SupplierRunRestricted | components/SupplierProductEditor.tsx:99-176 | supplier controls never give a restricted form an id, viewers or scores, and never change its detail list |
| ProductForms.SupplierSubmitRestricted | components/SupplierProductEditor.tsx:14-176 | whatever a supplier does, the submitted form is restricted |
| ProductForms.AdminRunScores | components/AdminProductEditor.tsx:97-234 | admin editing never changes velocity, and changes hype only through the slider |
| AdminPanel.ScoreOr50 | components/AdminPanel.tsx:58-59 | an absent or zero score becomes 50, and any other is kept |
| AdminPanel.NewProduct | components/AdminPanel.tsx:52-61 | a new product is numbered count+1, has no viewers, is in stock iff it has units, defaults its scores to 50 and takes the form's fields |
| AdminPanel.SaveProduct | components/AdminPanel.tsx:46-65 | the editor closes, an edit is applied in place or the new product is put first, and the catalogue is saved |
| AdminPanel.EditKeepsIds | components/AdminPanel.tsx:47-50 | an edit from the admin editor keeps every product's id |
| AdminPanel.NewIdFresh | components/AdminPanel.tsx:52-61 | while numeric ids stay within the catalogue size, the new id is unused, and that invariant is kept |
| AdminPanel.NewTracking | components/AdminPanel.tsx:70 | the result is the input or the old number; a non-empty input wins, a non-empty tracking number is never erased, and nothing is recorded only when there was nothing before |
| AdminPanel.UpdateOrderStatus | components/AdminPanel.tsx:67-73 | the orders with the id get the status and tracking, and the others are unchanged |
| AdminPanel.UpdateOrderStatusLaws | components/AdminPanel.tsx:67-73 | an existing tracking number is never erased, and repeating an update changes nothing |
| AdminPanel.HandleUpdateOrderStatus | components/AdminPanel.tsx:67-73 | only the panel's orders change |
| SupplierDashboard.CurrentSupplier | components/SupplierDashboard.tsx:27-28 | the supplier with the id, else the first; none only for an empty list |
| SupplierDashboard.FindSupplier | components/SupplierDashboard.tsx:27 | the supplier found has the id, and none is found exactly when no supplier has it |
| SupplierDashboard.FindSupplierFirst | components/SupplierDashboard.tsx:27 | the first supplier with the id wins |
| SupplierDashboard.MyProducts | components/SupplierDashboard.tsx:31-33 | exactly the products assigned to the supplier are listed |
| SupplierDashboard.MyProductsOrder | components/SupplierDashboard.tsx:31-33 | the listing keeps catalogue order |
| SupplierDashboard.MyOrders | components/SupplierDashboard.tsx:35-37 | exactly the orders with a line for one of the supplier's products are listed |
| SupplierDashboard.OrderCardItems | components/SupplierDashboard.tsx:199 | an order card shows exactly the order's lines for the supplier's products |
| SupplierDashboard.ListedOrdersShowLines | components/SupplierDashboard.tsx:35-37 | every listed order's card shows at least one line |
| SupplierDashboard.Refresh | components/SupplierDashboard.tsx:26-38 | the view is absent iff there are no suppliers; otherwise it shows the current supplier, its products and its orders, and the store is seeded |
| SupplierDashboard.ListingId | components/SupplierDashboard.tsx:49 | a listing id is "SP-" followed by decimal digits |
| SupplierDashboard.NewListing | components/SupplierDashboard.tsx:47-57 | a new listing has zero scores and viewers, is new, belongs to the supplier, is in stock iff it has units and takes the form's fields |
| SupplierDashboard.SaveProduct | components/SupplierDashboard.tsx:40-61 | an edit is applied to the stored catalogue, or the new listing is prepended, and the result is saved |
| SupplierDashboard.SupplierCannotTouchHype | components/SupplierDashboard.tsx:40-61 | whatever the supplier does, existing products keep id, viewers, hype and velocity, and a new listing scores 0 |
| ProductCard.Discount | components/ProductCard.tsx:20 | there is a discount exactly when the original price is non-zero |
| ProductCard.DiscountIntegral | components/ProductCard.tsx:20 | the discount is the half-up quotient of 100·(orig−price) by orig |
| ProductCard.DiscountBadgeIff | components/ProductCard.tsx:38 | the badge shows iff the saving is at least half a percent, and a real discount lies in 0..100 |
| ProductCard.HalfRoundsUp | components/ProductCard.tsx:20 | a quotient of at least one half rounds to at least 1 |
| ProductCard.HalfRoundsDown | components/ProductCard.tsx:20 | a quotient below one half rounds to at most 0 |
| ProductCard.Watching | components/ProductCard.tsx:23 | the watching count is ⌊viewers/10⌋ + 2, at least 2 |
| ProductCard.Render | components/ProductCard.tsx:20-95 | the tile shows the positive discount, the critical badge for 1–5 units, the vault overlay iff out of stock, and the wishlist mark |
| ProductCard.NewListingsConsistent | components/ProductCard.tsx:87-95 | a product either console creates is vault-closed iff it has no units, so it never shows both badges |
| CategoryPanel.Search | components/CategoryPanel.tsx:34-41 | a blank input finds nothing; otherwise at most six matches of the lower-cased input, in catalogue order |
| CategoryPanel.SearchComplete | components/CategoryPanel.tsx:34-41 | the results are the first matches in order, and all of them when there are fewer than six |
| CategoryPanel.SearchSpacesCount | components/CategoryPanel.tsx:34-41 | a leading space is not trimmed away, so every result contains it |
| CategoryPanel.LeadingSpaceNotBlank | components/CategoryPanel.tsx:35 | a space before a word does not make the input blank |
| CategoryPanel.LowerLeadingSpace | components/CategoryPanel.tsx:36 | lower-casing keeps a leading space |
| CategoryPanel.TrendingProducts | components/CategoryPanel.tsx:43 | at most three products with hype above 90, the first ones in order, and all of them when fewer |
| CategoryPanel.ActiveFlags | components/CategoryPanel.tsx:129 | an entry is highlighted iff it is the active category |
| CategoryPanel.ActiveFlagsExclusive | components/CategoryPanel.tsx:129 | at most one entry is highlighted, and one is iff the active category is on the menu |
| HomeLobby.NewArrivals | components/HomeLobby.tsx:25 | the first min(4, n) products |
| HomeLobby.TrendingProducts | components/HomeLobby.tsx:26 | at most three products with hype above 85, the first ones in order, and all of them when fewer |
| HomeLobby.TrendingExcludesLowHype | components/HomeLobby.tsx:26 | a product with hype at most 85 is never trending |
| HomeLobby.TickerCategory | components/HomeLobby.tsx:33 | the ticker names the first product's category, which is also the first new arrival's; none only for an empty catalogue |
| Wishlist.Items | components/WishlistView.tsx:23 | exactly the catalogue products whose id is saved |
| Wishlist.ItemsDependOnIdSet | components/WishlistView.tsx:23 | only which ids are saved matters, and the list keeps catalogue order |
| Wishlist.ItemsDistinct | components/WishlistView.tsx:23 | without repeated catalogue ids, each saved product is listed once |
| Wishlist.VaultValue | components/WishlistView.tsx:41-45 | the vault value plus the price sum of the unsaved products is the catalogue's total; with non-negative prices it lies between 0 and that total; when no saved id names a catalogue product it is 0 |
| Wishlist.SavedAndUnsaved | components/WishlistView.tsx:41-45 | the saved items' price sum satisfies the same three facts |
| Wishlist.PriceSplit | components/WishlistView.tsx:41-45 | the saved and the unsaved products' price sums add up to the catalogue's total |
| Wishlist.EmptyStateIff | components/WishlistView.tsx:49 | the empty state shows iff no catalogue product is saved |
| Famous.Sorted | components/FamousProducts.tsx:20 | the view is a permutation, descending by velocity and stable within equal scores |
| Famous.SortedUnique | components/FamousProducts.tsx:20 | it is the one stable descending order, and sorting again changes nothing |
| Famous.RankLabel | components/FamousProducts.tsx:42 | a rank label is at least two digits |
| Famous.RankLabelReads | components/FamousProducts.tsx:42 | the first 99 labels have two digits, and every label reads back as its position from 1 |

## Left out

- Floating point: prices, counts and scores are integers, and the velocity ratio is an exact rational. IEEE rounding of the intermediate quotients is not modelled. `Math.round` is `⌊x + ½⌋`.
- Metrics.VelocityScore: requires positive users and sell-out hours (`Valid`/`Scorable`), because the model has no non-finite numbers. In the source, zero users with purchases, stock and positive hours give an Infinity adoption rate, so the score is `min(100, Infinity)` = 100. Zero hours with stock and users give an Infinity depletion rate, so the raw score is 0 and the result is 0. Zero stock with positive hours gives depletion 0, and the function returns 0 whatever the adoption rate. The remaining cases give NaN: 0/0 as the adoption or the depletion rate, or Infinity over Infinity when users and hours are both 0. Every call reads the fixed table, and all of its samples are `Valid` (`Metrics.FixtureAllScorable`).
- Metrics.ScoreAntitoneStock: requires positive stock. The zero-stock shortcut breaks antitonicity, as `Metrics.ZeroStockBreaksAntitone` shows.
- The lobby and the category panel pick trending products by `hypeScore` (above 85 at HomeLobby.tsx:26, above 90 at CategoryPanel.tsx:43), not by `velocityScore`.
- The score is assigned to products only through `getHypeRankedProducts`. `App.tsx` imports it but never uses it; the displayed catalogues carry their stored `velocityScore`.
- Text: case mapping and trimming treat only ASCII letters and ASCII whitespace. Unicode case folding and the full whitespace set of `String.prototype.trim` are not modelled.
- Optional product fields: `tags` absent is the empty list and `isNew` absent is false, as the code reads them. A new product's fields that the form lacks get empty values (empty text, 0, no details) where the source leaves them `undefined`.
- ProductCard.Discount: with original price 0 the model has no discount. The source computes NaN or ±Infinity, and for a negative price it would show an Infinity badge.
- App.AddToCartCount: requires unique line ids. That is the invariant the cart operations keep (`App.AddToCartWellFormed`).
- `addToCart` also opens the drawer (`setIsCartOpen(true)`, App.tsx:84). Drawer visibility is a parameter of `CartDrawer.DrawerTick`, not state of the model.
- Timers and delays: the cart drawer, the flash sale, the checkout's processing delay and the sign-in delay are discrete steps. The 1.5 s delay of `handleUpdateSecurity` (AdminPanel.tsx:75-84) is not modelled; `Database.UpdateAdminCredentials` models its write.
- Randomness and the clock are parameters. This covers the draws in `generateNewSale` and in the games, and today's date and the current time. The random transaction id on the success screen (CheckoutView.tsx:92) is not modelled, nor is the random velocity seeding in `mockData.ts`.
- Downloads: JSON export (`downloadJSON`, AdminDatabaseView.tsx:32-42) and the Blob/link mechanics of `downloadCSV` are left out; the CSV text itself is modelled.
- Storage contents are well-formed values. Corrupt JSON in a storage slot, which makes `JSON.parse` throw, is not modelled.
- The supplier editor's `addDetail` (SupplierProductEditor.tsx:53-58) has no input on screen, so `ProductForms.SupplierControl` excludes typing and adding a detail as well as removing one.
- Rendering, styling, navigation between views, the AI stylist, the camera try-on and the login screens are presentation or call external services, and are left out.
- The components that repeat logic modelled here are not modelled separately: the admin supplier panel, the order manager, product detail, modal and bundles, the header and payout.

=== FILE: admin_database.dfy ===
/** The admin's central-database screen: the ban toggle, the two search boxes and the
    CSV ledger export. */
module AdminDatabase {
  import opened Types
  import opened Seqs
  import opened Text
  import Database

  /** `handleToggleStatus`: an active user is banned, a banned or restricted one is reactivated. */
  function ToggleStatus(current: UserStatus): (r: UserStatus)
    ensures r == Banned <==> current == UserActive
    ensures r == UserActive <==> current != UserActive
  {
    if current == UserActive then Banned else UserActive
  }

  /** Toggling twice restores an active or banned user; a restricted one comes back active. */
  lemma ToggleStatusTwice(current: UserStatus)
    ensures current != UserRestricted ==> ToggleStatus(ToggleStatus(current)) == current
    ensures ToggleStatus(ToggleStatus(UserRestricted)) == Banned
  {
  }

  /** The toggle button: the new status is written through the database. */
  function HandleToggleStatus(st: Database.Store, userId: string, current: UserStatus): (r: (seq<User>, Database.Store))
    ensures r == Database.UpdateUserStatus(st, userId, ToggleStatus(current))
    ensures forall i | 0 <= i < |r.0| && r.0[i].id == userId :: r.0[i].status == ToggleStatus(current)
  {
    Database.UpdateUserStatus(st, userId, ToggleStatus(current))
  }

  // ---------------------------------------------------------------- search

  /** Whether a user's handle or email contains the query, ignoring case. */
  predicate UserMatches(u: User, search: string) {
    Contains(ToLower(u.handle), ToLower(search)) || Contains(ToLower(u.email), ToLower(search))
  }

  function UserMatcher(search: string): User -> bool {
    (u: User) => UserMatches(u, search)
  }

  /** `filteredUsers`. */
  function FilteredUsers(users: seq<User>, search: string): (r: seq<User>)
    ensures forall i | 0 <= i < |r| :: r[i] in users && UserMatches(r[i], search)
    ensures forall i | 0 <= i < |users| && UserMatches(users[i], search) :: users[i] in r
    ensures search == [] ==> r == users
  {
    if search == [] then
      FilterKeepsAll(users, UserMatcher(search));
      Filter(users, UserMatcher(search))
    else
      Filter(users, UserMatcher(search))
  }

  /** Whether a product's name contains the query ignoring case, or its id contains the
      query exactly. */
  predicate ProductMatches(p: Product, search: string) {
    Contains(ToLower(p.name), ToLower(search)) || Contains(p.id, search)
  }

  function ProductMatcher(search: string): Product -> bool {
    (p: Product) => ProductMatches(p, search)
  }

  /** `filteredProducts`. */
  function FilteredProducts(products: seq<Product>, search: string): (r: seq<Product>)
    ensures forall i | 0 <= i < |r| :: r[i] in products && ProductMatches(r[i], search)
    ensures forall i | 0 <= i < |products| && ProductMatches(products[i], search) :: products[i] in r
    ensures search == [] ==> r == products
  {
    if search == [] then
      FilterKeepsAll(products, ProductMatcher(search));
      Filter(products, ProductMatcher(search))
    else
      Filter(products, ProductMatcher(search))
  }

  /** The searches in terms of occurrences: a user matches iff the lower-cased query occurs
      in the lower-cased handle or email; a product matches iff the lower-cased query
      occurs in the lower-cased name or the query itself occurs in the id. */
  lemma MatchesIff(u: User, p: Product, search: string)
    ensures UserMatches(u, search) <==>
      (exists i :: OccursAt(ToLower(u.handle), ToLower(search), i))
      || (exists i :: OccursAt(ToLower(u.email), ToLower(search), i))
    ensures ProductMatches(p, search) <==>
      (exists i :: OccursAt(ToLower(p.name), ToLower(search), i))
      || (exists i :: OccursAt(p.id, search, i))
  {
    ContainsIff(ToLower(u.handle), ToLower(search));
    ContainsIff(ToLower(u.email), ToLower(search));
    ContainsIff(ToLower(p.name), ToLower(search));
    ContainsIff(p.id, search);
  }

  /** Both searches keep the listing order. */
  lemma SearchKeepsOrder(users: seq<User>, products: seq<Product>, search: string)
    ensures IsSubsequence(FilteredUsers(users, search), users)
    ensures IsSubsequence(FilteredProducts(products, search), products)
  {
    FilterIsSubsequence(users, UserMatcher(search));
    FilterIsSubsequence(products, ProductMatcher(search));
  }

  // ---------------------------------------------------------------- CSV ledger

  datatype SubTab = UsersTab | ProductsTab

  /** A string field wrapped in double quotes, without escaping. */
  function Quote(s: string): (r: string)
    ensures |r| == |s| + 2 && r[0] == '"' && r[|r| - 1] == '"' && r[1..|r| - 1] == s
  {
    "\"" + s + "\""
  }

  const UserHeaders: seq<string> :=
    ["Handle", "Email", "Archetype", "XP", "Coins", "Gems", "Status", "Last Login", "Total Spent"]

  const ProductHeaders: seq<string> :=
    ["SKU", "Name", "Category", "Price", "Original Price", "Stock", "Velocity Score"]

  /** The nine fields of a user's ledger line. */
  function UserRow(u: User): (r: seq<string>)
    ensures |r| == |UserHeaders|
  {
    [Quote(u.handle), Quote(u.email), Quote(u.archetype), IntToString(u.xp), IntToString(u.coins),
     IntToString(u.gems), Quote(u.status.Name()), Quote(u.lastLogin), IntToString(u.totalSpent)]
  }

  /** The seven fields of a product's ledger line. */
  function ProductRow(p: Product): (r: seq<string>)
    ensures |r| == |ProductHeaders|
  {
    [Quote(p.id), Quote(p.name), Quote(p.category), IntToString(p.price), IntToString(p.originalPrice),
     IntToString(p.stockCount), IntToString(p.velocityScore)]
  }

  /** One ledger line: the fields joined by commas. */
  function JoinFields(fields: seq<string>): string {
    Join(fields, ',')
  }

  /** The header line followed by one comma-joined line per record. */
  function Ledger<T>(headers: seq<string>, records: seq<T>, row: T -> seq<string>): (r: seq<string>)
    ensures |r| == |records| + 1 && r[0] == JoinFields(headers)
    ensures forall i | 0 <= i < |records| :: r[i + 1] == JoinFields(row(records[i]))
  {
    [JoinFields(headers)] + seq(|records|, i requires 0 <= i < |records| => JoinFields(row(records[i])))
  }

  function UserLines(users: seq<User>): (r: seq<string>)
    ensures |r| == |users| + 1 && r[0] == JoinFields(UserHeaders)
    ensures forall i | 0 <= i < |users| :: r[i + 1] == JoinFields(UserRow(users[i]))
  {
    Ledger(UserHeaders, users, (u: User) => UserRow(u))
  }

  function ProductLines(products: seq<Product>): (r: seq<string>)
    ensures |r| == |products| + 1 && r[0] == JoinFields(ProductHeaders)
    ensures forall i | 0 <= i < |products| :: r[i + 1] == JoinFields(ProductRow(products[i]))
  {
    Ledger(ProductHeaders, products, (p: Product) => ProductRow(p))
  }

  /** A field that cannot break the ledger's layout: no comma, no newline. */
  predicate CsvSafe(s: string) {
    ',' !in s && '\n' !in s
  }

  predicate UserCsvSafe(u: User) {
    CsvSafe(u.handle) && CsvSafe(u.email) && CsvSafe(u.archetype) && CsvSafe(u.lastLogin)
  }

  predicate ProductCsvSafe(p: Product) {
    CsvSafe(p.id) && CsvSafe(p.name) && CsvSafe(p.category)
  }

  lemma QuoteSafe(s: string)
    requires CsvSafe(s)
    ensures CsvSafe(Quote(s))
  {
  }

  lemma IntSafe(i: int)
    ensures CsvSafe(IntToString(i))
  {
    IntToStringExcludes(i, ',');
    IntToStringExcludes(i, '\n');
  }

  lemma UserRowSafe(u: User)
    requires UserCsvSafe(u)
    ensures forall k | 0 <= k < |UserRow(u)| :: CsvSafe(UserRow(u)[k])
  {
    QuoteSafe(u.handle);
    QuoteSafe(u.email);
    QuoteSafe(u.archetype);
    QuoteSafe(u.status.Name());
    QuoteSafe(u.lastLogin);
    IntSafe(u.xp);
    IntSafe(u.coins);
    IntSafe(u.gems);
    IntSafe(u.totalSpent);
  }

  lemma ProductRowSafe(p: Product)
    requires ProductCsvSafe(p)
    ensures forall k | 0 <= k < |ProductRow(p)| :: CsvSafe(ProductRow(p)[k])
  {
    QuoteSafe(p.id);
    QuoteSafe(p.name);
    QuoteSafe(p.category);
    IntSafe(p.price);
    IntSafe(p.originalPrice);
    IntSafe(p.stockCount);
    IntSafe(p.velocityScore);
  }

  /** A comma-joined line of safe fields splits back into the fields and has no newline. */
  lemma LineDecodes(fields: seq<string>)
    requires |fields| >= 1
    requires forall k | 0 <= k < |fields| :: CsvSafe(fields[k])
    ensures Split(JoinFields(fields), ',') == fields
    ensures '\n' !in JoinFields(fields)
  {
    SplitJoin(fields, ',');
    JoinPreservesAbsence(fields, ',', '\n');
  }

  lemma HeadersSafe()
    ensures forall k | 0 <= k < |UserHeaders| :: CsvSafe(UserHeaders[k])
    ensures forall k | 0 <= k < |ProductHeaders| :: CsvSafe(ProductHeaders[k])
  {
  }

  /** Every user line splits into its fields and holds no newline. */
  lemma UserLinesDecode(users: seq<User>)
    requires forall i | 0 <= i < |users| :: UserCsvSafe(users[i])
    ensures forall k | 0 <= k < |UserLines(users)| :: '\n' !in UserLines(users)[k]
    ensures forall i | 0 <= i < |users| :: Split(UserLines(users)[i + 1], ',') == UserRow(users[i])
  {
    var lines := UserLines(users);
    HeadersSafe();
    LineDecodes(UserHeaders);
    forall i | 0 <= i < |users|
      ensures Split(lines[i + 1], ',') == UserRow(users[i]) && '\n' !in lines[i + 1]
    {
      UserRowSafe(users[i]);
      LineDecodes(UserRow(users[i]));
    }
    forall k | 0 <= k < |lines| ensures '\n' !in lines[k] {
      if k > 0 {
        assert '\n' !in lines[(k - 1) + 1];
      }
    }
  }

  lemma ProductLinesDecode(products: seq<Product>)
    requires forall i | 0 <= i < |products| :: ProductCsvSafe(products[i])
    ensures forall k | 0 <= k < |ProductLines(products)| :: '\n' !in ProductLines(products)[k]
    ensures forall i | 0 <= i < |products| :: Split(ProductLines(products)[i + 1], ',') == ProductRow(products[i])
  {
    var lines := ProductLines(products);
    HeadersSafe();
    LineDecodes(ProductHeaders);
    forall i | 0 <= i < |products|
      ensures Split(lines[i + 1], ',') == ProductRow(products[i]) && '\n' !in lines[i + 1]
    {
      ProductRowSafe(products[i]);
      LineDecodes(ProductRow(products[i]));
    }
    forall k | 0 <= k < |lines| ensures '\n' !in lines[k] {
      if k > 0 {
        assert '\n' !in lines[(k - 1) + 1];
      }
    }
  }

  predicate UsersSafe(users: seq<User>) {
    forall i | 0 <= i < |users| :: UserCsvSafe(users[i])
  }

  predicate ProductsSafe(products: seq<Product>) {
    forall i | 0 <= i < |products| :: ProductCsvSafe(products[i])
  }

  /** `downloadCSV`'s content for the open tab.  It opens with the tab's header line; when
      no text field holds a comma or newline it splits at newlines back into exactly the
      ledger's lines, and it does not end in a newline. */
  function Csv(tab: SubTab, users: seq<User>, products: seq<Product>): (r: string)
    ensures tab == UsersTab ==>
      |r| >= |JoinFields(UserHeaders)| && r[..|JoinFields(UserHeaders)|] == JoinFields(UserHeaders)
    ensures tab == UsersTab && UsersSafe(users) ==>
      Split(r, '\n') == UserLines(users) && r != [] && r[|r| - 1] != '\n'
    ensures tab == ProductsTab ==>
      |r| >= |JoinFields(ProductHeaders)| && r[..|JoinFields(ProductHeaders)|] == JoinFields(ProductHeaders)
    ensures tab == ProductsTab && ProductsSafe(products) ==>
      Split(r, '\n') == ProductLines(products) && r != [] && r[|r| - 1] != '\n'
  {
    match tab
    case UsersTab =>
      UserLedgerReads(users);
      Join(UserLines(users), '\n')
    case ProductsTab =>
      ProductLedgerReads(products);
      Join(ProductLines(products), '\n')
  }

  /** A non-empty line of fields whose last field is non-empty. */
  lemma LineNonEmpty(fields: seq<string>)
    requires |fields| >= 1 && fields[|fields| - 1] != []
    ensures JoinFields(fields) != []
  {
    JoinEnds(fields, ',');
  }

  /** Lines free of newlines, the last not empty: joining them with newlines opens with
      the first line, splits back into the lines and does not end in a newline. */
  lemma LedgerReads(lines: seq<string>)
    requires |lines| >= 1 && lines[|lines| - 1] != []
    requires forall k | 0 <= k < |lines| :: '\n' !in lines[k]
    ensures Split(Join(lines, '\n'), '\n') == lines
    ensures Join(lines, '\n') != [] && Join(lines, '\n')[|Join(lines, '\n')| - 1] != '\n'
  {
    JoinEnds(lines, '\n');
    SplitJoin(lines, '\n');
    var last := lines[|lines| - 1];
    assert last[|last| - 1] in last;
  }

  lemma UserLedgerReads(users: seq<User>)
    ensures var r := Join(UserLines(users), '\n');
      |r| >= |JoinFields(UserHeaders)| && r[..|JoinFields(UserHeaders)|] == JoinFields(UserHeaders)
    ensures var r := Join(UserLines(users), '\n');
      UsersSafe(users) ==> Split(r, '\n') == UserLines(users) && r != [] && r[|r| - 1] != '\n'
  {
    var lines := UserLines(users);
    JoinEnds(lines, '\n');
    if UsersSafe(users) {
      UserLinesDecode(users);
      if users == [] {
        LineNonEmpty(UserHeaders);
      } else {
        LineNonEmpty(UserRow(users[|users| - 1]));
        assert lines[|lines| - 1] == lines[(|users| - 1) + 1];
      }
      LedgerReads(lines);
    }
  }

  lemma ProductLedgerReads(products: seq<Product>)
    ensures var r := Join(ProductLines(products), '\n');
      |r| >= |JoinFields(ProductHeaders)| && r[..|JoinFields(ProductHeaders)|] == JoinFields(ProductHeaders)
    ensures var r := Join(ProductLines(products), '\n');
      ProductsSafe(products) ==> Split(r, '\n') == ProductLines(products) && r != [] && r[|r| - 1] != '\n'
  {
    var lines := ProductLines(products);
    JoinEnds(lines, '\n');
    if ProductsSafe(products) {
      ProductLinesDecode(products);
      if products == [] {
        LineNonEmpty(ProductHeaders);
      } else {
        LineNonEmpty(ProductRow(products[|products| - 1]));
        assert lines[|lines| - 1] == lines[(|products| - 1) + 1];
      }
      LedgerReads(lines);
    }
  }

  /** When no text field holds a comma or newline, the user ledger reads back exactly:
      a header line, then line i + 1 splits into the nine fields of user i. */
  lemma UserCsvDecodes(users: seq<User>, products: seq<Product>)
    requires forall i | 0 <= i < |users| :: UserCsvSafe(users[i])
    ensures Split(Csv(UsersTab, users, products), '\n') == UserLines(users)
    ensures |Split(Csv(UsersTab, users, products), '\n')| == |users| + 1
    ensures forall i | 0 <= i < |users| ::
      Split(UserLines(users)[i + 1], ',') == UserRow(users[i]) && |UserRow(users[i])| == 9
  {
    UserLinesDecode(users);
    SplitJoin(UserLines(users), '\n');
  }

  /** The same for the product ledger, with seven fields per line. */
  lemma ProductCsvDecodes(users: seq<User>, products: seq<Product>)
    requires forall i | 0 <= i < |products| :: ProductCsvSafe(products[i])
    ensures Split(Csv(ProductsTab, users, products), '\n') == ProductLines(products)
    ensures |Split(Csv(ProductsTab, users, products), '\n')| == |products| + 1
    ensures forall i | 0 <= i < |products| ::
      Split(ProductLines(products)[i + 1], ',') == ProductRow(products[i]) && |ProductRow(products[i])| == 7
  {
    ProductLinesDecode(products);
    SplitJoin(ProductLines(products), '\n');
  }
}

=== FILE: admin_panel.dfy ===
/** The admin console's inventory and order tabs: saving the product editor's form (an
    edit or a new listing) and updating an order's status. */
module AdminPanel {
  import opened Wrappers
  import opened Types
  import opened Text
  import opened ProductForms
  import Database

  /** The console's state: its copy of the catalogue and orders, and the editor. */
  datatype Panel = Panel(products: seq<Product>, orders: seq<Order>, editorOpen: bool, editing: Option<Product>)

  /** `value || 50`: an absent or zero score becomes 50. */
  function ScoreOr50(v: Option<int>): (r: int)
    ensures r != 0
    ensures v.Some? && v.value != 0 ==> r == v.value
    ensures v.None? || v.value == 0 ==> r == 50
  {
    if v.None? || v.value == 0 then 50 else v.value
  }

  /** The listing made from a new-product form in a catalogue of `count` products. */
  function NewProduct(count: nat, form: ProductForm): (p: Product)
    ensures p.id == NatToString(count + 1)
    ensures p.viewers == 0
    ensures p.inStock <==> form.stockCount.GetOr(0) > 0
    ensures p.velocityScore == ScoreOr50(form.velocityScore) && p.hypeScore == ScoreOr50(form.hypeScore)
    ensures form.name.Some? ==> p.name == form.name.value
    ensures form.price.Some? ==> p.price == form.price.value
  {
    Merge(BlankProduct, form).(
      id := NatToString(count + 1),
      inStock := form.stockCount.GetOr(0) > 0,
      viewers := 0,
      velocityScore := ScoreOr50(form.velocityScore),
      hypeScore := ScoreOr50(form.hypeScore))
  }

  /** `handleSaveProduct`: the new catalogue is kept and saved, and the editor closes. */
  function SaveProduct(panel: Panel, st: Database.Store, form: ProductForm): (r: (Panel, Database.Store))
    ensures !r.0.editorOpen && r.0.orders == panel.orders && r.0.editing == panel.editing
    ensures r.1 == Database.SaveProducts(st, r.0.products)
    ensures panel.editing.Some? ==> r.0.products == ApplyEdit(panel.products, panel.editing.value.id, form)
    ensures panel.editing.None? ==> r.0.products == [NewProduct(|panel.products|, form)] + panel.products
  {
    var updated := match panel.editing
      case Some(e) => ApplyEdit(panel.products, e.id, form)
      case None => [NewProduct(|panel.products|, form)] + panel.products;
    (panel.(products := updated, editorOpen := false), Database.SaveProducts(st, updated))
  }

  /** An edit submitted from the admin editor (which holds the edited product's id) keeps
      every id, so the catalogue's ids are unchanged. */
  lemma EditKeepsIds(products: seq<Product>, editing: Product, form: ProductForm)
    requires form.id.None? || form.id == Some(editing.id)
    ensures forall i | 0 <= i < |products| :: ApplyEdit(products, editing.id, form)[i].id == products[i].id
  {
  }

  /** Every id that is a plain numeral names a number at most `n`. */
  predicate NumberedWithin(products: seq<Product>, n: nat) {
    forall i | 0 <= i < |products| && AllDigits(products[i].id) :: ParseNat(products[i].id) <= n
  }

  /** While every numeric id is at most the catalogue size (as in the seed catalogue,
      numbered from 1), a new listing's id is not yet taken, and the property holds again
      after it is added. */
  lemma NewIdFresh(panel: Panel, st: Database.Store, form: ProductForm)
    requires panel.editing.None?
    requires NumberedWithin(panel.products, |panel.products|)
    ensures !HasId(panel.products, NatToString(|panel.products| + 1))
    ensures NumberedWithin(SaveProduct(panel, st, form).0.products, |SaveProduct(panel, st, form).0.products|)
  {
    var id := NatToString(|panel.products| + 1);
    ParseNatToString(|panel.products| + 1);
    var r := SaveProduct(panel, st, form).0.products;
    forall i | 0 <= i < |r| && AllDigits(r[i].id) ensures ParseNat(r[i].id) <= |r| {
      if i > 0 {
        assert r[i] == panel.products[i - 1];
      }
    }
  }

  // ---------------------------------------------------------------- orders

  /** `tracking || order.trackingNumber`: only a non-empty tracking number replaces the old one. */
  function NewTracking(tracking: Option<string>, current: Option<string>): (r: Option<string>)
    ensures r == tracking || r == current
    ensures tracking.Some? && tracking.value != [] ==> r == tracking
    ensures current.Some? && current.value != [] ==> r.Some? && r.value != []
    ensures r.None? ==> current.None?
  {
    if tracking.Some? && tracking.value != [] then tracking else current
  }

  /** `handleUpdateOrderStatus`. */
  function UpdateOrderStatus(orders: seq<Order>, orderId: string, status: OrderStatus, tracking: Option<string>): (r: seq<Order>)
    ensures |r| == |orders|
    ensures forall i | 0 <= i < |orders| && orders[i].id != orderId :: r[i] == orders[i]
    ensures forall i | 0 <= i < |orders| && orders[i].id == orderId ::
      r[i].status == status && r[i].trackingNumber == NewTracking(tracking, orders[i].trackingNumber)
      && r[i].(status := orders[i].status, trackingNumber := orders[i].trackingNumber) == orders[i]
  {
    seq(|orders|, i requires 0 <= i < |orders| =>
      if orders[i].id == orderId
      then orders[i].(status := status, trackingNumber := NewTracking(tracking, orders[i].trackingNumber))
      else orders[i])
  }

  /** A blank tracking input never erases a tracking number, and repeating an update is
      the same as doing it once. */
  lemma UpdateOrderStatusLaws(orders: seq<Order>, orderId: string, status: OrderStatus, tracking: Option<string>)
    ensures forall i | 0 <= i < |orders| && orders[i].trackingNumber.Some? ::
      UpdateOrderStatus(orders, orderId, status, Some([]))[i].trackingNumber == orders[i].trackingNumber
    ensures var once := UpdateOrderStatus(orders, orderId, status, tracking);
      UpdateOrderStatus(once, orderId, status, tracking) == once
  {
  }

  /** The panel's order handler. */
  function HandleUpdateOrderStatus(panel: Panel, orderId: string, status: OrderStatus, tracking: Option<string>): (r: Panel)
    ensures r.orders == UpdateOrderStatus(panel.orders, orderId, status, tracking)
    ensures r.(orders := panel.orders) == panel
  {
    panel.(orders := UpdateOrderStatus(panel.orders, orderId, status, tracking))
  }
}

=== FILE: app.dfy ===
/** The shopping state kept by the application shell: the cart, the wishlist of
    product ids, the quest list, and the category filter of the FAMOUS view. */
module App {
  import opened Wrappers
  import opened Types
  import opened Seqs

  type Cart = seq<CartItem>

  predicate InCart(cart: Cart, id: string) {
    exists i | 0 <= i < |cart| :: cart[i].Id() == id
  }

  /** No two cart lines share a product id. */
  predicate UniqueIds(cart: Cart) {
    forall i, j | 0 <= i < j < |cart| :: cart[i].Id() != cart[j].Id()
  }

  /** Every line holds at least one unit. */
  predicate PositiveQuantities(cart: Cart) {
    forall i | 0 <= i < |cart| :: cart[i].quantity >= 1
  }

  /** The invariant the cart operations keep. */
  predicate WellFormed(cart: Cart) {
    UniqueIds(cart) && PositiveQuantities(cart)
  }

  /** The header's cart badge: the number of units over all lines. It is 0 for an
      empty cart, never negative when no quantity is, and at least the number of lines
      when every line holds at least one unit. */
  function CartCount(cart: Cart): (r: int)
    ensures cart == [] ==> r == 0
    ensures (forall i | 0 <= i < |cart| :: cart[i].quantity >= 0) ==> r >= 0
    ensures PositiveQuantities(cart) ==> r >= |cart|
  {
    if cart == [] then 0 else cart[0].quantity + CartCount(cart[1..])
  }

  lemma {:induction false} CartCountAppend(a: Cart, b: Cart)
    ensures CartCount(a + b) == CartCount(a) + CartCount(b)
  {
    if a == [] {
      assert a + b == b;
    } else {
      assert (a + b)[1..] == a[1..] + b;
      CartCountAppend(a[1..], b);
    }
  }

  /** Every line whose id is `id` gets one more unit. */
  function Bump(cart: Cart, id: string): (r: Cart)
    ensures |r| == |cart|
    ensures forall i | 0 <= i < |cart| :: r[i].product == cart[i].product
    ensures forall i | 0 <= i < |cart| ::
      r[i].quantity == if cart[i].Id() == id then cart[i].quantity + 1 else cart[i].quantity
  {
    if cart == [] then []
    else
      var head := if cart[0].Id() == id then cart[0].(quantity := cart[0].quantity + 1) else cart[0];
      [head] + Bump(cart[1..], id)
  }

  /** `addToCart`: one more unit of a product already in the cart, otherwise a new
      line with one unit at the end. */
  function AddToCart(cart: Cart, p: Product): (r: Cart)
    ensures InCart(cart, p.id) ==> |r| == |cart|
    ensures !InCart(cart, p.id) ==> r == cart + [CartItem(p, 1)]
    ensures InCart(r, p.id)
  {
    if InCart(cart, p.id) then Bump(cart, p.id)
    else
      var r := cart + [CartItem(p, 1)];
      assert r[|cart|].Id() == p.id;
      r
  }

  /** The lines of a cart that already held the product are those of the old cart, the
      one holding the product with one more unit. */
  lemma AddToCartExisting(cart: Cart, p: Product, k: nat)
    requires UniqueIds(cart) && k < |cart| && cart[k].Id() == p.id
    ensures AddToCart(cart, p) == cart[k := cart[k].(quantity := cart[k].quantity + 1)]
  {
    var r, s := AddToCart(cart, p), cart[k := cart[k].(quantity := cart[k].quantity + 1)];
    assert |r| == |s|;
    forall i | 0 <= i < |r| ensures r[i] == s[i] {
      assert r[i].product == cart[i].product;
    }
  }

  /** In a cart without duplicate lines, adding raises the cart count by exactly one. */
  lemma {:induction false} AddToCartCount(cart: Cart, p: Product)
    requires UniqueIds(cart)
    ensures CartCount(AddToCart(cart, p)) == CartCount(cart) + 1
  {
    if InCart(cart, p.id) {
      var i :| 0 <= i < |cart| && cart[i].Id() == p.id;
      BumpCount(cart, p.id, i);
    } else {
      CartCountAppend(cart, [CartItem(p, 1)]);
    }
  }

  /** Bumping a cart with exactly one line of `id` adds one unit; with unique ids the
      line at `i` is that line. */
  lemma {:induction false} BumpCount(cart: Cart, id: string, i: nat)
    requires i < |cart| && cart[i].Id() == id
    requires forall j | 0 <= j < |cart| && j != i :: cart[j].Id() != id
    ensures CartCount(Bump(cart, id)) == CartCount(cart) + 1
  {
    if i == 0 {
      BumpNone(cart[1..], id);
    } else {
      BumpCount(cart[1..], id, i - 1);
    }
  }

  lemma {:induction false} BumpNone(cart: Cart, id: string)
    requires forall j | 0 <= j < |cart| :: cart[j].Id() != id
    ensures Bump(cart, id) == cart
  {
    if cart != [] {
      BumpNone(cart[1..], id);
    }
  }

  /** `addToCart` keeps the cart well formed. */
  lemma AddToCartWellFormed(cart: Cart, p: Product)
    requires WellFormed(cart)
    ensures WellFormed(AddToCart(cart, p))
  {
    var r := AddToCart(cart, p);
    if InCart(cart, p.id) {
      forall i, j | 0 <= i < j < |r| ensures r[i].Id() != r[j].Id() {
        assert r[i].product == cart[i].product && r[j].product == cart[j].product;
      }
    } else {
      forall i, j | 0 <= i < j < |r| ensures r[i].Id() != r[j].Id() {
        if j == |cart| {
          assert r[i] == cart[i];
        } else {
          assert r[i] == cart[i] && r[j] == cart[j];
        }
      }
    }
  }

  /** The lobby's add button: an unknown id leaves the cart alone. */
  function AddToCartById(catalogue: seq<Product>, cart: Cart, id: string): (r: Cart)
    ensures !HasId(catalogue, id) ==> r == cart
    ensures HasId(catalogue, id) ==> InCart(r, id) && r == AddToCart(cart, FindProduct(catalogue, id).value)
  {
    match FindProduct(catalogue, id)
    case None => cart
    case Some(p) => AddToCart(cart, p)
  }

  /** `cart.filter(i => i.id !== id)` as a test. */
  function OtherLine(id: string): CartItem -> bool {
    (c: CartItem) => c.Id() != id
  }

  /** The drawer's remove button. */
  function RemoveLine(cart: Cart, id: string): (r: Cart)
    ensures !InCart(r, id)
    ensures forall i | 0 <= i < |cart| && cart[i].Id() != id :: cart[i] in r
    ensures forall i | 0 <= i < |r| :: r[i] in cart
  {
    Filter(cart, OtherLine(id))
  }

  /** Removal keeps the remaining lines in their order and keeps the cart well formed. */
  lemma RemoveLineWellFormed(cart: Cart, id: string)
    requires WellFormed(cart)
    ensures IsSubsequence(RemoveLine(cart, id), cart)
    ensures WellFormed(RemoveLine(cart, id))
  {
    FilterIsSubsequence(cart, OtherLine(id));
    SubsequenceKeepsWellFormed(RemoveLine(cart, id), cart);
  }

  /** Removal keeps every other line as often as it occurred and no line with that id. */
  lemma RemoveLineCount(cart: Cart, id: string, line: CartItem)
    ensures multiset(RemoveLine(cart, id))[line] == if line.Id() != id then multiset(cart)[line] else 0
  {
    FilterCount(cart, OtherLine(id), line);
  }

  function LineId(c: CartItem): string {
    c.Id()
  }

  lemma SubsequenceKeepsWellFormed(a: Cart, b: Cart)
    requires IsSubsequence(a, b) && WellFormed(b)
    ensures WellFormed(a)
  {
    assert DistinctBy(b, LineId);
    SubsequenceKeepsDistinct(a, b, LineId);
    SubsequenceElements(a, b);
  }

  /** The drawer's quantity buttons: the line for `id` moves by `delta` but never below
      one unit; every other line is untouched. */
  function UpdateQuantity(cart: Cart, id: string, delta: int): (r: Cart)
    ensures |r| == |cart|
    ensures forall i | 0 <= i < |cart| :: r[i].product == cart[i].product
    ensures forall i | 0 <= i < |cart| && cart[i].Id() == id ::
      r[i].quantity >= 1 && r[i].quantity >= cart[i].quantity + delta
      && (r[i].quantity == 1 || r[i].quantity == cart[i].quantity + delta)
    ensures forall i | 0 <= i < |cart| && cart[i].Id() != id :: r[i] == cart[i]
  {
    if cart == [] then []
    else
      var c := cart[0];
      var q := c.quantity + delta;
      var head := if c.Id() == id then c.(quantity := if q >= 1 then q else 1) else c;
      [head] + UpdateQuantity(cart[1..], id, delta)
  }

  /** Changing quantities keeps the cart well formed. */
  lemma UpdateQuantityWellFormed(cart: Cart, id: string, delta: int)
    requires WellFormed(cart)
    ensures WellFormed(UpdateQuantity(cart, id, delta))
  {
    var r := UpdateQuantity(cart, id, delta);
    forall i, j | 0 <= i < j < |r| ensures r[i].Id() != r[j].Id() {
      assert r[i].product == cart[i].product && r[j].product == cart[j].product;
    }
  }

  // ---------------------------------------------------------------- wishlist

  function OtherId(id: string): string -> bool {
    (x: string) => x != id
  }

  /** `toggleWishlist`: drop every copy of an id that is present, append one that is not. */
  function ToggleWishlist(wishlist: seq<string>, id: string): (r: seq<string>)
    ensures id in r <==> id !in wishlist
    ensures forall x | x != id :: x in r <==> x in wishlist
    ensures id !in wishlist ==> r == wishlist + [id]
  {
    if id in wishlist then Filter(wishlist, OtherId(id)) else wishlist + [id]
  }

  /** Toggling an absent id twice gives back the original wishlist. */
  lemma ToggleTwice(wishlist: seq<string>, id: string)
    requires id !in wishlist
    ensures ToggleWishlist(ToggleWishlist(wishlist, id), id) == wishlist
  {
    FilterAppend(wishlist, [id], OtherId(id));
    FilterKeepsAll(wishlist, OtherId(id));
  }

  // ---------------------------------------------------------------- quests and views

  /** `onCompleteQuest`: the quest with that id is marked completed. */
  function CompleteQuest(quests: seq<Quest>, id: string): (r: seq<Quest>)
    ensures |r| == |quests|
    ensures forall i | 0 <= i < |quests| ::
      r[i].completed == (quests[i].completed || quests[i].id == id)
      && r[i].(completed := quests[i].completed) == quests[i]
  {
    seq(|quests|, i requires 0 <= i < |quests| =>
      if quests[i].id == id then quests[i].(completed := true) else quests[i])
  }

  /** Completing a quest twice is the same as once, and never un-completes another. */
  lemma CompleteQuestIdempotent(quests: seq<Quest>, id: string)
    ensures CompleteQuest(CompleteQuest(quests, id), id) == CompleteQuest(quests, id)
  {
  }

  function InCategory(category: Category): Product -> bool {
    (p: Product) => p.category == category
  }

  /** The catalogue shown in the FAMOUS view for the selected category. */
  function CategoryView(catalogue: seq<Product>, category: Category): (r: seq<Product>)
    ensures category == AllCategories ==> r == catalogue
    ensures category != AllCategories ==>
      (forall i | 0 <= i < |r| :: r[i].category == category && r[i] in catalogue)
      && (forall i | 0 <= i < |catalogue| && catalogue[i].category == category :: catalogue[i] in r)
  {
    if category == AllCategories then catalogue else Filter(catalogue, InCategory(category))
  }

  /** A category view keeps catalogue order. */
  lemma CategoryViewOrder(catalogue: seq<Product>, category: Category)
    ensures IsSubsequence(CategoryView(catalogue, category), catalogue)
  {
    if category == AllCategories {
      SubsequenceRefl(catalogue);
    } else {
      FilterIsSubsequence(catalogue, InCategory(category));
    }
  }
}

=== FILE: arena.dfy ===
/** The style arena: entries shown one at a time, each vote reported for the entry on
    screen, the index advancing round-robin. */
module Arena {

  datatype Entry = Entry(id: string, user: string)

  /** The three entries the arena cycles through. */
  const Entries: seq<Entry> := [Entry("e1", "Leo_01"), Entry("e2", "X_Ghost"), Entry("e3", "Elena_V")]

  /** The two vote buttons. */
  datatype Vote = Down | Up {
    function Score(): (s: int)
      ensures s == -1 || s == 1
    {
      match this
      case Down => -1
      case Up => 1
    }
  }

  datatype ArenaState = ArenaState(index: nat, votes: nat)

  predicate Valid(a: ArenaState) {
    a.index < |Entries|
  }

  /** The entry on screen. */
  function Current(a: ArenaState): Entry
    requires Valid(a)
  {
    Entries[a.index]
  }

  /** `handleVoteAction`: the report sent (`onVote(entry id, score)`) and the next state. */
  function CastVote(a: ArenaState, v: Vote): (r: (ArenaState, (string, int)))
    requires Valid(a)
    ensures Valid(r.0)
    ensures r.0.votes == a.votes + 1
    ensures r.0.index == (a.index + 1) % |Entries|
    ensures r.1 == (Current(a).id, v.Score())
  {
    var next := if a.index < |Entries| - 1 then a.index + 1 else 0;
    (ArenaState(next, a.votes + 1), (Entries[a.index].id, v.Score()))
  }

  function VoteRun(a: ArenaState, votes: seq<Vote>): (r: ArenaState)
    requires Valid(a)
    ensures Valid(r)
    decreases |votes|
  {
    if votes == [] then a else VoteRun(CastVote(a, votes[0]).0, votes[1..])
  }

  /** After `n` votes from the first entry the arena shows entry `n mod 3` and counts `n` votes. */
  lemma {:induction false} VoteRunPosition(a: ArenaState, votes: seq<Vote>)
    requires Valid(a)
    ensures VoteRun(a, votes).index == (a.index + |votes|) % |Entries|
    ensures VoteRun(a, votes).votes == a.votes + |votes|
    decreases |votes|
  {
    if votes != [] {
      var b := CastVote(a, votes[0]).0;
      VoteRunPosition(b, votes[1..]);
    }
  }
}

=== FILE: arith.dfy ===
/** Exact stand-ins for the JavaScript numeric helpers the storefront uses:
    `Math.min`, `Math.max`, `Math.floor` of a quotient and `Math.round`. */
module Arith {

  function Min(a: int, b: int): (r: int)
    ensures r <= a && r <= b && (r == a || r == b)
  {
    if a <= b then a else b
  }

  function Max(a: int, b: int): (r: int)
    ensures r >= a && r >= b && (r == a || r == b)
  {
    if a >= b then a else b
  }

  /** `Math.round(x)`: the nearest integer, halves rounded towards +infinity. */
  function RoundReal(x: real): (r: int)
    ensures r as real - 0.5 <= x < r as real + 0.5
  {
    (x + 0.5).Floor
  }

  /** `Math.round(n / d)` for a positive divisor, computed without leaving the integers. */
  function RoundDiv(n: int, d: int): (r: int)
    requires d > 0
    ensures 2 * d * r - d <= 2 * n < 2 * d * r + d
  {
    var q := (2 * n + d) / (2 * d);
    assert (2 * d) * q <= 2 * n + d < (2 * d) * q + 2 * d;
    q
  }

  /** `Math.floor(n / d)` for a positive divisor. */
  function FloorDiv(n: int, d: int): (r: int)
    requires d > 0
    ensures d * r <= n < d * r + d
  {
    n / d
  }

  /** The integer rounding agrees with rounding the exact rational quotient. */
  lemma RoundDivIsRoundReal(n: int, d: int)
    requires d > 0
    ensures RoundDiv(n, d) == RoundReal(n as real / d as real)
  {
    var r := RoundDiv(n, d);
    var nr, dr, rr := n as real, d as real, r as real;
    assert 2 * d * r - d <= 2 * n < 2 * d * r + d;
    assert dr * (2.0 * rr - 1.0) <= 2.0 * nr by {
      assert (d * (2 * r - 1)) as real == dr * (2 * r - 1) as real;
    }
    assert 2.0 * nr < dr * (2.0 * rr + 1.0) by {
      assert (d * (2 * r + 1)) as real == dr * (2 * r + 1) as real;
    }
    DivideWindow(nr, rr, dr);
    RoundRealUnique(nr / dr, r);
  }

  lemma DivideWindow(n: real, r: real, d: real)
    requires d > 0.0
    requires d * (2.0 * r - 1.0) <= 2.0 * n
    requires 2.0 * n < d * (2.0 * r + 1.0)
    ensures r - 0.5 <= n / d < r + 0.5
  {
    var x := n / d;
    assert n == d * x;
    ScaleCancels(d, 2.0 * r - 1.0, 2.0 * x);
    ScaleCancelsStrict(d, 2.0 * x, 2.0 * r + 1.0);
  }

  lemma ScaleCancels(d: real, a: real, b: real)
    requires d > 0.0 && d * a <= d * b
    ensures a <= b
  {
  }

  lemma ScaleCancelsStrict(d: real, a: real, b: real)
    requires d > 0.0 && d * a < d * b
    ensures a < b
  {
  }

  /** Only one integer lies within half a unit of `x` (on the half-open window). */
  lemma RoundRealUnique(x: real, r: int)
    requires r as real - 0.5 <= x < r as real + 0.5
    ensures RoundReal(x) == r
  {
  }

  /** Rounding never reverses the order of two reals. */
  lemma RoundRealMonotone(x: real, y: real)
    requires x <= y
    ensures RoundReal(x) <= RoundReal(y)
  {
  }

  /** `d · x < d` with `d` positive forces `x < 1`. */
  lemma MulCancel(d: int, x: int)
    requires d > 0 && d * x < d
    ensures x < 1
  {
  }
  /** Half-up division never reverses an order between numerators. */
  lemma RoundDivMonotone(n1: int, n2: int, d: int)
    requires d > 0 && n1 <= n2
    ensures RoundDiv(n1, d) <= RoundDiv(n2, d)
  {
    var r1, r2 := RoundDiv(n1, d), RoundDiv(n2, d);
    assert (2 * d) * (r1 - r2) < 2 * d;
    MulCancel(2 * d, r1 - r2);
  }
  /** An exact multiple divides back to its factor. */
  lemma RoundDivExact(k: int, d: int)
    requires d > 0
    ensures RoundDiv(k * d, d) == k
  {
    var r := RoundDiv(k * d, d);
    assert (2 * d) * (r - k) <= d < 2 * d;
    assert (2 * d) * (k - r) < d < 2 * d;
    MulCancel(2 * d, r - k);
    MulCancel(2 * d, k - r);
  }

  /** Scaling a draw from `[0, 1)` by `n >= 0` lands in `[0, n]`, and below `n` when `n > 0`. */
  lemma ScaleDraw(r: real, n: real)
    requires 0.0 <= r < 1.0 && n >= 0.0
    ensures 0.0 <= r * n <= n
    ensures n > 0.0 ==> r * n < n
  {
  }

  /** A value `Math.random()` can return. */
  predicate IsDraw(r: real) {
    0.0 <= r < 1.0
  }

  /** `Math.floor(Math.random() * n)` for the draw `r` and `n >= 0`: a value in `[0, n)` when `n > 0`. */
  function Pick(r: real, n: nat): (k: int)
    requires IsDraw(r)
    ensures n > 0 ==> 0 <= k < n
  {
    var x := r * n as real;
    ScaleDraw(r, n as real);
    x.Floor
  }
}

=== FILE: cart_drawer.dfy ===
/** The cart drawer: money totals over the cart lines, the savings percentage
    ("efficiency"), and the ten-minute expiry countdown with its `M:SS` display. */
module CartDrawer {
  import opened Types
  import opened Arith
  import opened Text

  /** `Σ price · quantity` over the lines: 0 for an empty cart and for a cart whose
      quantities are all 0, never negative when no price or quantity is. */
  function Subtotal(items: seq<CartItem>): (r: int)
    ensures items == [] ==> r == 0
    ensures (forall i | 0 <= i < |items| :: items[i].product.price >= 0 && items[i].quantity >= 0) ==> r >= 0
    ensures (forall i | 0 <= i < |items| :: items[i].quantity == 0) ==> r == 0
  {
    if items == [] then 0
    else items[0].product.price * items[0].quantity + Subtotal(items[1..])
  }

  /** `Σ originalPrice · quantity` over the lines, with the same three facts. */
  function TotalOriginal(items: seq<CartItem>): (r: int)
    ensures items == [] ==> r == 0
    ensures (forall i | 0 <= i < |items| :: items[i].product.originalPrice >= 0 && items[i].quantity >= 0) ==> r >= 0
    ensures (forall i | 0 <= i < |items| :: items[i].quantity == 0) ==> r == 0
  {
    if items == [] then 0
    else items[0].product.originalPrice * items[0].quantity + TotalOriginal(items[1..])
  }

  /** Both totals add up line by line over a concatenation of carts. */
  lemma {:induction false} TotalsAppend(a: seq<CartItem>, b: seq<CartItem>)
    ensures Subtotal(a + b) == Subtotal(a) + Subtotal(b)
    ensures TotalOriginal(a + b) == TotalOriginal(a) + TotalOriginal(b)
  {
    if a == [] {
      assert a + b == b;
    } else {
      assert (a + b)[1..] == a[1..] + b;
      TotalsAppend(a[1..], b);
    }
  }

  /** Every line is priced at most at its original price, nothing is negative. */
  predicate Discounted(items: seq<CartItem>) {
    forall i | 0 <= i < |items| ::
      0 <= items[i].product.price <= items[i].product.originalPrice && items[i].quantity >= 0
  }

  lemma MulLe(a: int, b: int, q: int)
    requires a <= b && q >= 0
    ensures a * q <= b * q
  {
  }

  /** On discounted lines the subtotal lies between 0 and the original total. */
  lemma {:induction false} SubtotalBounds(items: seq<CartItem>)
    requires Discounted(items)
    ensures 0 <= Subtotal(items) <= TotalOriginal(items)
  {
    if items != [] {
      var p, q := items[0].product, items[0].quantity;
      MulLe(0, p.price, q);
      MulLe(p.price, p.originalPrice, q);
      SubtotalBounds(items[1..]);
    }
  }

  /** `round(((orig - sub) / orig) · 100)` in reals is the half-up integer quotient
      of `100 · (orig - sub)` by `orig`. */
  lemma RoundPercent(sub: int, orig: int)
    requires orig > 0
    ensures RoundReal((orig - sub) as real / orig as real * 100.0) == RoundDiv(100 * (orig - sub), orig)
  {
    var n := orig - sub;
    var x := n as real / orig as real;
    assert x * orig as real == n as real;
    assert (x * 100.0) * orig as real == (100 * n) as real;
    assert x * 100.0 == (100 * n) as real / orig as real;
    RoundDivIsRoundReal(100 * n, orig);
  }

  /** The savings percentage: `round(((orig - sub) / orig) · 100)`, which is the
      half-up quotient of `100 · (orig - sub)` by `orig`, or 0 when the original total
      is not positive. */
  function Efficiency(items: seq<CartItem>): (r: int)
    ensures TotalOriginal(items) > 0 ==>
      r == RoundDiv(100 * (TotalOriginal(items) - Subtotal(items)), TotalOriginal(items))
    ensures TotalOriginal(items) <= 0 ==> r == 0
  {
    var sub, orig := Subtotal(items), TotalOriginal(items);
    if orig > 0 then
      RoundPercent(sub, orig);
      RoundReal((orig - sub) as real / orig as real * 100.0)
    else 0
  }

  /** On a discounted cart the percentage is between 0 and 100; it is 0 exactly when
      no money is saved, up to rounding (a saving under half a percent shows as 0). */
  lemma EfficiencyBounds(items: seq<CartItem>)
    requires Discounted(items)
    ensures 0 <= Efficiency(items) <= 100
    ensures Subtotal(items) == TotalOriginal(items) ==> Efficiency(items) == 0
    ensures Efficiency(items) == 0 && TotalOriginal(items) > 0 ==>
      200 * (TotalOriginal(items) - Subtotal(items)) < TotalOriginal(items)
  {
    SubtotalBounds(items);
    var sub, orig := Subtotal(items), TotalOriginal(items);
    if orig > 0 {
      var r := Efficiency(items);
      RoundDivExact(0, orig);
      RoundDivExact(100, orig);
      RoundDivMonotone(0, 100 * (orig - sub), orig);
      RoundDivMonotone(100 * (orig - sub), 100 * orig, orig);
      if r == 0 {
        assert 2 * orig * r == 0;
      }
    }
  }

  // ---------------------------------------------------------------- expiry countdown

  /** The countdown starts at ten minutes. */
  const InitialExpiry: nat := 600

  /** One second of the interval: down by one, never below zero. */
  function Tick(expiry: nat): (r: nat)
    ensures r <= expiry
    ensures expiry > 0 ==> r + 1 == expiry
    ensures r == expiry <==> expiry == 0
  {
    if expiry > 0 then expiry - 1 else 0
  }

  /** The interval runs only while the drawer is open and the cart has lines. */
  function DrawerTick(isOpen: bool, items: seq<CartItem>, expiry: nat): (r: nat)
    ensures r <= expiry
    ensures r == expiry <==> !isOpen || items == [] || expiry == 0
    ensures r < expiry ==> r + 1 == expiry
  {
    if !isOpen || items == [] then expiry else Tick(expiry)
  }

  /** `n` seconds of the drawer in one state. */
  function DrawerTicks(isOpen: bool, items: seq<CartItem>, expiry: nat, n: nat): nat {
    if n == 0 then expiry else DrawerTick(isOpen, items, DrawerTicks(isOpen, items, expiry, n - 1))
  }

  /** However long a closed or empty drawer waits, the countdown stands still; an open
      drawer with lines reads `max(0, expiry - n)` after `n` seconds. */
  lemma {:induction false} DrawerTicksValue(isOpen: bool, items: seq<CartItem>, expiry: nat, n: nat)
    ensures !isOpen || items == [] ==> DrawerTicks(isOpen, items, expiry, n) == expiry
    ensures isOpen && items != [] ==> DrawerTicks(isOpen, items, expiry, n) == Max(0, expiry - n)
  {
    if n > 0 {
      DrawerTicksValue(isOpen, items, expiry, n - 1);
    }
  }

  /** `n` ticks of an open, non-empty drawer. */
  function Ticks(expiry: nat, n: nat): nat {
    if n == 0 then expiry else Tick(Ticks(expiry, n - 1))
  }

  /** After `n` seconds the countdown reads `max(0, expiry - n)`. */
  lemma {:induction false} TicksValue(expiry: nat, n: nat)
    ensures Ticks(expiry, n) == Max(0, expiry - n)
  {
    if n > 0 {
      TicksValue(expiry, n - 1);
    }
  }

  /** `Math.floor(expiry / 60)` and `expiry % 60`. */
  function MinSec(expiry: nat): (r: (nat, nat))
    ensures r.0 * 60 + r.1 == expiry && r.1 < 60
  {
    (expiry / 60, expiry % 60)
  }

  /** The red, critical look below one minute: exactly when the minutes read 0. */
  predicate IsCritical(expiry: nat)
    ensures IsCritical(expiry) <==> MinSec(expiry).0 == 0
  {
    expiry < 60
  }

  /** `{m}:{s.toString().padStart(2, '0')}`. */
  function MsText(m: nat, s: nat): string {
    Join([NatToString(m), PadStart2(NatToString(s))], ':')
  }

  /** For seconds below 60 the text is two digit strings around the colon, the second
      of exactly two digits, reading back as `m · 60 + s`. */
  lemma MsTextDecodes(m: nat, s: nat)
    requires s < 60
    ensures |Split(MsText(m, s), ':')| == 2
    ensures AllDigits(Split(MsText(m, s), ':')[0]) && AllDigits(Split(MsText(m, s), ':')[1])
    ensures |Split(MsText(m, s), ':')[1]| == 2
    ensures ParseNat(Split(MsText(m, s), ':')[0]) * 60 + ParseNat(Split(MsText(m, s), ':')[1]) == m * 60 + s
  {
    var a, b := NatToString(m), PadStart2(NatToString(s));
    PadNumberBelow100(s);
    ParseNatToString(m);
    DigitsExclude(a, ':');
    DigitsExclude(b, ':');
    SplitJoin([a, b], ':');
  }

  /** The `M:SS` display. It reads back: two pieces around the colon, the seconds as
      exactly two digits, and minutes · 60 + seconds is the countdown. */
  function TimerText(expiry: nat): (r: string)
    ensures |Split(r, ':')| == 2
    ensures AllDigits(Split(r, ':')[0]) && AllDigits(Split(r, ':')[1])
    ensures |Split(r, ':')[1]| == 2
    ensures ParseNat(Split(r, ':')[0]) * 60 + ParseNat(Split(r, ':')[1]) == expiry
  {
    var (m, s) := MinSec(expiry);
    MsTextDecodes(m, s);
    MsText(m, s)
  }
}

=== FILE: category_panel.dfy ===
/** The slide-out category panel: its search box, its trending strip and the highlight
    on the selected category. */
module CategoryPanel {
  import opened Types
  import opened Seqs
  import opened Text

  const MaxResults: nat := 6
  const MaxTrending: nat := 3
  const TrendingHype: int := 90

  /** The menu's categories, in order. */
  const MenuCategories: seq<Category> := ["All", "Apparel", "Accessories", "Beauty", "Home"]

  /** A product matches when its lower-cased name or category contains `query`, which
      is the lower-cased raw input (not trimmed). */
  predicate SearchMatches(p: Product, query: string) {
    Contains(ToLower(p.name), query) || Contains(ToLower(p.category), query)
  }

  function SearchMatcher(query: string): Product -> bool {
    (p: Product) => SearchMatches(p, query)
  }

  /** `filteredProducts`: nothing for a blank input, otherwise the first six matches. */
  function Search(products: seq<Product>, input: string): (r: seq<Product>)
    ensures Trim(input) == [] ==> r == []
    ensures Trim(input) != [] ==> r == FirstMatches(products, SearchMatcher(ToLower(input)), MaxResults)
    ensures |r| <= MaxResults
    ensures forall i | 0 <= i < |r| :: r[i] in products && SearchMatches(r[i], ToLower(input))
  {
    if Trim(input) == [] then [] else FirstMatches(products, SearchMatcher(ToLower(input)), MaxResults)
  }

  /** A non-blank search lists matches in catalogue order, and every match when there are
      fewer than six. */
  lemma SearchComplete(products: seq<Product>, input: string)
    requires Trim(input) != []
    ensures var r := Search(products, input);
      |r| <= |Filter(products, SearchMatcher(ToLower(input)))|
      && r == Filter(products, SearchMatcher(ToLower(input)))[..|r|]
      && (|r| < MaxResults ==>
            forall i | 0 <= i < |products| && SearchMatches(products[i], ToLower(input)) :: products[i] in r)
  {
    var f := Filter(products, SearchMatcher(ToLower(input)));
    var r := Search(products, input);
    if |r| < MaxResults {
      assert r == f;
      forall i | 0 <= i < |products| && SearchMatches(products[i], ToLower(input)) ensures products[i] in r {
        assert SearchMatcher(ToLower(input))(products[i]);
      }
    }
  }

  /** Because the match uses the untrimmed input, surrounding spaces take part in it: an
      input with a leading space is not blank, and finds only names or categories with a
      space before the word. */
  lemma SearchSpacesCount(products: seq<Product>, word: string)
    requires Trim(word) == word && word != []
    ensures Trim(" " + word) != []
    ensures forall i | 0 <= i < |Search(products, " " + word)| ::
      SearchMatches(Search(products, " " + word)[i], " " + ToLower(word))
  {
    LeadingSpaceNotBlank(word);
    LowerLeadingSpace(word);
  }

  lemma LeadingSpaceNotBlank(word: string)
    requires Trim(word) == word && word != []
    ensures Trim(" " + word) != []
  {
    assert !IsSpace(word[0]);
    assert (" " + word)[1] == word[0];
  }

  lemma LowerLeadingSpace(word: string)
    ensures ToLower(" " + word) == " " + ToLower(word)
  {
    assert forall i | 0 <= i < |word| :: (" " + word)[i + 1] == word[i];
  }

  predicate Trending(p: Product) {
    p.hypeScore > TrendingHype
  }

  function TrendingTest(): Product -> bool {
    (p: Product) => Trending(p)
  }

  /** `trendingProducts`: the first three products with hype above 90. */
  function TrendingProducts(products: seq<Product>): (r: seq<Product>)
    ensures |r| <= MaxTrending
    ensures forall i | 0 <= i < |r| :: r[i] in products && r[i].hypeScore > TrendingHype
    ensures |r| <= |Filter(products, TrendingTest())| && r == Filter(products, TrendingTest())[..|r|]
    ensures |r| < MaxTrending ==> forall i | 0 <= i < |products| && products[i].hypeScore > TrendingHype :: products[i] in r
  {
    FirstMatches(products, TrendingTest(), MaxTrending)
  }

  /** The highlight of each menu entry. */
  function ActiveFlags(active: Category): (r: seq<bool>)
    ensures |r| == |MenuCategories|
    ensures forall i | 0 <= i < |r| :: r[i] <==> MenuCategories[i] == active
  {
    seq(|MenuCategories|, i requires 0 <= i < |MenuCategories| => MenuCategories[i] == active)
  }

  /** At most one entry is highlighted, and one is exactly when the active category is on
      the menu. */
  lemma ActiveFlagsExclusive(active: Category)
    ensures forall i, j | 0 <= i < j < |ActiveFlags(active)| :: !(ActiveFlags(active)[i] && ActiveFlags(active)[j])
    ensures (exists i | 0 <= i < |ActiveFlags(active)| :: ActiveFlags(active)[i]) <==> active in MenuCategories
  {
    var r := ActiveFlags(active);
    forall i, j | 0 <= i < j < |r| ensures !(r[i] && r[j]) {
      assert MenuCategories[i] != MenuCategories[j];
    }
    if active in MenuCategories {
      var i :| 0 <= i < |MenuCategories| && MenuCategories[i] == active;
      assert r[i];
    }
  }
}

=== FILE: checkout.dfy ===
/** The checkout flow: a four-step machine (logistics form, payment, processing,
    success), the reward points earned on the subtotal, and what is reported when the
    shopper returns from the success screen.  The money totals are those of the cart
    drawer. */
module Checkout {
  import Types
  import opened Arith
  import CartDrawer

  datatype Step = Logistics | Payment | Processing | Success

  /** What can happen on the checkout screen.  `Submit` is the logistics form, `Back`
      the return link and `Finalize` the payment button; `DelayElapsed` is the timer
      that `Finalize` starts. */
  datatype Event = Submit | Back | Finalize | DelayElapsed

  /** The control that raises `e` is on screen in step `s` (the form only in logistics,
      the return link and the payment button only in payment), or the timer is pending. */
  predicate Available(s: Step, e: Event) {
    match e
    case Submit => s == Logistics
    case Back => s == Payment
    case Finalize => s == Payment
    case DelayElapsed => s == Processing
  }

  /** One transition: submitting the form goes to payment, the return link back to the
      form, the payment button to processing and the elapsed delay to success; an event
      whose control is not on screen changes nothing. */
  function Next(s: Step, e: Event): (r: Step)
    ensures !Available(s, e) ==> r == s
    ensures s == Logistics && e == Submit ==> r == Payment
    ensures s == Payment && e == Back ==> r == Logistics
    ensures s == Payment && e == Finalize ==> r == Processing
    ensures s == Processing && e == DelayElapsed ==> r == Success
    ensures r != s ==> Available(s, e)
    ensures r == Success ==> s == Success || (s == Processing && e == DelayElapsed)
    ensures r == Processing ==> s == Processing || (s == Payment && e == Finalize)
  {
    if !Available(s, e) then s
    else match e
      case Submit => Payment
      case Back => Logistics
      case Finalize => Processing
      case DelayElapsed => Success
  }

  function Run(s: Step, events: seq<Event>): Step
    decreases |events|
  {
    if events == [] then s else Run(Next(s, events[0]), events[1..])
  }

  /** Once the order has gone through, nothing leads back. */
  lemma {:induction false} SuccessAbsorbing(events: seq<Event>)
    ensures Run(Success, events) == Success
    decreases |events|
  {
    if events != [] {
      SuccessAbsorbing(events[1..]);
    }
  }

  /** Success is reached only through processing: a run from any earlier step that ends
      in success contains the payment being finalized. */
  lemma {:induction false} SuccessNeedsFinalize(s: Step, events: seq<Event>)
    requires s != Success && s != Processing
    requires Run(s, events) == Success
    ensures Finalize in events
    decreases |events|
  {
    if events != [] {
      var t := Next(s, events[0]);
      if events[0] != Finalize {
        assert t != Processing && t != Success;
        SuccessNeedsFinalize(t, events[1..]);
      }
    }
  }

  /** The return link undoes the form: back from payment lands where submitting started,
      and every step other than success can still reach success. */
  lemma {:induction false} BackUndoesSubmit(s: Step)
    ensures Next(Next(Logistics, Submit), Back) == Logistics
    ensures s != Success ==> exists events: seq<Event> :: |events| <= 3 && Run(s, events) == Success
  {
    var toEnd := [DelayElapsed];
    var fromPay := [Finalize, DelayElapsed];
    var fromForm := [Submit, Finalize, DelayElapsed];
    assert Run(Success, []) == Success;
    assert Run(Processing, toEnd) == Run(Success, []);
    assert fromPay[1..] == toEnd && Run(Payment, fromPay) == Run(Processing, toEnd);
    assert fromForm[1..] == fromPay && Run(Logistics, fromForm) == Run(Payment, fromPay);
    match s
    case Logistics => assert Run(s, fromForm) == Success;
    case Payment => assert Run(s, fromPay) == Success;
    case Processing => assert Run(s, toEnd) == Success;
    case Success =>
  }

  /** Filling the form, paying and waiting completes the checkout. */
  lemma HappyPath()
    ensures Run(Logistics, [Submit, Finalize, DelayElapsed]) == Success
    ensures Run(Logistics, [Submit, Back, Submit, Finalize, DelayElapsed]) == Success
  {
  }

  /** XP earned: `Math.round(subtotal * 0.1)`. */
  function XpGained(subtotal: int): (r: int)
    ensures r == RoundDiv(subtotal, 10)
  {
    RoundDivIsRoundReal(subtotal, 10);
    RoundReal(subtotal as real * 0.1)
  }

  /** Coins earned: `Math.round(subtotal * 0.5)`. */
  function CoinsGained(subtotal: int): (r: int)
    ensures r == RoundDiv(subtotal, 2)
  {
    RoundDivIsRoundReal(subtotal, 2);
    RoundReal(subtotal as real * 0.5)
  }

  /** A non-negative subtotal earns at least as many coins as XP, and neither is negative. */
  lemma RewardsOrdered(subtotal: int)
    requires subtotal >= 0
    ensures 0 <= XpGained(subtotal) <= CoinsGained(subtotal)
  {
    var x, c := XpGained(subtotal), CoinsGained(subtotal);
    RoundDivExact(0, 10);
    RoundDivMonotone(0, subtotal, 10);
    // 2x - 1 <= subtotal / 5 and subtotal < 2c + 1 bound x by c.
    assert 20 * x - 10 <= 2 * subtotal;
    assert 2 * subtotal < 4 * c + 2;
  }

  /** What the success screen's button reports: the items and their subtotal. */
  datatype Completion = Completion(items: seq<Types.CartItem>, total: int)

  /** The reported cart is the one checked out, and its total is what the lines cost:
      nothing for an empty cart, price times quantity for one line, and between 0 and
      the original total when every line is discounted. */
  function Complete(items: seq<Types.CartItem>): (r: Completion)
    ensures r.items == items
    ensures items == [] ==> r.total == 0
    ensures |items| == 1 ==> r.total == items[0].product.price * items[0].quantity
    ensures CartDrawer.Discounted(items) ==> 0 <= r.total <= CartDrawer.TotalOriginal(items)
  {
    TotalBounds(items);
    Completion(items, CartDrawer.Subtotal(items))
  }

  lemma TotalBounds(items: seq<Types.CartItem>)
    ensures |items| == 1 ==> CartDrawer.Subtotal(items) == items[0].product.price * items[0].quantity
    ensures CartDrawer.Discounted(items) ==> 0 <= CartDrawer.Subtotal(items) <= CartDrawer.TotalOriginal(items)
  {
    if |items| == 1 {
      assert items[1..] == [];
    }
    if CartDrawer.Discounted(items) {
      CartDrawer.SubtotalBounds(items);
    }
  }

  /** Checking out two carts' lines together reports the sum of their totals, and the
      rewards of a discounted checkout are ordered: 0 ≤ XP ≤ coins. */
  lemma CompleteAppend(a: seq<Types.CartItem>, b: seq<Types.CartItem>)
    ensures Complete(a + b).total == Complete(a).total + Complete(b).total
    ensures CartDrawer.Discounted(a) ==>
      0 <= XpGained(Complete(a).total) <= CoinsGained(Complete(a).total)
  {
    CartDrawer.TotalsAppend(a, b);
    if CartDrawer.Discounted(a) {
      RewardsOrdered(Complete(a).total);
    }
  }
}

=== FILE: database.dfy ===
/** The browser-storage database: four storage slots (users, products, suppliers, admin
    credentials), each read with a seeded default when it is still empty, and the
    record-list operations written through to it.  A slot holds the decoded list
    itself, so encoding and decoding are the identity. */
module Database {
  import opened Wrappers
  import opened Types
  import opened Seqs
  import opened Text

  /** The admin sign-in pair. */
  datatype Credentials = Credentials(identifier: string, password: string)

  /** The storage slots `cc_admin_user_db`, `cc_admin_product_db`, `cc_admin_supplier_db`
      and `cc_admin_auth_creds`; `None` is a key never written. */
  datatype Store = Store(
    users: Option<seq<User>>,
    products: Option<seq<Product>>,
    suppliers: Option<seq<Supplier>>,
    admin: Option<Credentials>)

  const EmptyStore: Store := Store(None, None, None, None)

  const DefaultAdmin: Credentials := Credentials("leno", "1q2w3!")

  const MockUsers: seq<User> := [
    User("u1", "Viper_X", "viper@archivers.net", "CYBER", 4500, 1200, 45, UserActive, "2h ago", 850),
    User("u2", "Ghost_Shell", "ghost@void.com", "VOID", 8900, 5400, 120, UserActive, "15m ago", 2400),
    User("u3", "Luxe_Lord", "lord@heirloom.io", "LUXE", 12000, 8900, 300, UserActive, "5d ago", 12500),
    User("u4", "Glitch_Boi", "glitch@chaos.org", "CYBER", 1200, 400, 5, Banned, "1y ago", 0)
  ]

  const MockSuppliers: seq<Supplier> := [
    Supplier("sup1", "CyberKnit Industries", "ops@cyberknit.nt", "Neo Tokyo Central", SupplierActive, 94, 450000, "2024-01-12"),
    Supplier("sup2", "Void Loom Textiles", "archive@voidloom.de", "Neo Berlin", SupplierActive, 82, 280000, "2024-03-05"),
    Supplier("sup3", "Ethereal Silks", "luxury@ethereal.sh", "Emerald Heights", SupplierRestricted, 45, 120000, "2024-06-20")
  ]

  // ---------------------------------------------------------------- admin credentials

  /** `getAdminCredentials`: the stored pair, or the built-in pair, which is then stored. */
  function GetAdminCredentials(st: Store): (r: (Credentials, Store))
    ensures r.0 == st.admin.GetOr(DefaultAdmin)
    ensures r.1.admin == Some(r.0)
    ensures r.1.(admin := st.admin) == st
  {
    match st.admin
    case Some(c) => (c, st)
    case None => (DefaultAdmin, st.(admin := Some(DefaultAdmin)))
  }

  /** `updateAdminCredentials`. */
  function UpdateAdminCredentials(st: Store, creds: Credentials): (r: (Credentials, Store))
    ensures r.0 == creds && r.1.admin == Some(creds)
    ensures r.1.(admin := st.admin) == st
  {
    (creds, st.(admin := Some(creds)))
  }

  /** Reading after an update gives the new pair; a first read stores the default so a
      second read sees the same pair. */
  lemma AdminCredentialsRoundTrip(st: Store, creds: Credentials)
    ensures GetAdminCredentials(UpdateAdminCredentials(st, creds).1).0 == creds
    ensures GetAdminCredentials(GetAdminCredentials(st).1) == GetAdminCredentials(st)
    ensures GetAdminCredentials(EmptyStore).0 == DefaultAdmin
  {
  }

  // ---------------------------------------------------------------- users

  /** `getUsers`: the stored list, or the built-in users, which are then stored. */
  function GetUsers(st: Store): (r: (seq<User>, Store))
    ensures r.0 == st.users.GetOr(MockUsers)
    ensures r.1.users == Some(r.0)
    ensures r.1.(users := st.users) == st
  {
    match st.users
    case Some(us) => (us, st)
    case None => (MockUsers, st.(users := Some(MockUsers)))
  }

  function SaveUsers(st: Store, users: seq<User>): (r: Store)
    ensures r.users == Some(users)
    ensures r.(users := st.users) == st
  {
    st.(users := Some(users))
  }

  /** A save is read back unchanged, and a read leaves a slot it found filled alone. */
  lemma UsersRoundTrip(st: Store, users: seq<User>)
    ensures GetUsers(SaveUsers(st, users)) == (users, SaveUsers(st, users))
    ensures GetUsers(GetUsers(st).1) == GetUsers(st)
  {
  }

  /** `updateUserStatus`: every user with that id gets the new status, and the list is saved. */
  function UpdateUserStatus(st: Store, id: string, status: UserStatus): (r: (seq<User>, Store))
    ensures var (before, _) := GetUsers(st);
      |r.0| == |before|
      && (forall i | 0 <= i < |before| ::
            r.0[i].(status := before[i].status) == before[i]
            && r.0[i].status == if before[i].id == id then status else before[i].status)
    ensures r.1 == SaveUsers(GetUsers(st).1, r.0)
  {
    var (users, st1) := GetUsers(st);
    var updated := seq(|users|, i requires 0 <= i < |users| =>
      if users[i].id == id then users[i].(status := status) else users[i]);
    (updated, SaveUsers(st1, updated))
  }

  /** The updated list is what the database returns from then on. */
  lemma UpdateUserStatusPersists(st: Store, id: string, status: UserStatus)
    ensures GetUsers(UpdateUserStatus(st, id, status).1).0 == UpdateUserStatus(st, id, status).0
    ensures UpdateUserStatus(UpdateUserStatus(st, id, status).1, id, status).0 == UpdateUserStatus(st, id, status).0
  {
  }

  function OtherUser(id: string): User -> bool {
    (u: User) => u.id != id
  }

  /** `deleteUser`: every user with that id is dropped, the others stay in order, and
      the list is saved. */
  function DeleteUser(st: Store, id: string): (r: (seq<User>, Store))
    ensures forall i | 0 <= i < |r.0| :: r.0[i].id != id && r.0[i] in GetUsers(st).0
    ensures forall i | 0 <= i < |GetUsers(st).0| && GetUsers(st).0[i].id != id :: GetUsers(st).0[i] in r.0
    ensures r.1 == SaveUsers(GetUsers(st).1, r.0)
  {
    var (users, st1) := GetUsers(st);
    var updated := Filter(users, OtherUser(id));
    (updated, SaveUsers(st1, updated))
  }

  /** Deletion keeps the order of the remaining users, and deleting again changes nothing. */
  lemma DeleteUserOrder(st: Store, id: string)
    ensures IsSubsequence(DeleteUser(st, id).0, GetUsers(st).0)
    ensures DeleteUser(DeleteUser(st, id).1, id).0 == DeleteUser(st, id).0
  {
    FilterIsSubsequence(GetUsers(st).0, OtherUser(id));
    FilterIdempotent(GetUsers(st).0, OtherUser(id));
  }

  /** Deletion keeps every other user record as often as it was stored, duplicates
      included, and keeps no copy of a record with that id. */
  lemma DeleteUserCount(st: Store, id: string, u: User)
    ensures multiset(DeleteUser(st, id).0)[u] == if u.id != id then multiset(GetUsers(st).0)[u] else 0
  {
    FilterCount(GetUsers(st).0, OtherUser(id), u);
  }

  // ---------------------------------------------------------------- products

  /** The supplier a seeded product is assigned to: alternately `sup1` and `sup2`. */
  function SeedSupplier(i: nat): string {
    if i % 2 == 0 then "sup1" else "sup2"
  }

  /** The catalogue with every product assigned a supplier by position. */
  function Seed(catalogue: seq<Product>): (r: seq<Product>)
    ensures |r| == |catalogue|
    ensures forall i | 0 <= i < |catalogue| ::
      r[i].supplierId == Some(SeedSupplier(i)) && r[i].(supplierId := catalogue[i].supplierId) == catalogue[i]
  {
    seq(|catalogue|, i requires 0 <= i < |catalogue| => catalogue[i].(supplierId := Some(SeedSupplier(i))))
  }

  /** `getProducts`: the stored list, or the seeded catalogue, which is then stored. */
  function GetProducts(st: Store, catalogue: seq<Product>): (r: (seq<Product>, Store))
    ensures r.0 == st.products.GetOr(Seed(catalogue))
    ensures r.1.products == Some(r.0)
    ensures r.1.(products := st.products) == st
  {
    match st.products
    case Some(ps) => (ps, st)
    case None => (Seed(catalogue), st.(products := Some(Seed(catalogue))))
  }

  function SaveProducts(st: Store, products: seq<Product>): (r: Store)
    ensures r.products == Some(products)
    ensures r.(products := st.products) == st
  {
    st.(products := Some(products))
  }

  lemma ProductsRoundTrip(st: Store, catalogue: seq<Product>, products: seq<Product>)
    ensures GetProducts(SaveProducts(st, products), catalogue) == (products, SaveProducts(st, products))
    ensures GetProducts(GetProducts(st, catalogue).1, catalogue) == GetProducts(st, catalogue)
  {
  }

  /** Seeding splits the catalogue evenly: `sup1` gets the products at even positions. */
  lemma SeedAlternates(catalogue: seq<Product>, i: nat)
    requires i + 1 < |catalogue|
    ensures Seed(catalogue)[i].supplierId != Seed(catalogue)[i + 1].supplierId
  {
  }

  // ---------------------------------------------------------------- suppliers

  /** `getSuppliers`: the stored list, or the built-in suppliers, which are then stored. */
  function GetSuppliers(st: Store): (r: (seq<Supplier>, Store))
    ensures r.0 == st.suppliers.GetOr(MockSuppliers)
    ensures r.1.suppliers == Some(r.0)
    ensures r.1.(suppliers := st.suppliers) == st
  {
    match st.suppliers
    case Some(ss) => (ss, st)
    case None => (MockSuppliers, st.(suppliers := Some(MockSuppliers)))
  }

  function SaveSuppliers(st: Store, suppliers: seq<Supplier>): (r: Store)
    ensures r.suppliers == Some(suppliers)
    ensures r.(suppliers := st.suppliers) == st
  {
    st.(suppliers := Some(suppliers))
  }

  lemma SuppliersRoundTrip(st: Store, suppliers: seq<Supplier>)
    ensures GetSuppliers(SaveSuppliers(st, suppliers)) == (suppliers, SaveSuppliers(st, suppliers))
    ensures GetSuppliers(GetSuppliers(st).1) == GetSuppliers(st)
  {
  }

  /** The supplier id minted at time `now` (milliseconds): `sup` and the decimal time. */
  function SupplierId(now: nat): (id: string)
    ensures |id| > 3 && id[..3] == "sup" && AllDigits(id[3..])
  {
    "sup" + NatToString(now)
  }

  /** Distinct registration times mint distinct ids. */
  lemma SupplierIdInjective(a: nat, b: nat)
    requires SupplierId(a) == SupplierId(b)
    ensures a == b
  {
    assert SupplierId(a)[3..] == NatToString(a);
    assert SupplierId(b)[3..] == NatToString(b);
    ParseNatToString(a);
    ParseNatToString(b);
  }

  /** `registerSupplier`: the form's name, email and region become a new ACTIVE supplier
      with score 50, no revenue and today's date, appended and saved. */
  function RegisterSupplier(st: Store, name: string, contactEmail: string, region: string,
                            now: nat, today: string): (r: (seq<Supplier>, Store))
    ensures var before := GetSuppliers(st).0;
      |r.0| == |before| + 1 && r.0[..|before|] == before
      && r.0[|before|] == Supplier(SupplierId(now), name, contactEmail, region, SupplierActive, 50, 0, today)
    ensures r.1 == SaveSuppliers(GetSuppliers(st).1, r.0)
  {
    var (suppliers, st1) := GetSuppliers(st);
    var added := Supplier(SupplierId(now), name, contactEmail, region, SupplierActive, 50, 0, today);
    var updated := suppliers + [added];
    (updated, SaveSuppliers(st1, updated))
  }

  /** A registration leaves the other three slots alone. */
  lemma RegisterSupplierFrame(st: Store, name: string, contactEmail: string, region: string, now: nat, today: string)
    ensures var st2 := RegisterSupplier(st, name, contactEmail, region, now, today).1;
      st2.users == st.users && st2.products == st.products && st2.admin == st.admin
  {
  }
}

=== FILE: famous.dfy ===
/** The FAMOUS ranking view: the catalogue ordered by velocity, each row numbered. */
module Famous {
  import opened Types
  import opened Text
  import opened Ranking

  /** `[...products].sort(...)`: a sorted copy; the input is a value and stays as it is. */
  function Sorted(products: seq<Product>): (r: seq<Product>)
    ensures multiset(r) == multiset(products) && |r| == |products|
    ensures SortedByVelocity(r)
    ensures forall k :: WithScore(r, k) == WithScore(products, k)
  {
    SortByVelocity(products)
  }

  /** The view's order is the one stable descending order: any sorted arrangement that
      keeps ties in input order is it, and sorting again changes nothing. */
  lemma SortedUnique(products: seq<Product>, other: seq<Product>)
    requires SortedByVelocity(other)
    requires forall k :: WithScore(other, k) == WithScore(products, k)
    ensures other == Sorted(products)
    ensures Sorted(Sorted(products)) == Sorted(products)
  {
    StableSortUnique(other, Sorted(products));
    StableSortUnique(Sorted(Sorted(products)), Sorted(products));
  }

  /** `String(idx + 1).padStart(2, '0')`. */
  function RankLabel(idx: nat): (r: string)
    ensures AllDigits(r) && |r| >= 2
  {
    PadStart2(NatToString(idx + 1))
  }

  /** The first 99 rows carry two-digit labels that read as their position from 1; later
      rows print the number in full. */
  lemma RankLabelReads(idx: nat)
    ensures idx < 99 ==> |RankLabel(idx)| == 2
    ensures ParseNat(RankLabel(idx)) == idx + 1
  {
    var s := NatToString(idx + 1);
    ParseNatToString(idx + 1);
    if idx + 1 < 100 {
      PadNumberBelow100(idx + 1);
    }
  }
}

=== FILE: flash_sales.dfy ===
/** The daily flash sale: one product a day at a random discount for a random
    duration, remembered across visits in the `cc_daily_flash_sale` storage slot,
    counted down second by second and shown as `H:MM:SS`.  Random draws are reals in
    `[0, 1)` and clock readings are millisecond timestamps, both passed in. */
module FlashSales {
  import opened Wrappers
  import opened Types
  import opened Arith
  import opened Text

  /** The remembered sale (`DailySaleData`). */
  datatype DailySale = DailySale(date: string, productId: string, discountPercent: int, expiryTimestamp: int)

  /** The product on sale, repriced (`FlashSale extends Product`). */
  datatype FlashProduct = FlashProduct(product: Product, discountPercent: int, saleEndTime: int)

  const MinDiscount: int := 12
  const MaxDiscount: int := 50
  const MinDurationSec: int := 900
  const MaxDurationSec: int := 10800

  /** `generateNewSale`: a random catalogue product, a discount of 12 to 50 percent and
      a duration of 900 to 10800 seconds from `now`.  An empty catalogue has no product
      to pick. */
  function GenerateSale(catalogue: seq<Product>, today: string, r1: real, r2: real, r3: real, now: int): (s: Option<DailySale>)
    requires IsDraw(r1) && IsDraw(r2) && IsDraw(r3)
    ensures s.None? <==> catalogue == []
    ensures s.Some? ==>
      s.value.date == today
      && HasId(catalogue, s.value.productId)
      && MinDiscount <= s.value.discountPercent <= MaxDiscount
      && now + MinDurationSec * 1000 <= s.value.expiryTimestamp <= now + MaxDurationSec * 1000
      && (s.value.expiryTimestamp - now) % 1000 == 0
  {
    if catalogue == [] then None
    else
      var i := Pick(r1, |catalogue|);
      var discount := Pick(r2, MaxDiscount - MinDiscount + 1) + MinDiscount;
      var duration := Pick(r3, MaxDurationSec - MinDurationSec + 1) + MinDurationSec;
      assert catalogue[i].id == catalogue[i].id;
      Some(DailySale(today, catalogue[i].id, discount, now + duration * 1000))
  }

  /** The sale shown today and what the storage slot holds afterwards: the stored sale
      if it is today's, otherwise a freshly generated one, which is also stored. */
  function LoadSale(stored: Option<DailySale>, catalogue: seq<Product>, today: string,
                    r1: real, r2: real, r3: real, now: int): (r: (Option<DailySale>, Option<DailySale>))
    requires IsDraw(r1) && IsDraw(r2) && IsDraw(r3)
    ensures stored.Some? && stored.value.date == today ==> r.0 == stored && r.1 == stored
    ensures !(stored.Some? && stored.value.date == today) ==>
      r.0 == GenerateSale(catalogue, today, r1, r2, r3, now) && (r.0.Some? ==> r.1 == r.0)
    ensures r.0.Some? ==> r.0.value.date == today
  {
    if stored.Some? && stored.value.date == today then (stored, stored)
    else
      var generated := GenerateSale(catalogue, today, r1, r2, r3, now);
      (generated, if generated.Some? then generated else stored)
  }

  /** A second visit on the same day shows the same sale, whatever the new draws. */
  lemma SameDaySameSale(stored: Option<DailySale>, catalogue: seq<Product>, today: string,
                        r1: real, r2: real, r3: real, now: int,
                        q1: real, q2: real, q3: real, later: int)
    requires IsDraw(r1) && IsDraw(r2) && IsDraw(r3) && IsDraw(q1) && IsDraw(q2) && IsDraw(q3)
    requires catalogue != []
    ensures var (first, slot) := LoadSale(stored, catalogue, today, r1, r2, r3, now);
      LoadSale(slot, catalogue, today, q1, q2, q3, later).0 == first
  {
  }

  /** The product the stored id names, or the first catalogue product when the id is
      unknown. */
  function SaleProduct(catalogue: seq<Product>, id: string): (r: Option<Product>)
    ensures r.None? <==> catalogue == []
    ensures r.Some? ==> r.value in catalogue
    ensures r.Some? && HasId(catalogue, id) ==> r.value.id == id
    ensures HasId(catalogue, id) ==> exists k | 0 <= k < |catalogue| ::
      Some(catalogue[k]) == r && forall j | 0 <= j < k :: catalogue[j].id != id
    ensures catalogue != [] && !HasId(catalogue, id) ==> r == Some(catalogue[0])
  {
    if catalogue == [] then None
    else match FindProduct(catalogue, id)
      case Some(p) => Some(p)
      case None => Some(catalogue[0])
  }

  /** `Math.floor(originalPrice * (1 - discount / 100))`: the integer floor of
      `originalPrice · (100 - d) / 100`, between 0 and the original price for a discount
      between 0 and 100. */
  function FlashPrice(originalPrice: int, discount: int): (r: int)
    ensures r == FloorDiv(originalPrice * (100 - discount), 100)
    ensures originalPrice >= 0 && 0 <= discount <= 100 ==> 0 <= r <= originalPrice
  {
    (originalPrice as real * (1.0 - discount as real / 100.0)).Floor
  }

  /** The sale as shown: the chosen product repriced, with its discount and end time. */
  function MakeFlashProduct(p: Product, sale: DailySale): (r: FlashProduct)
    ensures r.product.(price := p.price) == p
    ensures r.product.price == FloorDiv(p.originalPrice * (100 - sale.discountPercent), 100)
    ensures p.originalPrice >= 0 && 0 <= sale.discountPercent <= 100 ==>
      0 <= r.product.price <= p.originalPrice
    ensures r.discountPercent == sale.discountPercent && r.saleEndTime == sale.expiryTimestamp
  {
    FlashProduct(p.(price := FlashPrice(p.originalPrice, sale.discountPercent)), sale.discountPercent, sale.expiryTimestamp)
  }

  /** Whole seconds left at time `now`: `max(0, floor((expiry - now) / 1000))`. */
  function Remaining(expiry: int, now: int): (r: nat)
    ensures r == 0 <==> expiry - now < 1000
    ensures r > 0 ==> 1000 * r <= expiry - now < 1000 * r + 1000
  {
    Max(0, FloorDiv(expiry - now, 1000))
  }

  // ---------------------------------------------------------------- countdown

  /** The countdown state: seconds left, whether the sale is void, whether a sale is loaded. */
  datatype Countdown = Countdown(timeLeft: int, voided: bool, hasSale: bool)

  /** The state right after loading: void already if no time is left. */
  function Start(remaining: nat): (c: Countdown)
    ensures c.voided <==> remaining == 0
  {
    Countdown(remaining, remaining <= 0, true)
  }

  /** One step of the timer effect: at zero or below no interval runs (and a loaded sale
      at exactly zero is void); otherwise a second passes, and the last second voids
      the sale. */
  function Step(c: Countdown): (r: Countdown)
    ensures r.hasSale == c.hasSale
    ensures c.voided ==> r.voided
    ensures c.timeLeft <= 0 ==> r.timeLeft == c.timeLeft
    ensures c.timeLeft == 0 && c.hasSale ==> r.voided
    ensures c.timeLeft < 0 || (c.timeLeft == 0 && !c.hasSale) ==> r.voided == c.voided
    ensures c.timeLeft == 1 ==> r.timeLeft == 0 && r.voided
    ensures c.timeLeft > 1 ==> r.timeLeft == c.timeLeft - 1 && r.voided == c.voided
  {
    if c.timeLeft <= 0 then
      c.(voided := c.voided || (c.timeLeft == 0 && c.hasSale))
    else if c.timeLeft <= 1 then
      c.(timeLeft := 0, voided := true)
    else
      c.(timeLeft := c.timeLeft - 1)
  }

  function Steps(c: Countdown, n: nat): Countdown {
    if n == 0 then c else Step(Steps(c, n - 1))
  }

  /** After `n` seconds a live sale with `t` seconds left shows `max(0, t - n)`, and it
      is void exactly when the time has run out. */
  lemma {:induction false} CountdownAfter(t: nat, n: nat)
    requires t > 0
    ensures Steps(Countdown(t, false, true), n).timeLeft == Max(0, t - n)
    ensures Steps(Countdown(t, false, true), n).voided <==> n >= t
  {
    if n > 0 {
      CountdownAfter(t, n - 1);
    }
  }

  // ---------------------------------------------------------------- H:MM:SS

  /** Hours, minutes and seconds of a number of seconds. */
  function SplitHms(seconds: nat): (r: (nat, nat, nat))
    ensures r.0 * 3600 + r.1 * 60 + r.2 == seconds
    ensures r.1 < 60 && r.2 < 60
  {
    (seconds / 3600, (seconds % 3600) / 60, seconds % 60)
  }

  /** Hours and a colon only when there are hours, then two-digit minutes and
      seconds. */
  function HmsText(h: nat, m: nat, s: nat): string {
    var tail := PadStart2(NatToString(m)) + ":" + PadStart2(NatToString(s));
    if h > 0 then NatToString(h) + ":" + tail else tail
  }

  /** For minutes and seconds below 60 the text reads back: three pieces exactly when
      there are hours, all digits, the last two of exactly two digits, and together they
      give `h · 3600 + m · 60 + s`. */
  lemma HmsTextDecodes(h: nat, m: nat, s: nat)
    requires m < 60 && s < 60
    ensures var parts := Split(HmsText(h, m, s), ':');
      (|parts| == 3 <==> h > 0) && (|parts| == 2 <==> h == 0)
      && (forall i | 0 <= i < |parts| :: AllDigits(parts[i]))
      && |parts[|parts| - 1]| == 2 && |parts[|parts| - 2]| == 2
      && (if |parts| == 3 then ParseNat(parts[0]) * 3600 else 0)
         + ParseNat(parts[|parts| - 2]) * 60 + ParseNat(parts[|parts| - 1]) == h * 3600 + m * 60 + s
  {
    var hs, ms, ss := NatToString(h), PadStart2(NatToString(m)), PadStart2(NatToString(s));
    PadNumberBelow100(m);
    PadNumberBelow100(s);
    ParseNatToString(h);
    DigitsExclude(hs, ':');
    DigitsExclude(ms, ':');
    DigitsExclude(ss, ':');
    if h > 0 {
      assert HmsText(h, m, s) == Join([hs, ms, ss], ':');
      SplitJoin([hs, ms, ss], ':');
    } else {
      assert HmsText(h, m, s) == Join([ms, ss], ':');
      SplitJoin([ms, ss], ':');
    }
  }

  /** `formatTime`, read back: three pieces with hours, two without, the last two of
      exactly two digits, and together they give back the seconds. */
  function FormatTime(seconds: nat): (r: string)
    ensures var parts := Split(r, ':');
      (|parts| == 3 <==> seconds >= 3600) && (|parts| == 2 <==> seconds < 3600)
      && (forall i | 0 <= i < |parts| :: AllDigits(parts[i]))
      && |parts[|parts| - 1]| == 2 && |parts[|parts| - 2]| == 2
      && (if |parts| == 3 then ParseNat(parts[0]) * 3600 else 0)
         + ParseNat(parts[|parts| - 2]) * 60 + ParseNat(parts[|parts| - 1]) == seconds
  {
    var (h, m, s) := SplitHms(seconds);
    HmsTextDecodes(h, m, s);
    HmsText(h, m, s)
  }
}

=== FILE: forms.dfy ===
/** The product editors of the admin and the supplier consoles.  An editor holds a
    partial product (`Partial<Product>`: a form in which every field may be absent)
    and the text of its detail and tag inputs; its buttons and inputs are events. */
module ProductForms {
  import opened Wrappers
  import opened Types
  import opened Seqs
  import opened Text

  /** A partial product: `None` is a key the form does not hold. */
  datatype ProductForm = ProductForm(
    id: Option<string>,
    name: Option<string>,
    price: Option<int>,
    originalPrice: Option<int>,
    image: Option<string>,
    category: Option<Category>,
    description: Option<string>,
    details: Option<seq<string>>,
    inStock: Option<bool>,
    isNew: Option<bool>,
    viewers: Option<int>,
    stockCount: Option<int>,
    hypeScore: Option<int>,
    velocityScore: Option<int>,
    synergyPath: Option<string>,
    tags: Option<seq<string>>,
    supplierId: Option<string>)
  {
    /** The form carries none of the fields a supplier may not set. */
    predicate Restricted() {
      id.None? && viewers.None? && hypeScore.None? && velocityScore.None?
    }
  }

  const EmptyForm: ProductForm :=
    ProductForm(None, None, None, None, None, None, None, None, None, None, None, None, None, None, None, None, None)

  /** `{ ...p, ...form }`: the form's fields over the product's. */
  function Merge(p: Product, f: ProductForm): (r: Product)
    ensures f.id.None? ==> r.id == p.id
    ensures f.viewers.None? ==> r.viewers == p.viewers
    ensures f.hypeScore.None? ==> r.hypeScore == p.hypeScore
    ensures f.velocityScore.None? ==> r.velocityScore == p.velocityScore
    ensures f.name.Some? ==> r.name == f.name.value
    ensures f.price.Some? ==> r.price == f.price.value
    ensures f.stockCount.Some? ==> r.stockCount == f.stockCount.value
  {
    Product(
      f.id.GetOr(p.id), f.name.GetOr(p.name), f.price.GetOr(p.price),
      f.originalPrice.GetOr(p.originalPrice), f.image.GetOr(p.image), f.category.GetOr(p.category),
      f.description.GetOr(p.description), f.details.GetOr(p.details), f.inStock.GetOr(p.inStock),
      f.isNew.GetOr(p.isNew), f.viewers.GetOr(p.viewers), f.stockCount.GetOr(p.stockCount),
      f.hypeScore.GetOr(p.hypeScore), f.velocityScore.GetOr(p.velocityScore),
      if f.synergyPath.Some? then f.synergyPath else p.synergyPath,
      f.tags.GetOr(p.tags),
      if f.supplierId.Some? then f.supplierId else p.supplierId)
  }

  /** Every field of a product as a form (the admin editor's `setFormData(product)`);
      optional keys the product lacks stay absent. */
  function FromProduct(p: Product): (f: ProductForm)
    ensures f.id == Some(p.id) && f.hypeScore == Some(p.hypeScore) && f.velocityScore == Some(p.velocityScore)
  {
    ProductForm(
      Some(p.id), Some(p.name), Some(p.price), Some(p.originalPrice), Some(p.image), Some(p.category),
      Some(p.description), Some(p.details), Some(p.inStock), Some(p.isNew), Some(p.viewers),
      Some(p.stockCount), Some(p.hypeScore), Some(p.velocityScore), p.synergyPath, Some(p.tags), p.supplierId)
  }

  /** Merging the empty form changes nothing; merging a product's own form into any
      product with the same optional keys gives the product back; merging twice is
      merging once. */
  lemma MergeLaws(p: Product, q: Product, f: ProductForm)
    ensures Merge(p, EmptyForm) == p
    ensures p.synergyPath == q.synergyPath && p.supplierId == q.supplierId ==> Merge(q, FromProduct(p)) == p
    ensures Merge(Merge(p, f), f) == Merge(p, f)
  {
  }

  /** The value every field of a new listing starts from before the form is applied. */
  const BlankProduct: Product :=
    Product("", "", 0, 0, "", "", "", [], false, false, 0, 0, 0, 0, None, [], None)

  /** The catalogue after saving an edit (both consoles): the form merged into every
      product with the edited id. */
  function ApplyEdit(products: seq<Product>, editingId: string, form: ProductForm): (r: seq<Product>)
    ensures |r| == |products|
    ensures forall i | 0 <= i < |products| ::
      r[i] == if products[i].id == editingId then Merge(products[i], form) else products[i]
  {
    seq(|products|, i requires 0 <= i < |products| =>
      if products[i].id == editingId then Merge(products[i], form) else products[i])
  }

  // ---------------------------------------------------------------- the two editors

  /** The admin editor's blank form: category Apparel, hype and velocity 50, in stock. */
  const AdminDefault: ProductForm := EmptyForm.(
    name := Some(""), price := Some(0), originalPrice := Some(0), image := Some(""),
    category := Some("Apparel"), description := Some(""), details := Some([]), inStock := Some(true),
    viewers := Some(0), stockCount := Some(0), hypeScore := Some(50), velocityScore := Some(50),
    tags := Some([]))

  /** The supplier editor's blank form: the admin's without viewers, hype or velocity. */
  const SupplierDefault: ProductForm := EmptyForm.(
    name := Some(""), price := Some(0), originalPrice := Some(0), image := Some(""),
    category := Some("Apparel"), description := Some(""), details := Some([]), inStock := Some(true),
    stockCount := Some(0), tags := Some([]))

  /** The supplier editor loading a product: only its listing fields are copied. */
  function SupplierLoad(p: Product): (f: ProductForm)
    ensures f.Restricted()
    ensures Merge(p, f) == p
  {
    EmptyForm.(
      name := Some(p.name), price := Some(p.price), originalPrice := Some(p.originalPrice),
      image := Some(p.image), category := Some(p.category), description := Some(p.description),
      details := Some(p.details), inStock := Some(p.inStock), stockCount := Some(p.stockCount),
      tags := Some(p.tags))
  }

  /** The form an editor opens with: the product being edited, or the blank form. */
  function AdminOpen(product: Option<Product>): (f: ProductForm)
    ensures product.None? ==> f.hypeScore == Some(50) && f.velocityScore == Some(50) && f.category == Some("Apparel")
    ensures product.Some? ==> f.id == Some(product.value.id)
  {
    match product
    case None => AdminDefault
    case Some(p) => FromProduct(p)
  }

  function SupplierOpen(product: Option<Product>): (f: ProductForm)
    ensures f.Restricted()
    ensures product.Some? ==> Merge(product.value, f) == product.value
  {
    match product
    case None => SupplierDefault
    case Some(p) => SupplierLoad(p)
  }

  datatype Editor = Editor(form: ProductForm, detailInput: string, tagInput: string)

  /** The editors' inputs and buttons. */
  datatype Event =
    | SetName(name: string)
    | SetPrice(price: int)
    | SetOriginalPrice(originalPrice: int)
    | SetCategory(category: Category)
    | SetImage(image: string)
    | SetDescription(description: string)
    | SetStockCount(stockCount: int)
    | SetHypeScore(hypeScore: int)
    | TypeDetail(detail: string)
    | AddDetail
    | RemoveDetail(index: int)
    | TypeTag(tag: string)
    | AddTag
    | RemoveTag(tag: string)

  /** The controls the supplier editor offers: no original price, category, hype slider
      or detail list (the editor defines `addDetail` but renders no input for it). */
  predicate SupplierControl(e: Event) {
    !(e.SetOriginalPrice? || e.SetCategory? || e.SetHypeScore?
      || e.TypeDetail? || e.AddDetail? || e.RemoveDetail?)
  }

  /** Where `splice` starts on a list of length `len`: a negative index counts from the
      end and is clamped at 0, a non-negative one is clamped at `len`. */
  function SpliceStart(len: nat, index: int): (start: nat)
    ensures start <= len
    ensures 0 <= index < len ==> start == index
    ensures index >= len ==> start == len
    ensures index < 0 && len + index >= 0 ==> start == len + index
    ensures len + index < 0 ==> start == 0
  {
    if index < 0 then (if len + index < 0 then 0 else len + index)
    else if index < len then index else len
  }

  /** `splice(index, 1)`: one element removed at the splice start, so an index in range
      removes that entry, a negative one counts from the end (and below `-|xs|` removes
      the first), and an index at or past the end removes nothing. */
  function RemoveAt(xs: seq<string>, index: int): (r: seq<string>)
    ensures 0 <= index < |xs| ==> |r| == |xs| - 1 && r[..index] == xs[..index] && r[index..] == xs[index + 1..]
    ensures -|xs| <= index < 0 ==>
      |r| == |xs| - 1 && r[..|xs| + index] == xs[..|xs| + index] && r[|xs| + index..] == xs[|xs| + index + 1..]
    ensures index < -|xs| && xs != [] ==> r == xs[1..]
    ensures index >= |xs| ==> r == xs
  {
    var start := SpliceStart(|xs|, index);
    if start < |xs| then xs[..start] + xs[start + 1..] else xs
  }

  /** `["a", "b"].splice(-1, 1)` leaves `["a"]`; `splice(-5, 1)` leaves `["b"]`. */
  lemma RemoveAtFromEnd()
    ensures RemoveAt(["a", "b"], -1) == ["a"]
    ensures RemoveAt(["a", "b"], -5) == ["b"]
    ensures RemoveAt(["a", "b"], 2) == ["a", "b"]
  {
  }

  function OtherTag(tag: string): string -> bool {
    (t: string) => t != tag
  }

  /** `addDetail`: a non-blank input is trimmed, appended and cleared. */
  function AddDetailTo(ed: Editor): (r: Editor)
    ensures Trim(ed.detailInput) == [] ==> r == ed
    ensures Trim(ed.detailInput) != [] ==>
      r.detailInput == [] && r.tagInput == ed.tagInput
      && r.form == ed.form.(details := Some(ed.form.details.GetOr([]) + [Trim(ed.detailInput)]))
  {
    var d := Trim(ed.detailInput);
    if d == [] then ed
    else ed.(form := ed.form.(details := Some(ed.form.details.GetOr([]) + [d])), detailInput := [])
  }

  /** `addTag`: a non-blank input is trimmed, upper-cased, appended and cleared. */
  function AddTagTo(ed: Editor): (r: Editor)
    ensures Trim(ed.tagInput) == [] ==> r == ed
    ensures Trim(ed.tagInput) != [] ==>
      r.tagInput == [] && r.detailInput == ed.detailInput
      && r.form == ed.form.(tags := Some(ed.form.tags.GetOr([]) + [ToUpper(Trim(ed.tagInput))]))
  {
    var t := Trim(ed.tagInput);
    if t == [] then ed
    else ed.(form := ed.form.(tags := Some(ed.form.tags.GetOr([]) + [ToUpper(t)])), tagInput := [])
  }

  /** One event on an editor. */
  function Step(ed: Editor, e: Event): (r: Editor)
    ensures r.form.id == ed.form.id && r.form.viewers == ed.form.viewers
    ensures r.form.velocityScore == ed.form.velocityScore
    ensures !e.SetHypeScore? ==> r.form.hypeScore == ed.form.hypeScore
  {
    match e
    case SetName(v) => ed.(form := ed.form.(name := Some(v)))
    case SetPrice(v) => ed.(form := ed.form.(price := Some(v)))
    case SetOriginalPrice(v) => ed.(form := ed.form.(originalPrice := Some(v)))
    case SetCategory(v) => ed.(form := ed.form.(category := Some(v)))
    case SetImage(v) => ed.(form := ed.form.(image := Some(v)))
    case SetDescription(v) => ed.(form := ed.form.(description := Some(v)))
    case SetStockCount(v) => ed.(form := ed.form.(stockCount := Some(v)))
    case SetHypeScore(v) => ed.(form := ed.form.(hypeScore := Some(v)))
    case TypeDetail(v) => ed.(detailInput := v)
    case AddDetail => AddDetailTo(ed)
    case RemoveDetail(i) => ed.(form := ed.form.(details := Some(RemoveAt(ed.form.details.GetOr([]), i))))
    case TypeTag(v) => ed.(tagInput := v)
    case AddTag => AddTagTo(ed)
    case RemoveTag(t) => ed.(form := ed.form.(tags := Some(Filter(ed.form.tags.GetOr([]), OtherTag(t)))))
  }

  function Run(ed: Editor, events: seq<Event>): Editor
    decreases |events|
  {
    if events == [] then ed else Run(Step(ed, events[0]), events[1..])
  }

  /** `removeTag` drops every copy of the tag and keeps the others in order. */
  lemma RemoveTagEffect(ed: Editor, tag: string)
    ensures var ts := Step(ed, RemoveTag(tag)).form.tags.value;
      tag !in ts && IsSubsequence(ts, ed.form.tags.GetOr([]))
      && forall i | 0 <= i < |ed.form.tags.GetOr([])| && ed.form.tags.GetOr([])[i] != tag :: ed.form.tags.GetOr([])[i] in ts
  {
    FilterIsSubsequence(ed.form.tags.GetOr([]), OtherTag(tag));
  }

  /** Typing a tag and pressing add appends it trimmed and upper-cased, even when an
      equal tag is already there, and clears the input. */
  lemma AddTagNormalises(ed: Editor, input: string)
    requires Trim(input) != []
    ensures var r := Run(ed, [TypeTag(input), AddTag]);
      r.form.tags == Some(ed.form.tags.GetOr([]) + [ToUpper(Trim(input))]) && r.tagInput == []
  {
    var events := [TypeTag(input), AddTag];
    var typed := ed.(tagInput := input);
    assert Step(ed, TypeTag(input)) == typed;
    assert events[1..] == [AddTag];
    assert Run(ed, events) == Run(typed, [AddTag]);
    var added := AddTagTo(typed);
    assert Step(typed, AddTag) == added;
    assert Run(typed, [AddTag]) == Run(added, []);
  }

  /** No run of supplier controls gives a restricted form a forbidden field, and none
      changes the detail list. */
  lemma {:induction false} SupplierRunRestricted(ed: Editor, events: seq<Event>)
    requires ed.form.Restricted()
    requires forall i | 0 <= i < |events| :: SupplierControl(events[i])
    ensures Run(ed, events).form.Restricted()
    ensures Run(ed, events).form.details == ed.form.details
    decreases |events|
  {
    if events != [] {
      SupplierRunRestricted(Step(ed, events[0]), events[1..]);
    }
  }

  /** So whatever a supplier does in the editor, the submitted form carries no id,
      viewers, hype or velocity. */
  lemma SupplierSubmitRestricted(product: Option<Product>, events: seq<Event>)
    requires forall i | 0 <= i < |events| :: SupplierControl(events[i])
    ensures Run(Editor(SupplierOpen(product), [], []), events).form.Restricted()
  {
    SupplierRunRestricted(Editor(SupplierOpen(product), [], []), events);
  }

  /** The admin's hype slider is the only control that touches the hype score; no control
      changes the velocity score. */
  lemma {:induction false} AdminRunScores(ed: Editor, events: seq<Event>)
    ensures Run(ed, events).form.velocityScore == ed.form.velocityScore
    ensures (forall i | 0 <= i < |events| :: !events[i].SetHypeScore?) ==>
      Run(ed, events).form.hypeScore == ed.form.hypeScore
    decreases |events|
  {
    if events != [] {
      AdminRunScores(Step(ed, events[0]), events[1..]);
      if forall i | 0 <= i < |events| :: !events[i].SetHypeScore? {
        assert forall i | 0 <= i < |events[1..]| :: events[1..][i] == events[i + 1];
      }
    }
  }
}

=== FILE: games.dfy ===
/** The game showroom's three mini-games (rock-paper-scissors, guess-a-number,
    prize spin).  Each play spends one of the day's attempts and may award a prize;
    the random choice of the house is a draw passed in. */
module Games {
  import opened Wrappers
  import opened Arith

  datatype Move = Rock | Paper | Scissors
  datatype Outcome = Tie | Win | Lose

  /** The house's options, in the order a draw indexes them. */
  const Moves: seq<Move> := [Rock, Paper, Scissors]

  /** The three winning pairs of rock-paper-scissors. */
  predicate Beats(a: Move, b: Move) {
    (a == Rock && b == Scissors) || (a == Paper && b == Rock) || (a == Scissors && b == Paper)
  }

  /** A tie on equal moves, a win on the three winning pairs, a loss otherwise. */
  function RpsOutcome(player: Move, bot: Move): (r: Outcome)
    ensures r == Tie <==> player == bot
    ensures r == Win <==> Beats(player, bot)
    ensures r == Lose <==> Beats(bot, player)
  {
    if player == bot then Tie else if Beats(player, bot) then Win else Lose
  }

  /** Swapping the two moves swaps a win and a loss. */
  lemma RpsAntisymmetric(a: Move, b: Move)
    ensures RpsOutcome(a, b) == Win <==> RpsOutcome(b, a) == Lose
    ensures RpsOutcome(a, b) == Tie <==> RpsOutcome(b, a) == Tie
  {
  }

  /** Every move beats exactly one move and loses to exactly one. */
  lemma RpsBalanced(a: Move)
    ensures exists b :: Beats(a, b)
    ensures exists b :: Beats(b, a)
    ensures forall b, c | Beats(a, b) && Beats(a, c) :: b == c
  {
    match a
    case Rock => assert Beats(Rock, Scissors) && Beats(Paper, Rock);
    case Paper => assert Beats(Paper, Rock) && Beats(Scissors, Paper);
    case Scissors => assert Beats(Scissors, Paper) && Beats(Rock, Scissors);
  }

  datatype GameResult =
    | RpsResult(player: Move, bot: Move, outcome: Outcome)
    | GuessResult(guessed: Outcome, target: int)
    | SpinResult(prize: string)

  /** What pressing a game button does: nothing once the attempts are used up, otherwise
      one attempt is spent (`onPlay`), a result is shown and possibly a prize awarded
      (`onWin`). */
  datatype Play = Refused | Played(result: GameResult, reward: Option<string>)

  const RpsPrize: string := "50 GEMS"
  const GuessPrize: string := "500 COINS"

  /** `startRPS`. */
  function PlayRps(attempts: int, choice: Move, r: real): (p: Play)
    requires IsDraw(r)
    ensures p.Refused? <==> attempts <= 0
    ensures p.Played? ==>
      p.result.RpsResult? && p.result.player == choice
      && p.result.outcome == RpsOutcome(choice, p.result.bot)
      && (p.reward.Some? <==> p.result.outcome == Win)
      && (p.reward.Some? ==> p.reward.value == RpsPrize)
  {
    if attempts <= 0 then Refused
    else
      var bot := Moves[Pick(r, 3)];
      var outcome := RpsOutcome(choice, bot);
      Played(RpsResult(choice, bot, outcome), if outcome == Win then Some(RpsPrize) else None)
  }

  /** `startGuess`: the target is a number from 1 to 5. */
  function PlayGuess(attempts: int, guess: int, r: real): (p: Play)
    requires IsDraw(r)
    ensures p.Refused? <==> attempts <= 0
    ensures p.Played? ==>
      p.result.GuessResult? && 1 <= p.result.target <= 5
      && (p.result.guessed == Win <==> guess == p.result.target)
      && (p.result.guessed == Lose <==> guess != p.result.target)
      && (p.reward.Some? <==> guess == p.result.target)
      && (p.reward.Some? ==> p.reward.value == GuessPrize)
  {
    if attempts <= 0 then Refused
    else
      var target := Pick(r, 5) + 1;
      if guess == target then Played(GuessResult(Win, target), Some(GuessPrize))
      else Played(GuessResult(Lose, target), None)
  }

  /** The six sectors of the prize wheel. */
  const SpinRewards: seq<string> := ["TRY AGAIN", "10 GEMS", "LOSE", "100 COINS", "RARE BADGE", "200 XP"]

  /** `startSpin`: the sector is the prize, awarded unless it is LOSE or TRY AGAIN. */
  function PlaySpin(attempts: int, r: real): (p: Play)
    requires IsDraw(r)
    ensures p.Refused? <==> attempts <= 0
    ensures p.Played? ==>
      p.result.SpinResult? && p.result.prize in SpinRewards
      && (p.reward.Some? <==> p.result.prize != "LOSE" && p.result.prize != "TRY AGAIN")
      && (p.reward.Some? ==> p.reward.value == p.result.prize)
  {
    if attempts <= 0 then Refused
    else
      var outcome := SpinRewards[Pick(r, |SpinRewards|)];
      Played(SpinResult(outcome), if outcome != "LOSE" && outcome != "TRY AGAIN" then Some(outcome) else None)
  }

  /** Four of the six sectors pay out. */
  lemma SpinPayingSectors()
    ensures forall i | 0 <= i < |SpinRewards| ::
      (SpinRewards[i] != "LOSE" && SpinRewards[i] != "TRY AGAIN") <==> i in {1, 3, 4, 5}
  {
  }
}

=== FILE: home_lobby.dfy ===
/** The home lobby: its new-arrivals row, its trending row and the ticker line. */
module HomeLobby {
  import opened Wrappers
  import opened Types
  import opened Seqs

  const NewArrivalCount: nat := 4
  const MaxTrending: nat := 3
  const TrendingHype: int := 85

  /** `products.slice(0, 4)`. */
  function NewArrivals(products: seq<Product>): (r: seq<Product>)
    ensures |r| == if |products| < NewArrivalCount then |products| else NewArrivalCount
    ensures r == products[..|r|]
  {
    if |products| < NewArrivalCount then products else products[..NewArrivalCount]
  }

  predicate Trending(p: Product) {
    p.hypeScore > TrendingHype
  }

  function TrendingTest(): Product -> bool {
    (p: Product) => Trending(p)
  }

  /** `trending`: the first three products with hype strictly above 85. */
  function TrendingProducts(products: seq<Product>): (r: seq<Product>)
    ensures |r| <= MaxTrending
    ensures forall i | 0 <= i < |r| :: r[i] in products && r[i].hypeScore > TrendingHype
    ensures |r| <= |Filter(products, TrendingTest())| && r == Filter(products, TrendingTest())[..|r|]
    ensures |r| < MaxTrending ==> forall i | 0 <= i < |products| && products[i].hypeScore > TrendingHype :: products[i] in r
  {
    FirstMatches(products, TrendingTest(), MaxTrending)
  }

  /** A product with hype 85 or less never reaches the trending row. */
  lemma TrendingExcludesLowHype(products: seq<Product>, p: Product)
    requires p.hypeScore <= TrendingHype
    ensures p !in TrendingProducts(products)
  {
  }

  /** The ticker names the first product's category; an empty catalogue has none to
      show (the lobby cannot render it). */
  function TickerCategory(products: seq<Product>): (r: Option<Category>)
    ensures r.None? <==> products == []
    ensures r.Some? ==> r.value == products[0].category && NewArrivals(products)[0].category == r.value
  {
    if products == [] then None else Some(products[0].category)
  }
}

=== FILE: landing.dfy ===
/** The landing screen: the hidden admin entrance (five clicks on the logo) and the
    sign-in form, which completes after a delay with the default archetype. */
module Landing {

  /** Clicks needed to open the admin entrance. */
  const AdminClicks: nat := 5

  /** `handleAdminClick`: the counter after the click, and whether admin access fires. */
  function AdminClick(clicks: nat): (r: (nat, bool))
    ensures r.1 <==> clicks + 1 >= AdminClicks
    ensures r.0 == if r.1 then 0 else clicks + 1
    ensures clicks < AdminClicks ==> r.0 < AdminClicks
  {
    var next := clicks + 1;
    if next >= AdminClicks then (0, true) else (next, false)
  }

  /** The counter and the number of admin accesses after `n` clicks from a fresh screen. */
  function ClickRun(n: nat): (nat, nat) {
    if n == 0 then (0, 0)
    else
      var (c, a) := ClickRun(n - 1);
      var (c2, fired) := AdminClick(c);
      (c2, if fired then a + 1 else a)
  }

  /** After `n` clicks the counter shows `n mod 5` and access fired `n div 5` times:
      one access per five clicks, and the first four clicks grant nothing. */
  lemma {:induction false} ClickRunCounts(n: nat)
    ensures ClickRun(n).0 == n % AdminClicks
    ensures ClickRun(n).1 == n / AdminClicks
  {
    if n > 0 {
      ClickRunCounts(n - 1);
    }
  }

  /** The archetype every sign-in completes with. */
  const DefaultArchetype: string := "CYBER"

  /** The sign-in form: whether the spinner shows, the completions still pending on
      their timers, and the archetypes reported so far. */
  datatype Auth = Auth(authenticating: bool, pending: nat, completed: seq<string>)

  datatype AuthEvent = SubmitForm | TimerFires

  function AuthStep(a: Auth, e: AuthEvent): (r: Auth)
    ensures e == SubmitForm ==> r.authenticating && r.pending == a.pending + 1 && r.completed == a.completed
    ensures e == TimerFires && a.pending > 0 ==>
      !r.authenticating && r.pending == a.pending - 1 && r.completed == a.completed + [DefaultArchetype]
    ensures e == TimerFires && a.pending == 0 ==> r == a
  {
    match e
    case SubmitForm => a.(authenticating := true, pending := a.pending + 1)
    case TimerFires =>
      if a.pending == 0 then a
      else Auth(false, a.pending - 1, a.completed + [DefaultArchetype])
  }

  function AuthRun(a: Auth, events: seq<AuthEvent>): Auth
    decreases |events|
  {
    if events == [] then a else AuthRun(AuthStep(a, events[0]), events[1..])
  }

  predicate AllDefault(names: seq<string>) {
    forall i | 0 <= i < |names| :: names[i] == DefaultArchetype
  }

  function CountSubmits(events: seq<AuthEvent>): nat {
    if events == [] then 0 else (if events[0] == SubmitForm then 1 else 0) + CountSubmits(events[1..])
  }

  /** Every completed sign-in reports the default archetype, and each submit leads to
      at most one completion: completions plus pending timers count the submits. */
  lemma {:induction false} AuthRunInvariant(a: Auth, events: seq<AuthEvent>)
    requires AllDefault(a.completed)
    ensures AllDefault(AuthRun(a, events).completed)
    ensures |AuthRun(a, events).completed| + AuthRun(a, events).pending
      == |a.completed| + a.pending + CountSubmits(events)
    decreases |events|
  {
    if events != [] {
      AuthRunInvariant(AuthStep(a, events[0]), events[1..]);
    }
  }
}

=== FILE: metrics.dfy ===
/** The demand-velocity scorer (`calculateVelocityScore`) and the hype ranking built on
    it (`getHypeRankedProducts`).  A product's score compares how fast it was adopted
    (purchases per system user) with how fast its stock ran out (units per hour):
    `min(100, round((adoption / depletion) * 2000))`, with 50 for a product that has no
    performance sample and 0 for one whose stock never depleted.  All arithmetic is
    exact rational arithmetic. */
module Metrics {
  import opened Wrappers
  import opened Types
  import opened Arith
  import opened Ranking

  const ScaleFactor: real := 2000.0
  /** The "average" score reported for a product without a sample. */
  const NoSampleScore: int := 50
  const MaxScore: int := 100

  /** `samples.find(p => p.productId === id)`: the first sample recorded for `id`. */
  function FindSample(samples: seq<ProductPerformance>, id: string): (r: Option<ProductPerformance>)
    ensures r.None? <==> forall i | 0 <= i < |samples| :: samples[i].productId != id
    ensures r.Some? ==> r.value in samples && r.value.productId == id
  {
    if samples == [] then None
    else if samples[0].productId == id then Some(samples[0])
    else FindSample(samples[1..], id)
  }

  /** The search returns the sample at the first index carrying `id`. */
  lemma {:induction false} FindSampleFirst(samples: seq<ProductPerformance>, id: string, i: nat)
    requires i < |samples| && samples[i].productId == id
    requires forall j | 0 <= j < i :: samples[j].productId != id
    ensures FindSample(samples, id) == Some(samples[i])
  {
    if i > 0 {
      FindSampleFirst(samples[1..], id, i - 1);
    }
  }

  /** The divisions of the formula are defined: there is at least one system user and
      the stock sold out after a positive time. */
  predicate Valid(s: ProductPerformance) {
    s.totalSystemUsers > 0 && s.hoursToSoldOut > 0.0
  }

  /** The sample the scorer would use for `id`, if any, satisfies `Valid`. */
  predicate Scorable(samples: seq<ProductPerformance>, id: string) {
    FindSample(samples, id).Some? ==> Valid(FindSample(samples, id).value)
  }

  /** Purchases per system user. */
  function AdoptionRate(s: ProductPerformance): (r: real)
    requires s.totalSystemUsers > 0
    ensures r >= 0.0
  {
    s.totalPurchases as real / s.totalSystemUsers as real
  }

  /** Units sold per hour. */
  function DepletionRate(s: ProductPerformance): (r: real)
    requires s.hoursToSoldOut > 0.0
    ensures r >= 0.0
    ensures r == 0.0 <==> s.initialStock == 0
  {
    s.initialStock as real / s.hoursToSoldOut
  }

  /** The score of one sample. */
  function SampleScore(s: ProductPerformance): (r: int)
    requires Valid(s)
    ensures 0 <= r <= MaxScore
    ensures s.initialStock == 0 ==> r == 0
  {
    var depletion := DepletionRate(s);
    if depletion == 0.0 then 0
    else
      var raw := AdoptionRate(s) / depletion * ScaleFactor;
      assert raw >= 0.0;
      Min(MaxScore, RoundReal(raw))
  }

  /** `calculateVelocityScore(id)` over the performance table `samples`. */
  function VelocityScore(samples: seq<ProductPerformance>, id: string): (r: int)
    requires Scorable(samples, id)
    ensures 0 <= r <= MaxScore
    ensures (forall i | 0 <= i < |samples| :: samples[i].productId != id) ==> r == NoSampleScore
  {
    match FindSample(samples, id)
    case None => NoSampleScore
    case Some(s) => SampleScore(s)
  }

  // ---------------------------------------------------------------- the formula

  /** `2000·p·h / (u·st)`, the raw score in closed form. */
  function Closed(p: real, u: real, st: real, h: real): (r: real)
    requires u > 0.0 && st > 0.0
  {
    2000.0 * p * h / (u * st)
  }

  /** The raw score of a sample with stock. */
  function RawScore(s: ProductPerformance): (r: real)
    requires Valid(s) && s.initialStock > 0
    ensures r >= 0.0
  {
    var x := Closed(s.totalPurchases as real, s.totalSystemUsers as real, s.initialStock as real, s.hoursToSoldOut);
    ClosedMonotone(0.0, s.totalPurchases as real, s.totalSystemUsers as real, s.totalSystemUsers as real,
                   s.initialStock as real, s.initialStock as real, s.hoursToSoldOut, s.hoursToSoldOut);
    x
  }

  /** With positive stock the score is the closed form, rounded half-up and capped at 100. */
  lemma ScoreClosedForm(s: ProductPerformance)
    requires Valid(s) && s.initialStock > 0
    ensures SampleScore(s) == Min(MaxScore, RoundReal(RawScore(s)))
  {
    QuotientOfQuotients(s.totalPurchases as real, s.totalSystemUsers as real, s.initialStock as real, s.hoursToSoldOut);
  }

  /** The formula as the scorer evaluates it equals the closed form. */
  lemma QuotientOfQuotients(p: real, u: real, st: real, h: real)
    requires u > 0.0 && st > 0.0 && h > 0.0
    ensures (p / u) / (st / h) * ScaleFactor == Closed(p, u, st, h)
  {
    var a, d := p / u, st / h;
    var x := a / d;
    assert d * h == st;
    assert a * u == p;
    assert x * d == a;
    assert x * st == a * h by {
      calc {
        x * st;
        x * (d * h);
        (x * d) * h;
        a * h;
      }
    }
    assert x * (u * st) == p * h by {
      calc {
        x * (u * st);
        u * (x * st);
        u * (a * h);
        (a * u) * h;
        p * h;
      }
    }
    DivUnique(2000.0 * p * h, u * st, x * 2000.0);
  }

  lemma DivUnique(n: real, d: real, x: real)
    requires d != 0.0 && x * d == n
    ensures n / d == x
  {
  }

  lemma CastMul(a: int, b: int)
    ensures (a * b) as real == a as real * b as real
  {
  }

  /** When the stock and hours are whole numbers the score is integer arithmetic:
      half-up rounding of `2000·P·H` divided by `U·S`. */
  lemma ScoreIntegral(s: ProductPerformance, hours: nat)
    requires Valid(s) && s.initialStock > 0
    requires s.hoursToSoldOut == hours as real
    ensures SampleScore(s) ==
      Min(MaxScore, RoundDiv(2000 * s.totalPurchases * hours, s.totalSystemUsers * s.initialStock))
  {
    ScoreClosedForm(s);
    IntegralClosed(s.totalPurchases, s.totalSystemUsers, s.initialStock, hours);
  }

  lemma IntegralClosed(p: int, u: int, st: int, h: int)
    requires u > 0 && st > 0
    ensures RoundReal(Closed(p as real, u as real, st as real, h as real)) == RoundDiv(2000 * p * h, u * st)
  {
    var n, d := 2000 * p * h, u * st;
    var nr, dr := n as real, d as real;
    assert nr == 2000.0 * p as real * h as real by {
      CastMul(2000 * p, h);
      CastMul(2000, p);
    }
    assert dr == u as real * st as real by {
      CastMul(u, st);
    }
    assert Closed(p as real, u as real, st as real, h as real) == nr / dr;
    RoundDivIsRoundReal(n, d);
  }

  // ---------------------------------------------------------------- monotonicity

  lemma MulMonotone(a: real, b: real, c: real, d: real)
    requires 0.0 <= a <= b && 0.0 <= c <= d
    ensures a * c <= b * d
  {
    assert a * c <= b * c;
  }

  /** `a / c <= b / d` whenever `0 <= a <= b` and `0 < d <= c`. */
  lemma QuotientMonotone(a: real, b: real, c: real, d: real)
    requires 0.0 <= a <= b && 0.0 < d <= c
    ensures a / c <= b / d
  {
    assert a / c <= a / d;
  }

  /** The closed form grows with purchases and hours and shrinks with users and stock. */
  lemma ClosedMonotone(p1: real, p2: real, u1: real, u2: real, s1: real, s2: real, h1: real, h2: real)
    requires 0.0 <= p1 <= p2 && 0.0 <= h1 <= h2
    requires 0.0 < u2 <= u1 && 0.0 < s2 <= s1
    ensures 0.0 <= Closed(p1, u1, s1, h1) <= Closed(p2, u2, s2, h2)
  {
    MulMonotone(p1, p2, h1, h2);
    MulMonotone(u2, u1, s2, s1);
    QuotientMonotone(0.0, 2000.0 * p1 * h1, u1 * s1, u1 * s1);
    QuotientMonotone(2000.0 * p1 * h1, 2000.0 * p2 * h2, u1 * s1, u2 * s2);
  }

  /** Capped rounding never reverses an order between raw scores. */
  lemma CappedRoundMonotone(x: real, y: real)
    requires x <= y
    ensures Min(MaxScore, RoundReal(x)) <= Min(MaxScore, RoundReal(y))
  {
    RoundRealMonotone(x, y);
  }

  /** Moving every input in the score-raising direction (more purchases, more hours,
      fewer users, less but still positive stock) never lowers the score. */
  lemma ScoreMonotone(s: ProductPerformance, t: ProductPerformance)
    requires Valid(s) && Valid(t)
    requires s.totalPurchases <= t.totalPurchases && s.hoursToSoldOut <= t.hoursToSoldOut
    requires t.totalSystemUsers <= s.totalSystemUsers
    requires 0 < t.initialStock <= s.initialStock
    ensures SampleScore(s) <= SampleScore(t)
  {
    ScoreClosedForm(s);
    ScoreClosedForm(t);
    ClosedMonotone(s.totalPurchases as real, t.totalPurchases as real,
                   s.totalSystemUsers as real, t.totalSystemUsers as real,
                   s.initialStock as real, t.initialStock as real,
                   s.hoursToSoldOut, t.hoursToSoldOut);
    CappedRoundMonotone(RawScore(s), RawScore(t));
  }

  /** More purchases never lower the score. */
  lemma ScoreMonotonePurchases(s: ProductPerformance, purchases: nat)
    requires Valid(s) && s.totalPurchases <= purchases
    ensures SampleScore(s) <= SampleScore(s.(totalPurchases := purchases))
  {
    if s.initialStock > 0 {
      ScoreMonotone(s, s.(totalPurchases := purchases));
    }
  }

  /** A longer time to sell out never lowers the score. */
  lemma ScoreMonotoneHours(s: ProductPerformance, hours: real)
    requires Valid(s) && s.hoursToSoldOut <= hours
    ensures SampleScore(s) <= SampleScore(s.(hoursToSoldOut := hours))
  {
    if s.initialStock > 0 {
      ScoreMonotone(s, s.(hoursToSoldOut := hours));
    }
  }

  /** More system users never raise the score. */
  lemma ScoreAntitoneUsers(s: ProductPerformance, users: nat)
    requires Valid(s) && s.totalSystemUsers <= users
    ensures SampleScore(s.(totalSystemUsers := users)) <= SampleScore(s)
  {
    if s.initialStock > 0 {
      ScoreMonotone(s.(totalSystemUsers := users), s);
    }
  }

  /** More initial stock never raises the score, as long as there was some stock to
      begin with (see `ZeroStockBreaksAntitone` for why the bound is needed). */
  lemma ScoreAntitoneStock(s: ProductPerformance, stock: nat)
    requires Valid(s) && 0 < s.initialStock <= stock
    ensures SampleScore(s.(initialStock := stock)) <= SampleScore(s)
  {
    ScoreMonotone(s.(initialStock := stock), s);
  }

  /** The zero-depletion guard scores an empty stock 0, below what one unit of stock
      scores, so the score is not antitone in the stock across 0. */
  lemma ZeroStockBreaksAntitone()
    ensures SampleScore(ProductPerformance("x", 1, 1, 0, 1.0)) == 0
    ensures SampleScore(ProductPerformance("x", 1, 1, 1, 1.0)) == MaxScore
  {
    ScoreIntegral(ProductPerformance("x", 1, 1, 1, 1.0), 1);
  }

  // ---------------------------------------------------------------- which sample

  /** Only the first sample for an id is used: samples for the same id recorded later
      are ignored. */
  lemma FirstSampleWins(first: ProductPerformance, rest: seq<ProductPerformance>)
    requires Valid(first)
    ensures Scorable([first] + rest, first.productId)
    ensures VelocityScore([first] + rest, first.productId) == SampleScore(first)
  {
  }

  /** Appending samples never changes the score of a product that already has one. */
  lemma LaterSamplesIgnored(samples: seq<ProductPerformance>, more: seq<ProductPerformance>, id: string)
    requires FindSample(samples, id).Some? && Scorable(samples, id)
    ensures FindSample(samples + more, id) == FindSample(samples, id)
    ensures Scorable(samples + more, id)
    ensures VelocityScore(samples + more, id) == VelocityScore(samples, id)
  {
    var i :| 0 <= i < |samples| && samples[i].productId == id;
    var j := FirstWith(samples, id, i);
    FindSampleFirst(samples, id, j);
    FindSampleFirst(samples + more, id, j);
  }

  /** The first index holding `id`, given some index `i` that does. */
  lemma {:induction false} FirstWith(samples: seq<ProductPerformance>, id: string, i: nat) returns (j: nat)
    requires i < |samples| && samples[i].productId == id
    ensures j <= i && samples[j].productId == id
    ensures forall k | 0 <= k < j :: samples[k].productId != id
  {
    if exists k | 0 <= k < i :: samples[k].productId == id {
      var k :| 0 <= k < i && samples[k].productId == id;
      j := FirstWith(samples, id, k);
    } else {
      j := i;
    }
  }

  // ---------------------------------------------------------------- the ranking

  /** Every product in `ps` can be scored against `samples`. */
  predicate AllScorable(samples: seq<ProductPerformance>, ps: seq<Product>) {
    forall i | 0 <= i < |ps| :: Scorable(samples, ps[i].id)
  }

  /** The product with its velocity score recomputed from the samples. */
  function Annotated(samples: seq<ProductPerformance>, p: Product): (q: Product)
    requires Scorable(samples, p.id)
    ensures q.velocityScore == VelocityScore(samples, p.id)
    ensures q.(velocityScore := p.velocityScore) == p
  {
    p.(velocityScore := VelocityScore(samples, p.id))
  }

  /** `products.map(p => ({...p, velocityScore: calculateVelocityScore(p.id)}))`. */
  function Annotate(samples: seq<ProductPerformance>, ps: seq<Product>): (r: seq<Product>)
    requires AllScorable(samples, ps)
    ensures |r| == |ps|
    ensures forall i | 0 <= i < |ps| :: r[i] == Annotated(samples, ps[i])
  {
    seq(|ps|, i requires 0 <= i < |ps| => Annotated(samples, ps[i]))
  }

  /** `getHypeRankedProducts`: the annotated catalogue, highest score first, equal scores
      in catalogue order. */
  function HypeRank(samples: seq<ProductPerformance>, ps: seq<Product>): (r: seq<Product>)
    requires AllScorable(samples, ps)
    ensures |r| == |ps|
    ensures multiset(r) == multiset(Annotate(samples, ps))
    ensures SortedByVelocity(r)
    ensures forall k :: WithScore(r, k) == WithScore(Annotate(samples, ps), k)
  {
    SortByVelocity(Annotate(samples, ps))
  }

  /** Every annotated catalogue product is in the ranking. */
  lemma HypeRankHasAll(samples: seq<ProductPerformance>, ps: seq<Product>)
    requires AllScorable(samples, ps)
    ensures forall i | 0 <= i < |ps| :: Annotated(samples, ps[i]) in HypeRank(samples, ps)
  {
    var a, r := Annotate(samples, ps), HypeRank(samples, ps);
    forall i | 0 <= i < |ps| ensures Annotated(samples, ps[i]) in r {
      assert a[i] in multiset(a);
    }
  }

  /** Everything in the ranking is an annotated catalogue product. */
  lemma HypeRankOnlyAnnotated(samples: seq<ProductPerformance>, ps: seq<Product>)
    requires AllScorable(samples, ps)
    ensures forall i | 0 <= i < |HypeRank(samples, ps)| ::
      exists j | 0 <= j < |ps| :: HypeRank(samples, ps)[i] == Annotated(samples, ps[j])
  {
    var a, r := Annotate(samples, ps), HypeRank(samples, ps);
    forall i | 0 <= i < |r|
      ensures exists j | 0 <= j < |ps| :: r[i] == Annotated(samples, ps[j])
    {
      assert r[i] in multiset(a);
      var j :| 0 <= j < |a| && a[j] == r[i];
      assert r[i] == Annotated(samples, ps[j]);
    }
  }

  /** The ranking holds each catalogue product, with only its score replaced, and every
      listed score is the product's velocity score. */
  lemma HypeRankContents(samples: seq<ProductPerformance>, ps: seq<Product>)
    requires AllScorable(samples, ps)
    ensures forall i | 0 <= i < |ps| :: Annotated(samples, ps[i]) in HypeRank(samples, ps)
    ensures forall i | 0 <= i < |HypeRank(samples, ps)| ::
      exists j | 0 <= j < |ps| :: HypeRank(samples, ps)[i] == Annotated(samples, ps[j])
    ensures forall i | 0 <= i < |HypeRank(samples, ps)| ::
      HypeRank(samples, ps)[i].velocityScore == VelocityScore(samples, HypeRank(samples, ps)[i].id)
  {
    HypeRankHasAll(samples, ps);
    HypeRankOnlyAnnotated(samples, ps);
    var r := HypeRank(samples, ps);
    forall i | 0 <= i < |r| ensures r[i].velocityScore == VelocityScore(samples, r[i].id) {
      var j :| 0 <= j < |ps| && r[i] == Annotated(samples, ps[j]);
      assert r[i].id == ps[j].id;
    }
  }

  /** The ranking is the only arrangement of the annotated catalogue that is sorted by
      score and keeps every group of equal scores in catalogue order. */
  lemma HypeRankUnique(samples: seq<ProductPerformance>, ps: seq<Product>, other: seq<Product>)
    requires AllScorable(samples, ps)
    requires SortedByVelocity(other)
    requires forall k :: WithScore(other, k) == WithScore(Annotate(samples, ps), k)
    ensures other == HypeRank(samples, ps)
  {
    StableSortUnique(other, HypeRank(samples, ps));
  }

  // ---------------------------------------------------------------- fixture

  /** The six performance samples shipped with the catalogue. */
  const PerformanceData: seq<ProductPerformance> := [
    ProductPerformance("1", 850, 1000, 900, 4.0),
    ProductPerformance("2", 420, 1000, 500, 12.0),
    ProductPerformance("3", 150, 1000, 600, 72.0),
    ProductPerformance("4", 950, 1000, 960, 2.0),
    ProductPerformance("5", 50, 1000, 300, 168.0),
    ProductPerformance("6", 300, 1000, 1000, 48.0)
  ]

  /** The scorer's lookup finds product `i + 1`'s own sample. */
  lemma FixtureLookup(i: nat)
    requires i < |PerformanceData|
    ensures FindSample(PerformanceData, PerformanceData[i].productId) == Some(PerformanceData[i])
  {
    var d := PerformanceData;
    forall j | 0 <= j < i ensures d[j].productId != d[i].productId {
      assert d[j].productId[0] != d[i].productId[0];
    }
    FindSampleFirst(d, d[i].productId, i);
  }

  /** Every sample of the table has users and a positive sell-out time, so every product
      the shop ranks, whatever its id, can be scored against it. */
  lemma FixtureAllScorable(ps: seq<Product>)
    ensures forall i | 0 <= i < |PerformanceData| :: Valid(PerformanceData[i])
    ensures AllScorable(PerformanceData, ps)
  {
    var d := PerformanceData;
    assert forall i | 0 <= i < |d| :: Valid(d[i]);
    forall i | 0 <= i < |ps| ensures Scorable(d, ps[i].id) {
      var f := FindSample(d, ps[i].id);
      if f.Some? {
        var k :| 0 <= k < |d| && d[k] == f.value;
      }
    }
  }

  lemma FixtureSampleScores()
    ensures SampleScore(PerformanceData[0]) == 8
    ensures SampleScore(PerformanceData[1]) == 20
    ensures SampleScore(PerformanceData[2]) == 36
    ensures SampleScore(PerformanceData[3]) == 4
    ensures SampleScore(PerformanceData[4]) == 56
    ensures SampleScore(PerformanceData[5]) == 29
  {
    var d := PerformanceData;
    ScoreIntegral(d[0], 4);
    ScoreIntegral(d[1], 12);
    ScoreIntegral(d[2], 72);
    ScoreIntegral(d[3], 2);
    ScoreIntegral(d[4], 168);
    ScoreIntegral(d[5], 48);
  }

  /** The six fixture products score 8, 20, 36, 4, 56 and 29. */
  lemma FixtureScores()
    ensures Scorable(PerformanceData, "1") && VelocityScore(PerformanceData, "1") == 8
    ensures Scorable(PerformanceData, "2") && VelocityScore(PerformanceData, "2") == 20
    ensures Scorable(PerformanceData, "3") && VelocityScore(PerformanceData, "3") == 36
    ensures Scorable(PerformanceData, "4") && VelocityScore(PerformanceData, "4") == 4
    ensures Scorable(PerformanceData, "5") && VelocityScore(PerformanceData, "5") == 56
    ensures Scorable(PerformanceData, "6") && VelocityScore(PerformanceData, "6") == 29
  {
    FixtureSampleScores();
    FixtureLookup(0);
    FixtureLookup(1);
    FixtureLookup(2);
    FixtureLookup(3);
    FixtureLookup(4);
    FixtureLookup(5);
  }

  /** A product the fixture has no sample for gets the default score. */
  lemma FixtureMissing()
    ensures Scorable(PerformanceData, "7") && VelocityScore(PerformanceData, "7") == NoSampleScore
  {
    var d := PerformanceData;
    assert forall i | 0 <= i < |d| :: d[i].productId[0] != '7';
  }
}

=== FILE: outfit.dfy ===
/** The outfit builder: a selection of products holding at most one product per
    category (slot), toggled one product at a time. */
module Outfit {
  import opened Wrappers
  import opened Types
  import opened Seqs

  /** The five slots of the builder, in display order. */
  const Slots: seq<Category> := ["Outerwear", "Tops", "Bottoms", "Footwear", "Accessories"]

  function ProductId(p: Product): string {
    p.id
  }

  function ProductCategory(p: Product): Category {
    p.category
  }

  function OtherProduct(id: string): Product -> bool {
    (p: Product) => p.id != id
  }

  function OtherCategory(category: Category): Product -> bool {
    (p: Product) => p.category != category
  }

  /** Selected ids are unique and no two selected products share a category. */
  predicate WellFormed(sel: seq<Product>) {
    DistinctBy(sel, ProductId) && DistinctBy(sel, ProductCategory)
  }

  /** `handleToggleItem`: a selected product is deselected; any other product replaces
      whatever was selected in its category and goes to the end. */
  function ToggleItem(sel: seq<Product>, p: Product): (r: seq<Product>)
    ensures HasId(sel, p.id) ==>
      !HasId(r, p.id) && (forall i | 0 <= i < |sel| && sel[i].id != p.id :: sel[i] in r)
    ensures !HasId(sel, p.id) ==>
      |r| >= 1 && r[|r| - 1] == p
      && (forall i | 0 <= i < |r| - 1 :: r[i] in sel && r[i].category != p.category)
      && (forall i | 0 <= i < |sel| && sel[i].category != p.category :: sel[i] in r)
    ensures forall i | 0 <= i < |r| :: r[i] in sel || r[i] == p
  {
    if HasId(sel, p.id) then
      Filter(sel, OtherProduct(p.id))
    else
      Filter(sel, OtherCategory(p.category)) + [p]
  }

  /** Toggling keeps the selection well formed. */
  lemma ToggleKeepsWellFormed(sel: seq<Product>, p: Product)
    requires WellFormed(sel)
    ensures WellFormed(ToggleItem(sel, p))
  {
    if HasId(sel, p.id) {
      var r := Filter(sel, OtherProduct(p.id));
      FilterIsSubsequence(sel, OtherProduct(p.id));
      SubsequenceKeepsDistinct(r, sel, ProductId);
      SubsequenceKeepsDistinct(r, sel, ProductCategory);
    } else {
      var f := Filter(sel, OtherCategory(p.category));
      FilterIsSubsequence(sel, OtherCategory(p.category));
      SubsequenceKeepsDistinct(f, sel, ProductId);
      SubsequenceKeepsDistinct(f, sel, ProductCategory);
      var r := f + [p];
      forall i, j | 0 <= i < j < |r| ensures r[i].id != r[j].id && r[i].category != r[j].category {
        if j == |f| {
          assert r[i] == f[i] && f[i] in sel;
          var k :| 0 <= k < |sel| && sel[k] == f[i];
        } else {
          assert r[i] == f[i] && r[j] == f[j];
        }
      }
    }
  }

  /** Toggling the same unselected product twice drops it again, and with it only what
      it had displaced. */
  lemma ToggleTwice(sel: seq<Product>, p: Product)
    requires !HasId(sel, p.id)
    ensures ToggleItem(ToggleItem(sel, p), p) == Filter(sel, OtherCategory(p.category))
  {
    var f := Filter(sel, OtherCategory(p.category));
    var r := f + [p];
    assert r[|f|].id == p.id;
    forall i | 0 <= i < |f| ensures OtherProduct(p.id)(f[i]) {
      assert f[i] in sel;
      var k :| 0 <= k < |sel| && sel[k] == f[i];
    }
    FilterAppend(f, [p], OtherProduct(p.id));
    FilterKeepsAll(f, OtherProduct(p.id));
  }

  /** `calculateTotal`: the sum of the selected prices, 0 for an empty selection, the
      one price for a single item, and never negative when no price is. */
  function Total(sel: seq<Product>): (r: int)
    ensures sel == [] ==> r == 0
    ensures |sel| == 1 ==> r == sel[0].price
    ensures (forall i | 0 <= i < |sel| :: sel[i].price >= 0) ==> r >= 0
  {
    PriceSum(sel)
  }

  /** Adding a product to a selection with nothing in its category adds its price. */
  lemma ToggleTotal(sel: seq<Product>, p: Product)
    requires !HasId(sel, p.id)
    requires forall i | 0 <= i < |sel| :: sel[i].category != p.category
    ensures Total(ToggleItem(sel, p)) == Total(sel) + p.price
  {
    FilterKeepsAll(sel, OtherCategory(p.category));
    PriceSumAppend(sel, [p]);
  }

  /** The product shown in a slot: the first selected product of that category. */
  function SlotItem(sel: seq<Product>, slot: Category): (r: Option<Product>)
    ensures r.Some? ==> r.value in sel && r.value.category == slot
    ensures r.None? <==> forall i | 0 <= i < |sel| :: sel[i].category != slot
  {
    if sel == [] then None
    else if sel[0].category == slot then Some(sel[0])
    else SlotItem(sel[1..], slot)
  }

  /** In a well-formed selection the slot shows exactly the selected product of its category. */
  lemma SlotItemUnique(sel: seq<Product>, slot: Category, i: nat)
    requires WellFormed(sel) && i < |sel| && sel[i].category == slot
    ensures SlotItem(sel, slot) == Some(sel[i])
  {
    var r := SlotItem(sel, slot);
    var k :| 0 <= k < |sel| && sel[k] == r.value;
  }

  /** "Lock This Look" is disabled exactly when nothing is selected, that is when every
      slot of the board is empty. */
  predicate LockDisabled(sel: seq<Product>)
    ensures LockDisabled(sel) <==> sel == []
    ensures LockDisabled(sel) <==> forall c: Category :: SlotItem(sel, c).None?
  {
    assert sel != [] ==> SlotItem(sel, sel[0].category).Some?;
    |sel| == 0
  }

  /** Picking an unselected product always enables locking. */
  lemma ToggleEnablesLock(sel: seq<Product>, p: Product)
    requires !HasId(sel, p.id)
    ensures !LockDisabled(ToggleItem(sel, p))
  {
  }
}

=== FILE: product_card.dfy ===
/** The catalogue tile: its discount badge, "watching" count, scarcity badge and
    sold-out overlay. */
module ProductCard {
  import opened Wrappers
  import opened Types
  import opened Arith
  import opened ProductForms
  import AdminPanel
  import SupplierDashboard

  /** `Math.round((originalPrice - price) / originalPrice * 100)`; with no original price
      the quotient is not a finite number and no badge can show, which is `None`. */
  function Discount(p: Product): (r: Option<int>)
    ensures r.None? <==> p.originalPrice == 0
  {
    if p.originalPrice == 0 then None
    else Some(RoundReal((p.originalPrice - p.price) as real / p.originalPrice as real * 100.0))
  }

  /** The discount is the integer half-up quotient `100 · (original - price) / original`. */
  lemma DiscountIntegral(p: Product)
    requires p.originalPrice > 0
    ensures Discount(p) == Some(RoundDiv(100 * (p.originalPrice - p.price), p.originalPrice))
  {
    var n, d := p.originalPrice - p.price, p.originalPrice;
    var x := n as real / d as real;
    assert x * d as real == n as real;
    assert (x * 100.0) * d as real == (100 * n) as real;
    assert x * 100.0 == (100 * n) as real / d as real;
    RoundDivIsRoundReal(100 * n, d);
  }

  /** The badge `-N% OFF` shows when the discount is positive. */
  predicate ShowsDiscountBadge(p: Product) {
    var d := Discount(p);
    d.Some? && d.value > 0
  }

  /** For a positive original price the badge shows exactly when the saving is at least
      half a percent of it; for a price between 0 and the original the percentage lies in
      0..100. */
  lemma DiscountBadgeIff(p: Product)
    requires p.originalPrice > 0
    ensures ShowsDiscountBadge(p) <==> 200 * (p.originalPrice - p.price) >= p.originalPrice
    ensures 0 <= p.price <= p.originalPrice ==> 0 <= Discount(p).value <= 100
  {
    DiscountIntegral(p);
    var n, d := 100 * (p.originalPrice - p.price), p.originalPrice;
    var r := RoundDiv(n, d);
    if 2 * n >= d {
      RoundDivExact(1, d);
      RoundDivMonotone(d, 2 * n, d);
      HalfRoundsUp(n, d);
    } else {
      RoundDivExact(0, d);
      HalfRoundsDown(n, d);
    }
    if 0 <= p.price <= p.originalPrice {
      RoundDivExact(0, d);
      RoundDivExact(100, d);
      RoundDivMonotone(0, n, d);
      RoundDivMonotone(n, 100 * d, d);
    }
  }

  lemma HalfRoundsUp(n: int, d: int)
    requires d > 0 && 2 * n >= d
    ensures RoundDiv(n, d) >= 1
  {
    var r := RoundDiv(n, d);
    assert 2 * d * r + d > d;
    assert d * r > 0;
  }

  lemma HalfRoundsDown(n: int, d: int)
    requires d > 0 && 2 * n < d
    ensures RoundDiv(n, d) <= 0
  {
    var r := RoundDiv(n, d);
    assert 2 * d * r - d < d;
    assert d * r < d;
    MulCancel(d, r);
  }

  /** `Math.floor(viewers / 10) + 2`. */
  function Watching(p: Product): (r: int)
    ensures 10 * (r - 2) <= p.viewers < 10 * (r - 2) + 10
    ensures p.viewers >= 0 ==> r >= 2
  {
    FloorDiv(p.viewers, 10) + 2
  }

  /** The scarcity badge: one to five units left. */
  predicate ShowsCriticalStock(p: Product) {
    1 <= p.stockCount <= 5
  }

  /** The "Vault Closed" overlay: the product is marked out of stock. */
  predicate ShowsVaultClosed(p: Product) {
    !p.inStock
  }

  /** What a tile shows, besides the product's own text and picture. */
  datatype Tile = Tile(discountBadge: Option<int>, watching: int, criticalStock: Option<int>, vaultClosed: bool, wishlisted: bool)

  function Render(p: Product, isWishlisted: bool): (t: Tile)
    ensures t.discountBadge.Some? <==> ShowsDiscountBadge(p)
    ensures t.discountBadge.Some? ==> t.discountBadge == Discount(p) && t.discountBadge.value > 0
    ensures t.criticalStock.Some? <==> ShowsCriticalStock(p)
    ensures t.criticalStock.Some? ==> t.criticalStock.value == p.stockCount
    ensures t.vaultClosed <==> !p.inStock
    ensures t.wishlisted == isWishlisted
  {
    Tile(
      if ShowsDiscountBadge(p) then Discount(p) else None,
      Watching(p),
      if ShowsCriticalStock(p) then Some(p.stockCount) else None,
      ShowsVaultClosed(p),
      isWishlisted)
  }

  /** A listing created by either console is out of stock exactly when it has no units,
      so its tile never shows the scarcity badge over the sold-out overlay. */
  lemma NewListingsConsistent(count: nat, form: ProductForm, supplier: Option<Supplier>, now: nat)
    ensures var p := AdminPanel.NewProduct(count, form);
      Render(p, false).vaultClosed <==> p.stockCount <= 0
    ensures var p := SupplierDashboard.NewListing(form, supplier, now);
      Render(p, false).vaultClosed <==> p.stockCount <= 0
    ensures var p := AdminPanel.NewProduct(count, form);
      !(Render(p, false).vaultClosed && Render(p, false).criticalStock.Some?)
    ensures var p := SupplierDashboard.NewListing(form, supplier, now);
      !(Render(p, false).vaultClosed && Render(p, false).criticalStock.Some?)
  {
  }
}

=== FILE: ranking.dfy ===
/** Ordering a catalogue by `velocityScore`, highest first, as
    `[...].sort((a, b) => b.velocityScore - a.velocityScore)` does.  `Array.prototype.sort`
    is stable, so products with equal scores keep their input order; the model is an
    insertion sort, and `StableSortUnique` shows that every stable descending sort
    gives the same sequence. */
module Ranking {
  import opened Types

  predicate SortedByVelocity(s: seq<Product>) {
    forall i, j | 0 <= i < j < |s| :: s[i].velocityScore >= s[j].velocityScore
  }

  /** The products of `s` whose score is `k`, in their order in `s`. */
  function WithScore(s: seq<Product>, k: int): (r: seq<Product>)
    ensures forall i | 0 <= i < |r| :: r[i] in s && r[i].velocityScore == k
  {
    if s == [] then []
    else if s[0].velocityScore == k then [s[0]] + WithScore(s[1..], k)
    else WithScore(s[1..], k)
  }

  /** Inserts `p` in front of the first product that does not outscore it. */
  function InsertByVelocity(p: Product, s: seq<Product>): (r: seq<Product>)
    ensures multiset(r) == multiset(s) + multiset{p}
    ensures forall i | 0 <= i < |r| :: r[i] == p || r[i] in s
  {
    if s == [] || s[0].velocityScore <= p.velocityScore then
      [p] + s
    else
      assert s == [s[0]] + s[1..];
      [s[0]] + InsertByVelocity(p, s[1..])
  }

  /** Insertion keeps a sorted sequence sorted. */
  lemma {:induction false} InsertKeepsSorted(p: Product, s: seq<Product>)
    requires SortedByVelocity(s)
    ensures SortedByVelocity(InsertByVelocity(p, s))
  {
    if s != [] && s[0].velocityScore > p.velocityScore {
      var rest := InsertByVelocity(p, s[1..]);
      InsertKeepsSorted(p, s[1..]);
      assert s == [s[0]] + s[1..];
      forall j | 0 <= j < |rest|
        ensures rest[j].velocityScore <= s[0].velocityScore
      {
        if rest[j] != p {
          var k :| 0 <= k < |s[1..]| && s[1..][k] == rest[j];
          assert s[k + 1] == rest[j];
        }
      }
      var r := [s[0]] + rest;
      assert r == InsertByVelocity(p, s);
      forall i, j | 0 <= i < j < |r|
        ensures r[i].velocityScore >= r[j].velocityScore
      {
        if i > 0 {
          assert r[i] == rest[i - 1] && r[j] == rest[j - 1];
        } else {
          assert r[j] == rest[j - 1];
        }
      }
    }
  }

  /** Insertion puts `p` after every product with its own score: each score class
      reads as if `p` had been in front. */
  lemma {:induction false} InsertIsStable(p: Product, s: seq<Product>, k: int)
    ensures WithScore(InsertByVelocity(p, s), k) == WithScore([p] + s, k)
  {
    if s != [] && s[0].velocityScore > p.velocityScore {
      var rest := InsertByVelocity(p, s[1..]);
      InsertIsStable(p, s[1..], k);
      assert ([s[0]] + rest)[1..] == rest;
      assert ([p] + s)[1..] == s;
      assert ([p] + s[1..])[1..] == s[1..];
    }
  }

  /** The catalogue ordered by descending `velocityScore`, ties in input order. */
  function SortByVelocity(s: seq<Product>): (r: seq<Product>)
    ensures multiset(r) == multiset(s)
    ensures |r| == |s|
    ensures SortedByVelocity(r)
    ensures forall k :: WithScore(r, k) == WithScore(s, k)
  {
    if s == [] then []
    else
      var rest := SortByVelocity(s[1..]);
      InsertKeepsSorted(s[0], rest);
      InsertKeepsClasses(s, rest);
      assert s == [s[0]] + s[1..];
      var r := InsertByVelocity(s[0], rest);
      assert |r| == |multiset(r)|;
      r
  }

  /** One step of the sort: inserting the head into a class-preserving arrangement of
      the tail gives a class-preserving arrangement of the whole. */
  lemma InsertKeepsClasses(s: seq<Product>, rest: seq<Product>)
    requires s != []
    requires forall k :: WithScore(rest, k) == WithScore(s[1..], k)
    ensures forall k :: WithScore(InsertByVelocity(s[0], rest), k) == WithScore(s, k)
  {
    forall k ensures WithScore(InsertByVelocity(s[0], rest), k) == WithScore(s, k) {
      InsertIsStable(s[0], rest, k);
      assert ([s[0]] + rest)[1..] == rest;
    }
  }

  /** The score class of the first product is never empty. */
  lemma HeadClassNonEmpty(s: seq<Product>)
    requires s != []
    ensures WithScore(s, s[0].velocityScore) != []
    ensures WithScore(s, s[0].velocityScore)[0] == s[0]
  {
  }

  /** A sorted sequence puts a product of the top score first among its equals. */
  lemma SortedHeadLeads(s: seq<Product>, x: Product)
    requires SortedByVelocity(s) && s != []
    requires x in s
    ensures x.velocityScore <= s[0].velocityScore
  {
  }

  /** Any two sequences that are sorted and agree on every score class are equal:
      the stable descending sort of a sequence is unique. */
  lemma {:induction false} StableSortUnique(a: seq<Product>, b: seq<Product>)
    requires SortedByVelocity(a) && SortedByVelocity(b)
    requires forall k :: WithScore(a, k) == WithScore(b, k)
    ensures a == b
    decreases |a|
  {
    if a != [] {
      HeadClassNonEmpty(a);
    }
    if b != [] {
      HeadClassNonEmpty(b);
    }
    assert a == [] <==> b == [];
    if a != [] {
      var ka, kb := a[0].velocityScore, b[0].velocityScore;
      assert WithScore(a, kb)[0] in a;
      assert WithScore(b, ka)[0] in b;
      assert ka == kb;
      assert a[0] == WithScore(a, ka)[0];
      assert b[0] == WithScore(b, ka)[0];
      forall k ensures WithScore(a[1..], k) == WithScore(b[1..], k) {
        assert WithScore(a, k) == WithScore(b, k);
        if a[0].velocityScore == k {
          assert ([a[0]] + WithScore(a[1..], k))[1..] == WithScore(a[1..], k);
          assert ([b[0]] + WithScore(b[1..], k))[1..] == WithScore(b[1..], k);
        }
      }
      StableSortUnique(a[1..], b[1..]);
      assert a == [a[0]] + a[1..];
      assert b == [b[0]] + b[1..];
    }
  }
}

=== FILE: seqs.dfy ===
/** Generic sequence helpers: `Array.prototype.filter` and the subsequence order it keeps. */
module Seqs {

  /** `a` can be obtained from `b` by deleting elements (relative order kept). */
  predicate IsSubsequence<T(==)>(a: seq<T>, b: seq<T>)
    decreases |b|
  {
    if a == [] then true
    else if b == [] then false
    else if a[0] == b[0] then IsSubsequence(a[1..], b[1..])
    else IsSubsequence(a, b[1..])
  }

  /** The elements of `s` that satisfy `keep`, in their original order. */
  function Filter<T>(s: seq<T>, keep: T -> bool): (r: seq<T>)
    ensures |r| <= |s|
    ensures forall i | 0 <= i < |r| :: r[i] in s && keep(r[i])
    ensures forall i | 0 <= i < |s| && keep(s[i]) :: s[i] in r
  {
    if s == [] then []
    else if keep(s[0]) then [s[0]] + Filter(s[1..], keep)
    else Filter(s[1..], keep)
  }

  /** Filtering keeps every accepted element with its full multiplicity and drops
      every rejected one. */
  lemma {:induction false} FilterCount<T>(s: seq<T>, keep: T -> bool, x: T)
    ensures multiset(Filter(s, keep))[x] == if keep(x) then multiset(s)[x] else 0
  {
    if s != [] {
      FilterCount(s[1..], keep, x);
      assert s == [s[0]] + s[1..];
    }
  }

  /** Filtering keeps the relative order of what it keeps. */
  lemma {:induction false} FilterIsSubsequence<T>(s: seq<T>, keep: T -> bool)
    ensures IsSubsequence(Filter(s, keep), s)
  {
    if s != [] {
      FilterIsSubsequence(s[1..], keep);
      var rest := Filter(s[1..], keep);
      if keep(s[0]) {
        assert ([s[0]] + rest)[1..] == rest;
      } else {
        assert rest == [] || rest[0] != s[0];
      }
    }
  }

  /** Filtering distributes over concatenation. */
  lemma {:induction false} FilterAppend<T>(a: seq<T>, b: seq<T>, keep: T -> bool)
    ensures Filter(a + b, keep) == Filter(a, keep) + Filter(b, keep)
  {
    if a == [] {
      assert a + b == b;
    } else {
      assert (a + b)[1..] == a[1..] + b;
      FilterAppend(a[1..], b, keep);
    }
  }

  /** When nothing in `s` is rejected, filtering is the identity. */
  lemma {:induction false} FilterKeepsAll<T>(s: seq<T>, keep: T -> bool)
    requires forall i | 0 <= i < |s| :: keep(s[i])
    ensures Filter(s, keep) == s
  {
    if s != [] {
      FilterKeepsAll(s[1..], keep);
    }
  }

  /** When everything in `s` is rejected, filtering yields nothing. */
  lemma {:induction false} FilterDropsAll<T>(s: seq<T>, keep: T -> bool)
    requires forall i | 0 <= i < |s| :: !keep(s[i])
    ensures Filter(s, keep) == []
  {
    if s != [] {
      FilterDropsAll(s[1..], keep);
    }
  }

  /** Filtering twice with the same test changes nothing the second time. */
  lemma FilterIdempotent<T>(s: seq<T>, keep: T -> bool)
    ensures Filter(Filter(s, keep), keep) == Filter(s, keep)
  {
    FilterKeepsAll(Filter(s, keep), keep);
  }

  /** Every element of a subsequence occurs in the sequence. */
  lemma {:induction false} SubsequenceElements<T>(a: seq<T>, b: seq<T>)
    requires IsSubsequence(a, b)
    ensures forall i | 0 <= i < |a| :: exists k | 0 <= k < |b| :: b[k] == a[i]
    decreases |b|
  {
    if a != [] && b != [] {
      if a[0] == b[0] {
        SubsequenceElements(a[1..], b[1..]);
        forall i | 0 <= i < |a| ensures exists k | 0 <= k < |b| :: b[k] == a[i] {
          if i == 0 {
            assert b[0] == a[0];
          } else {
            var k :| 0 <= k < |b| - 1 && b[1..][k] == a[1..][i - 1];
            assert b[k + 1] == a[i];
          }
        }
      } else {
        SubsequenceElements(a, b[1..]);
        forall i | 0 <= i < |a| ensures exists k | 0 <= k < |b| :: b[k] == a[i] {
          var k :| 0 <= k < |b| - 1 && b[1..][k] == a[i];
          assert b[k + 1] == a[i];
        }
      }
    }
  }

  /** Every sequence is a subsequence of itself. */
  lemma {:induction false} SubsequenceRefl<T>(s: seq<T>)
    ensures IsSubsequence(s, s)
  {
    if s != [] {
      SubsequenceRefl(s[1..]);
    }
  }

  /** No two elements of `s` share a key. */
  predicate DistinctBy<T, K(==)>(s: seq<T>, key: T -> K) {
    forall i, j | 0 <= i < j < |s| :: key(s[i]) != key(s[j])
  }

  /** Deleting elements keeps keys distinct. */
  lemma {:induction false} SubsequenceKeepsDistinct<T, K>(a: seq<T>, b: seq<T>, key: T -> K)
    requires IsSubsequence(a, b) && DistinctBy(b, key)
    ensures DistinctBy(a, key)
    decreases |b|
  {
    if a != [] && b != [] {
      assert DistinctBy(b[1..], key) by {
        forall i, j | 0 <= i < j < |b| - 1 ensures key(b[1..][i]) != key(b[1..][j]) {
          assert b[1..][i] == b[i + 1] && b[1..][j] == b[j + 1];
        }
      }
      if a[0] == b[0] {
        SubsequenceKeepsDistinct(a[1..], b[1..], key);
        SubsequenceElements(a[1..], b[1..]);
        forall j | 0 < j < |a| ensures key(a[0]) != key(a[j]) {
          assert a[1..][j - 1] == a[j];
          var k :| 0 <= k < |b| - 1 && b[1..][k] == a[j];
          assert b[k + 1] == a[j];
        }
      } else {
        SubsequenceKeepsDistinct(a, b[1..], key);
      }
    }
  }

  /** Filtering with two tests that agree on every element gives the same result. */
  lemma {:induction false} FilterCongruent<T>(s: seq<T>, k1: T -> bool, k2: T -> bool)
    requires forall i | 0 <= i < |s| :: k1(s[i]) == k2(s[i])
    ensures Filter(s, k1) == Filter(s, k2)
  {
    if s != [] {
      FilterCongruent(s[1..], k1, k2);
    }
  }

  /** `s.filter(keep).slice(0, n)`: the first `n` elements that pass, in order. */
  function FirstMatches<T>(s: seq<T>, keep: T -> bool, n: nat): (r: seq<T>)
    ensures |r| <= n && |r| <= |Filter(s, keep)| && r == Filter(s, keep)[..|r|]
    ensures forall i | 0 <= i < |r| :: r[i] in s && keep(r[i])
    ensures |r| < n ==> r == Filter(s, keep)
  {
    var f := Filter(s, keep);
    if |f| <= n then f else f[..n]
  }
}

=== FILE: supplier_dashboard.dfy ===
/** The supplier console: which supplier, products and orders it shows, and saving the
    restricted product editor's form. */
module SupplierDashboard {
  import opened Wrappers
  import opened Types
  import opened Seqs
  import opened Text
  import opened ProductForms
  import Database

  /** `allSuppliers.find(s => s.id === supplierId) || allSuppliers[0]`; with no
      suppliers at all the console has nothing to show. */
  function CurrentSupplier(suppliers: seq<Supplier>, supplierId: string): (r: Option<Supplier>)
    ensures r.None? <==> suppliers == []
    ensures r.Some? ==> r.value in suppliers
    ensures (exists i | 0 <= i < |suppliers| :: suppliers[i].id == supplierId) ==>
      r.Some? && r.value.id == supplierId
    ensures suppliers != [] && (forall i | 0 <= i < |suppliers| :: suppliers[i].id != supplierId) ==>
      r == Some(suppliers[0])
  {
    match FindSupplier(suppliers, supplierId)
    case Some(s) => Some(s)
    case None => if suppliers == [] then None else Some(suppliers[0])
  }

  /** The first supplier with that id. */
  function FindSupplier(suppliers: seq<Supplier>, supplierId: string): (r: Option<Supplier>)
    ensures r.Some? ==> r.value in suppliers && r.value.id == supplierId
    ensures r.None? <==> forall i | 0 <= i < |suppliers| :: suppliers[i].id != supplierId
  {
    if suppliers == [] then None
    else if suppliers[0].id == supplierId then Some(suppliers[0])
    else
      var r := FindSupplier(suppliers[1..], supplierId);
      assert forall i | 1 <= i < |suppliers| :: suppliers[i] == suppliers[1..][i - 1];
      r
  }

  /** The first match wins: a supplier earlier in the list with the same id shadows later ones. */
  lemma {:induction false} FindSupplierFirst(suppliers: seq<Supplier>, supplierId: string, k: nat)
    requires k < |suppliers| && suppliers[k].id == supplierId
    requires forall j | 0 <= j < k :: suppliers[j].id != supplierId
    ensures FindSupplier(suppliers, supplierId) == Some(suppliers[k])
  {
    if k > 0 {
      FindSupplierFirst(suppliers[1..], supplierId, k - 1);
    }
  }

  function OwnedBy(supplierId: string): Product -> bool {
    (p: Product) => p.supplierId == Some(supplierId)
  }

  /** The products listed for a supplier: exactly those assigned to it, in catalogue order. */
  function MyProducts(all: seq<Product>, current: Supplier): (r: seq<Product>)
    ensures forall i | 0 <= i < |r| :: r[i] in all && r[i].supplierId == Some(current.id)
    ensures forall i | 0 <= i < |all| && all[i].supplierId == Some(current.id) :: all[i] in r
  {
    Filter(all, OwnedBy(current.id))
  }

  lemma MyProductsOrder(all: seq<Product>, current: Supplier)
    ensures IsSubsequence(MyProducts(all, current), all)
  {
    FilterIsSubsequence(all, OwnedBy(current.id));
  }

  /** Whether an order line is for one of `mine`. */
  predicate ForMine(item: CartItem, mine: seq<Product>) {
    HasId(mine, item.Id())
  }

  predicate TouchesMine(o: Order, mine: seq<Product>) {
    exists k | 0 <= k < |o.items| :: ForMine(o.items[k], mine)
  }

  function OrderTouches(mine: seq<Product>): Order -> bool {
    (o: Order) => TouchesMine(o, mine)
  }

  /** The orders listed: exactly those with at least one line for the supplier's products. */
  function MyOrders(orders: seq<Order>, mine: seq<Product>): (r: seq<Order>)
    ensures forall i | 0 <= i < |r| :: r[i] in orders && TouchesMine(r[i], mine)
    ensures forall i | 0 <= i < |orders| && TouchesMine(orders[i], mine) :: orders[i] in r
  {
    Filter(orders, OrderTouches(mine))
  }

  function ItemForMine(mine: seq<Product>): CartItem -> bool {
    (item: CartItem) => ForMine(item, mine)
  }

  /** An order card lists only the order's lines for the supplier's products. */
  function OrderCardItems(o: Order, mine: seq<Product>): (r: seq<CartItem>)
    ensures forall i | 0 <= i < |r| :: r[i] in o.items && ForMine(r[i], mine)
    ensures forall i | 0 <= i < |o.items| && ForMine(o.items[i], mine) :: o.items[i] in r
  {
    Filter(o.items, ItemForMine(mine))
  }

  /** Every listed order shows at least one line on its card. */
  lemma ListedOrdersShowLines(orders: seq<Order>, mine: seq<Product>)
    ensures forall i | 0 <= i < |MyOrders(orders, mine)| :: OrderCardItems(MyOrders(orders, mine)[i], mine) != []
  {
    var listed := MyOrders(orders, mine);
    forall i | 0 <= i < |listed| ensures OrderCardItems(listed[i], mine) != [] {
      var k :| 0 <= k < |listed[i].items| && ForMine(listed[i].items[k], mine);
      assert listed[i].items[k] in OrderCardItems(listed[i], mine);
    }
  }

  /** What the console shows. */
  datatype View = View(supplier: Supplier, products: seq<Product>, orders: seq<Order>)

  /** `refreshData`: reads the suppliers and products (seeding them when absent). */
  function Refresh(st: Database.Store, catalogue: seq<Product>, orders: seq<Order>, supplierId: string): (r: (Option<View>, Database.Store))
    ensures r.1 == Database.GetProducts(Database.GetSuppliers(st).1, catalogue).1
    ensures r.0.None? <==> Database.GetSuppliers(st).0 == []
    ensures r.0.Some? ==>
      Some(r.0.value.supplier) == CurrentSupplier(Database.GetSuppliers(st).0, supplierId)
      && r.0.value.products == MyProducts(Database.GetProducts(st, catalogue).0, r.0.value.supplier)
      && r.0.value.orders == MyOrders(orders, r.0.value.products)
  {
    var (suppliers, st1) := Database.GetSuppliers(st);
    var (all, st2) := Database.GetProducts(st1, catalogue);
    match CurrentSupplier(suppliers, supplierId)
    case None => (None, st2)
    case Some(current) =>
      var mine := MyProducts(all, current);
      (Some(View(current, mine, MyOrders(orders, mine))), st2)
  }

  /** The id a supplier's new listing gets at time `now`. */
  function ListingId(now: nat): (id: string)
    ensures |id| > 3 && id[..3] == "SP-" && AllDigits(id[3..])
  {
    "SP-" + NatToString(now)
  }

  /** A supplier's new listing: scores start at 0, it is new, and it belongs to the supplier. */
  function NewListing(form: ProductForm, supplier: Option<Supplier>, now: nat): (p: Product)
    ensures p.id == ListingId(now) && p.viewers == 0
    ensures p.velocityScore == 0 && p.hypeScore == 0 && p.isNew
    ensures p.supplierId == if supplier.Some? then Some(supplier.value.id) else None
    ensures p.inStock <==> form.stockCount.GetOr(0) > 0
    ensures form.name.Some? ==> p.name == form.name.value
  {
    Merge(BlankProduct, form).(
      id := ListingId(now),
      supplierId := if supplier.Some? then Some(supplier.value.id) else None,
      inStock := form.stockCount.GetOr(0) > 0,
      viewers := 0,
      velocityScore := 0,
      hypeScore := 0,
      isNew := true)
  }

  /** `handleSaveProduct`: the stored catalogue with the edit applied or the new listing
      in front, saved. */
  function SaveProduct(st: Database.Store, catalogue: seq<Product>, editing: Option<Product>,
                       form: ProductForm, supplier: Option<Supplier>, now: nat): (r: (seq<Product>, Database.Store))
    ensures var (all, st1) := Database.GetProducts(st, catalogue);
      r.1 == Database.SaveProducts(st1, r.0)
      && (editing.Some? ==> r.0 == ApplyEdit(all, editing.value.id, form))
      && (editing.None? ==> r.0 == [NewListing(form, supplier, now)] + all)
  {
    var (all, st1) := Database.GetProducts(st, catalogue);
    var updated := match editing
      case Some(e) => ApplyEdit(all, e.id, form)
      case None => [NewListing(form, supplier, now)] + all;
    (updated, Database.SaveProducts(st1, updated))
  }

  /** A supplier cannot touch hype: whatever the supplier does in the editor before
      saving, every product already in the catalogue keeps its id, viewers, hype and
      velocity, and a new listing starts with hype and velocity 0. */
  lemma SupplierCannotTouchHype(st: Database.Store, catalogue: seq<Product>, editing: Option<Product>,
                                events: seq<Event>, supplier: Option<Supplier>, now: nat)
    requires forall i | 0 <= i < |events| :: SupplierControl(events[i])
    ensures var form := Run(Editor(SupplierOpen(editing), [], []), events).form;
      var all := Database.GetProducts(st, catalogue).0;
      var saved := SaveProduct(st, catalogue, editing, form, supplier, now).0;
      var offset := if editing.Some? then 0 else 1;
      |saved| == |all| + offset
      && (editing.None? ==> saved[0].hypeScore == 0 && saved[0].velocityScore == 0)
      && forall i | 0 <= i < |all| ::
           saved[i + offset].id == all[i].id && saved[i + offset].viewers == all[i].viewers
           && saved[i + offset].hypeScore == all[i].hypeScore
           && saved[i + offset].velocityScore == all[i].velocityScore
  {
    SupplierSubmitRestricted(editing, events);
  }
}

=== FILE: text.dfy ===
/** String helpers standing in for the JavaScript string methods the storefront
    calls: `trim`, `toLowerCase`, `toUpperCase`, `includes`, number-to-string,
    `padStart(2, '0')`, `join` and `split`.  Case mapping and whitespace are ASCII only. */
module Text {

  // ---------------------------------------------------------------- whitespace

  /** The ASCII members of JavaScript's whitespace class. */
  predicate IsSpace(c: char) {
    c == ' ' || c == '\t' || c == '\n' || c == '\r' || c == '\U{000B}' || c == '\U{000C}'
  }

  predicate AllSpace(s: string) {
    forall i | 0 <= i < |s| :: IsSpace(s[i])
  }

  /** The number of whitespace characters `s` starts with. */
  function LeadingSpaces(s: string): (n: nat)
    ensures n <= |s|
    ensures forall k | 0 <= k < n :: IsSpace(s[k])
    ensures n == |s| || !IsSpace(s[n])
  {
    if s == [] || !IsSpace(s[0]) then 0 else 1 + LeadingSpaces(s[1..])
  }

  /** The index where the trailing run of whitespace of `s` begins. */
  function TrailingStart(s: string): (m: nat)
    ensures m <= |s|
    ensures forall k | m <= k < |s| :: IsSpace(s[k])
    ensures m == 0 || !IsSpace(s[m - 1])
  {
    if s == [] || !IsSpace(s[|s| - 1]) then |s| else TrailingStart(s[..|s| - 1])
  }

  /** `r` is `s` with exactly a whitespace prefix of length `i` and a whitespace suffix removed. */
  predicate TrimmedAt(s: string, r: string, i: int) {
    0 <= i && i + |r| <= |s| && r == s[i..i + |r|] && AllSpace(s[..i]) && AllSpace(s[i + |r|..])
  }

  /** `String.prototype.trim`. */
  function Trim(s: string): (r: string)
    ensures r == [] <==> AllSpace(s)
    ensures r != [] ==> !IsSpace(r[0]) && !IsSpace(r[|r| - 1])
    ensures exists i :: TrimmedAt(s, r, i)
  {
    var n := LeadingSpaces(s);
    if n == |s| then
      assert TrimmedAt(s, [], 0);
      []
    else
      var m := TrailingStart(s);
      assert n < m;
      var r := s[n..m];
      assert TrimmedAt(s, r, n);
      r
  }

  /** Trimming an already trimmed string changes nothing. */
  lemma TrimIdempotent(s: string)
    ensures Trim(Trim(s)) == Trim(s)
  {
    var r := Trim(s);
    if r != [] {
      assert LeadingSpaces(r) == 0;
      assert TrailingStart(r) == |r|;
    }
  }

  // ---------------------------------------------------------------- case mapping

  function LowerChar(c: char): char {
    if 'A' <= c <= 'Z' then (c as int + 32) as char else c
  }

  function UpperChar(c: char): char {
    if 'a' <= c <= 'z' then (c as int - 32) as char else c
  }

  /** `String.prototype.toLowerCase`. */
  function ToLower(s: string): (r: string)
    ensures |r| == |s|
    ensures forall i | 0 <= i < |s| :: r[i] == LowerChar(s[i])
  {
    seq(|s|, i requires 0 <= i < |s| => LowerChar(s[i]))
  }

  /** `String.prototype.toUpperCase`. */
  function ToUpper(s: string): (r: string)
    ensures |r| == |s|
    ensures forall i | 0 <= i < |s| :: r[i] == UpperChar(s[i])
  {
    seq(|s|, i requires 0 <= i < |s| => UpperChar(s[i]))
  }

  /** Lower-casing is idempotent, and forgets any earlier upper-casing. */
  lemma CaseMappingStable(s: string)
    ensures ToLower(ToLower(s)) == ToLower(s)
    ensures ToLower(ToUpper(s)) == ToLower(s)
    ensures ToUpper(ToUpper(s)) == ToUpper(s)
  {
  }

  // ---------------------------------------------------------------- substring search

  predicate OccursAt(s: string, q: string, i: int) {
    0 <= i && i + |q| <= |s| && s[i..i + |q|] == q
  }

  predicate StartsWith(s: string, q: string) {
    |q| <= |s| && s[..|q|] == q
  }

  /** `s.includes(q)`. */
  function Contains(s: string, q: string): (b: bool)
    ensures q == [] ==> b
    ensures b ==> |q| <= |s|
    decreases |s|
  {
    if StartsWith(s, q) then true
    else if s == [] then false
    else Contains(s[1..], q)
  }

  /** The search finds `q` exactly when `q` occurs somewhere in `s`. */
  lemma {:induction false} ContainsIff(s: string, q: string)
    ensures Contains(s, q) <==> exists i :: OccursAt(s, q, i)
    decreases |s|
  {
    if StartsWith(s, q) {
      assert OccursAt(s, q, 0);
    } else if s == [] {
      assert forall i :: !OccursAt(s, q, i);
    } else {
      ContainsIff(s[1..], q);
      forall i | OccursAt(s[1..], q, i)
        ensures OccursAt(s, q, i + 1)
      {
        assert s[i + 1..i + 1 + |q|] == s[1..][i..i + |q|];
      }
      forall i | OccursAt(s, q, i)
        ensures i >= 1 && OccursAt(s[1..], q, i - 1)
      {
        assert s[i..i + |q|] == s[1..][i - 1..i - 1 + |q|];
      }
    }
  }

  // ---------------------------------------------------------------- decimal numbers

  predicate IsDigit(c: char) {
    '0' <= c <= '9'
  }

  predicate AllDigits(s: string) {
    forall i | 0 <= i < |s| :: IsDigit(s[i])
  }

  function DigitChar(d: int): (c: char)
    requires 0 <= d < 10
    ensures IsDigit(c)
  {
    (d + '0' as int) as char
  }

  function DigitValue(c: char): (d: int)
    requires IsDigit(c)
    ensures 0 <= d < 10
  {
    c as int - '0' as int
  }

  /** `String(n)` for a non-negative integer: decimal digits, no leading zero. */
  function NatToString(n: nat): (s: string)
    ensures |s| >= 1 && AllDigits(s)
    ensures s[0] == '0' ==> n == 0
    decreases n
  {
    if n < 10 then [DigitChar(n)] else NatToString(n / 10) + [DigitChar(n % 10)]
  }

  /** Reads a string of decimal digits back as a number. */
  function ParseNat(s: string): nat
    requires AllDigits(s)
  {
    if s == [] then 0 else 10 * ParseNat(s[..|s| - 1]) + DigitValue(s[|s| - 1])
  }

  /** Printing a number and reading it back gives the number. */
  lemma {:induction false} ParseNatToString(n: nat)
    ensures ParseNat(NatToString(n)) == n
    decreases n
  {
    if n >= 10 {
      var s := NatToString(n);
      assert s[..|s| - 1] == NatToString(n / 10);
      ParseNatToString(n / 10);
    }
  }

  /** Leading zeros do not change the value read. */
  lemma {:induction false} ParseNatLeadingZero(s: string)
    requires AllDigits(s)
    ensures ParseNat("0" + s) == ParseNat(s)
    decreases |s|
  {
    if s != [] {
      assert ("0" + s)[..|"0" + s| - 1] == "0" + s[..|s| - 1];
      ParseNatLeadingZero(s[..|s| - 1]);
    }
  }

  /** `String(i)` for any integer. */
  function IntToString(i: int): (s: string)
    ensures |s| >= 1
  {
    if i < 0 then "-" + NatToString(-i) else NatToString(i)
  }

  predicate IsIntText(s: string) {
    if |s| > 0 && s[0] == '-' then AllDigits(s[1..]) else AllDigits(s)
  }

  function ParseInt(s: string): int
    requires IsIntText(s)
  {
    if |s| > 0 && s[0] == '-' then -(ParseNat(s[1..]) as int) else ParseNat(s)
  }

  /** Printing any integer and reading it back gives the integer. */
  lemma ParseIntToString(i: int)
    ensures IsIntText(IntToString(i))
    ensures ParseInt(IntToString(i)) == i
  {
    if i < 0 {
      assert ("-" + NatToString(-i))[1..] == NatToString(-i);
      ParseNatToString(-i);
    } else {
      ParseNatToString(i);
    }
  }

  /** `s.padStart(2, '0')`. */
  function PadStart2(s: string): (r: string)
    ensures |r| == if |s| >= 2 then |s| else 2
    ensures r[|r| - |s|..] == s
    ensures forall i | 0 <= i < |r| - |s| :: r[i] == '0'
  {
    if |s| >= 2 then s else if |s| == 1 then "0" + s else "00"
  }

  /** Two-digit rendering of a number below 100: exactly two digits that read back as the number. */
  lemma PadNumberBelow100(n: nat)
    requires n < 100
    ensures |PadStart2(NatToString(n))| == 2
    ensures AllDigits(PadStart2(NatToString(n)))
    ensures ParseNat(PadStart2(NatToString(n))) == n
  {
    ParseNatToString(n);
    if n < 10 {
      ParseNatLeadingZero(NatToString(n));
    }
  }

  // ---------------------------------------------------------------- join and split

  /** `xs.join(sep)`. */
  function Join(xs: seq<string>, sep: char): (r: string)
    ensures |xs| == 1 ==> r == xs[0]
  {
    if |xs| == 0 then ""
    else if |xs| == 1 then xs[0]
    else xs[0] + [sep] + Join(xs[1..], sep)
  }

  /** `s.split(sep)`: always at least one piece. */
  function Split(s: string, sep: char): (r: seq<string>)
    ensures |r| >= 1
    decreases |s|
  {
    if s == [] then [""]
    else
      var rest := Split(s[1..], sep);
      if s[0] == sep then [""] + rest else [[s[0]] + rest[0]] + rest[1..]
  }

  /** A piece without the separator splits to itself. */
  lemma {:induction false} SplitPlain(a: string, sep: char)
    requires sep !in a
    ensures Split(a, sep) == [a]
    decreases |a|
  {
    if a != [] {
      SplitPlain(a[1..], sep);
      assert [a[0]] + a[1..] == a;
    }
  }

  /** Splitting at the first separator. */
  lemma {:induction false} SplitAtSeparator(a: string, b: string, sep: char)
    requires sep !in a
    ensures Split(a + [sep] + b, sep) == [a] + Split(b, sep)
    decreases |a|
  {
    if a == [] {
      assert a + [sep] + b == [sep] + b;
      assert ([sep] + b)[1..] == b;
    } else {
      assert (a + [sep] + b)[1..] == a[1..] + [sep] + b;
      SplitAtSeparator(a[1..], b, sep);
      assert [a[0]] + a[1..] == a;
    }
  }

  /** Splitting undoes joining when no piece contains the separator. */
  lemma {:induction false} SplitJoin(xs: seq<string>, sep: char)
    requires |xs| >= 1
    requires forall i | 0 <= i < |xs| :: sep !in xs[i]
    ensures Split(Join(xs, sep), sep) == xs
    decreases |xs|
  {
    if |xs| == 1 {
      SplitPlain(xs[0], sep);
    } else {
      SplitJoin(xs[1..], sep);
      SplitAtSeparator(xs[0], Join(xs[1..], sep), sep);
      assert [xs[0]] + xs[1..] == xs;
    }
  }

  /** The separator does not occur in a joined string beyond its |xs| - 1 uses. */
  lemma {:induction false} JoinPreservesAbsence(xs: seq<string>, sep: char, c: char)
    requires c != sep
    requires forall i | 0 <= i < |xs| :: c !in xs[i]
    ensures c !in Join(xs, sep)
    decreases |xs|
  {
    if |xs| > 1 {
      JoinPreservesAbsence(xs[1..], sep, c);
    }
  }

  /** A joined string starts with its first piece and ends with its last. */
  lemma {:induction false} JoinEnds(xs: seq<string>, sep: char)
    requires |xs| >= 1
    ensures |Join(xs, sep)| >= |xs[0]| && Join(xs, sep)[..|xs[0]|] == xs[0]
    ensures |Join(xs, sep)| >= |xs[|xs| - 1]|
    ensures Join(xs, sep)[|Join(xs, sep)| - |xs[|xs| - 1]|..] == xs[|xs| - 1]
    decreases |xs|
  {
    if |xs| > 1 {
      var rest := Join(xs[1..], sep);
      JoinEnds(xs[1..], sep);
      var j := xs[0] + [sep] + rest;
      assert j == Join(xs, sep);
      assert j[..|xs[0]|] == xs[0];
      var last := xs[|xs| - 1];
      assert xs[1..][|xs[1..]| - 1] == last;
      assert j[|j| - |last|..] == rest[|rest| - |last|..];
    }
  }

  /** A string of digits contains no non-digit character; in particular no separator. */
  lemma DigitsExclude(s: string, c: char)
    requires AllDigits(s) && !IsDigit(c)
    ensures c !in s
  {
  }

  /** A printed integer holds only digits and a leading minus sign. */
  lemma IntToStringExcludes(i: int, c: char)
    requires !IsDigit(c) && c != '-'
    ensures c !in IntToString(i)
  {
    if i < 0 {
      DigitsExclude(NatToString(-i), c);
      assert IntToString(i) == "-" + NatToString(-i);
    } else {
      DigitsExclude(NatToString(i), c);
    }
  }
}

=== FILE: types.dfy ===
/** The storefront's records (types.ts), as immutable datatypes.
    Money, counts and scores are integers; optional properties that the code reads
    with a fallback (`tags || []`, `isNew`) carry their fallback value, the others are
    `Option`s. */
module Types {
  import opened Wrappers

  /** Product categories are strings: the catalogue uses 'Apparel', 'Accessories', 'Home',
      'Beauty', the category filter uses the sentinel 'All', the outfit slots add others. */
  type Category = string

  const AllCategories: Category := "All"

  datatype Product = Product(
    id: string,
    name: string,
    price: int,
    originalPrice: int,
    image: string,
    category: Category,
    description: string,
    details: seq<string>,
    inStock: bool,
    isNew: bool,
    viewers: int,
    stockCount: int,
    hypeScore: int,
    velocityScore: int,
    synergyPath: Option<string>,
    tags: seq<string>,
    supplierId: Option<string>)

  /** A cart line: the product as it was added, with a quantity (`CartItem extends Product`). */
  datatype CartItem = CartItem(product: Product, quantity: int) {
    function Id(): string { product.id }
  }

  /** Historical demand counters of one product (`ProductPerformance`). */
  datatype ProductPerformance = ProductPerformance(
    productId: string,
    totalPurchases: nat,
    totalSystemUsers: nat,
    initialStock: nat,
    hoursToSoldOut: real)

  datatype OrderStatus = Pending | Processing | Shipped | Delivered | Cancelled

  datatype Order = Order(
    id: string,
    userId: string,
    userName: string,
    items: seq<CartItem>,
    total: int,
    status: OrderStatus,
    timestamp: string,
    trackingNumber: Option<string>,
    deliveryAddress: string)

  datatype UserStatus = UserActive | Banned | UserRestricted {
    function Name(): string {
      match this
      case UserActive => "ACTIVE"
      case Banned => "BANNED"
      case UserRestricted => "RESTRICTED"
    }
  }

  datatype User = User(
    id: string,
    handle: string,
    email: string,
    archetype: string,
    xp: int,
    coins: int,
    gems: int,
    status: UserStatus,
    lastLogin: string,
    totalSpent: int)

  datatype SupplierStatus = SupplierActive | Suspended | SupplierRestricted

  datatype Supplier = Supplier(
    id: string,
    name: string,
    contactEmail: string,
    region: string,
    status: SupplierStatus,
    performanceScore: int,
    totalRevenueYield: int,
    joinedDate: string)

  datatype Quest = Quest(id: string, title: string, rewardXP: int, icon: string, completed: bool)

  /** Sum of the prices of a list of products: 0 for none, the price itself for one,
      and never negative when no price is. */
  function PriceSum(ps: seq<Product>): (r: int)
    ensures ps == [] ==> r == 0
    ensures |ps| == 1 ==> r == ps[0].price
    ensures (forall i | 0 <= i < |ps| :: ps[i].price >= 0) ==> r >= 0
  {
    if ps == [] then 0 else ps[0].price + PriceSum(ps[1..])
  }

  lemma {:induction false} PriceSumAppend(a: seq<Product>, b: seq<Product>)
    ensures PriceSum(a + b) == PriceSum(a) + PriceSum(b)
  {
    if a == [] {
      assert a + b == b;
    } else {
      assert (a + b)[1..] == a[1..] + b;
      PriceSumAppend(a[1..], b);
    }
  }

  /** Whether some product in `ps` has the id `id`. */
  predicate HasId(ps: seq<Product>, id: string) {
    exists i | 0 <= i < |ps| :: ps[i].id == id
  }

  /** `catalogue.find(p => p.id === id)`: the first product with that id, if any. */
  function FindProduct(catalogue: seq<Product>, id: string): (r: Option<Product>)
    ensures r.Some? ==> r.value in catalogue && r.value.id == id
    ensures r.None? <==> !HasId(catalogue, id)
    ensures r.Some? ==> exists k | 0 <= k < |catalogue| ::
      catalogue[k] == r.value && forall j | 0 <= j < k :: catalogue[j].id != id
  {
    if catalogue == [] then None
    else if catalogue[0].id == id then Some(catalogue[0])
    else
      var r := FindProduct(catalogue[1..], id);
      assert r.Some? ==> exists k | 0 <= k < |catalogue| ::
        catalogue[k] == r.value && forall j | 0 <= j < k :: catalogue[j].id != id by {
        if r.Some? {
          var k :| 0 <= k < |catalogue| - 1 && catalogue[1..][k] == r.value
            && forall j | 0 <= j < k :: catalogue[1..][j].id != id;
          assert catalogue[k + 1] == r.value;
          assert forall j | 0 <= j < k + 1 :: catalogue[j].id != id by {
            forall j | 0 <= j < k + 1 ensures catalogue[j].id != id {
              if j > 0 {
                assert catalogue[j] == catalogue[1..][j - 1];
              }
            }
          }
        }
      }
      assert HasId(catalogue, id) <==> HasId(catalogue[1..], id) by {
        if HasId(catalogue, id) {
          var i :| 0 <= i < |catalogue| && catalogue[i].id == id;
          assert catalogue[1..][i - 1].id == id;
        }
        if HasId(catalogue[1..], id) {
          var i :| 0 <= i < |catalogue| - 1 && catalogue[1..][i].id == id;
          assert catalogue[i + 1].id == id;
        }
      }
      r
  }

  /** The first match wins: a product earlier in the catalogue with the same id shadows later ones. */
  lemma {:induction false} FindProductFirst(catalogue: seq<Product>, id: string, k: nat)
    requires k < |catalogue| && catalogue[k].id == id
    requires forall j | 0 <= j < k :: catalogue[j].id != id
    ensures FindProduct(catalogue, id) == Some(catalogue[k])
  {
    if k > 0 {
      FindProductFirst(catalogue[1..], id, k - 1);
    }
  }
}

=== FILE: wishlist.dfy ===
/** The saved-items view: which products it lists and their total value. */
module Wishlist {
  import opened Types
  import opened Seqs

  function Wanted(wishlistIds: seq<string>): Product -> bool {
    (p: Product) => p.id in wishlistIds
  }

  /** `wishlistItems`: the catalogue products whose id is on the list, in catalogue order. */
  function Items(products: seq<Product>, wishlistIds: seq<string>): (r: seq<Product>)
    ensures forall i | 0 <= i < |r| :: r[i] in products && r[i].id in wishlistIds
    ensures forall i | 0 <= i < |products| && products[i].id in wishlistIds :: products[i] in r
  {
    Filter(products, Wanted(wishlistIds))
  }

  /** Only the set of ids matters: repeating an id or listing an id the catalogue does not
      have changes nothing, and the items keep catalogue order. */
  lemma ItemsDependOnIdSet(products: seq<Product>, ids1: seq<string>, ids2: seq<string>)
    requires forall i | 0 <= i < |products| :: products[i].id in ids1 <==> products[i].id in ids2
    ensures Items(products, ids1) == Items(products, ids2)
    ensures IsSubsequence(Items(products, ids1), products)
  {
    FilterCongruent(products, Wanted(ids1), Wanted(ids2));
    FilterIsSubsequence(products, Wanted(ids1));
  }

  function Id(p: Product): string {
    p.id
  }

  /** A catalogue without repeated ids lists each saved product once. */
  lemma ItemsDistinct(products: seq<Product>, wishlistIds: seq<string>)
    requires DistinctBy(products, Id)
    ensures DistinctBy(Items(products, wishlistIds), Id)
  {
    FilterIsSubsequence(products, Wanted(wishlistIds));
    SubsequenceKeepsDistinct(Items(products, wishlistIds), products, Id);
  }

  function Unsaved(wishlistIds: seq<string>): Product -> bool {
    (p: Product) => p.id !in wishlistIds
  }

  predicate NonNegativePrices(products: seq<Product>) {
    forall i | 0 <= i < |products| :: products[i].price >= 0
  }

  /** The total vault value: together with the unsaved products it makes up the whole
      catalogue's price, so with non-negative prices it lies between nothing and that total. */
  function VaultValue(products: seq<Product>, wishlistIds: seq<string>): (r: int)
    ensures r + PriceSum(Filter(products, Unsaved(wishlistIds))) == PriceSum(products)
    ensures NonNegativePrices(products) ==> 0 <= r <= PriceSum(products)
    ensures (forall i | 0 <= i < |wishlistIds| :: !HasId(products, wishlistIds[i])) ==> r == 0
  {
    SavedAndUnsaved(products, wishlistIds);
    PriceSum(Items(products, wishlistIds))
  }

  lemma {:induction false} SavedAndUnsaved(products: seq<Product>, wishlistIds: seq<string>)
    ensures PriceSum(Items(products, wishlistIds)) + PriceSum(Filter(products, Unsaved(wishlistIds)))
      == PriceSum(products)
    ensures NonNegativePrices(products) ==> 0 <= PriceSum(Items(products, wishlistIds)) <= PriceSum(products)
    ensures (forall i | 0 <= i < |wishlistIds| :: !HasId(products, wishlistIds[i])) ==>
      PriceSum(Items(products, wishlistIds)) == 0
  {
    PriceSplit(products, wishlistIds);
    if forall i | 0 <= i < |wishlistIds| :: !HasId(products, wishlistIds[i]) {
      forall i | 0 <= i < |products| ensures products[i].id !in wishlistIds {
        forall j | 0 <= j < |wishlistIds| ensures wishlistIds[j] != products[i].id {
          assert !HasId(products, wishlistIds[j]);
        }
      }
      FilterDropsAll(products, Wanted(wishlistIds));
    }
  }

  /** Every catalogue product is either saved or unsaved, so the two price sums add up. */
  lemma {:induction false} PriceSplit(products: seq<Product>, wishlistIds: seq<string>)
    ensures PriceSum(Items(products, wishlistIds)) + PriceSum(Filter(products, Unsaved(wishlistIds)))
      == PriceSum(products)
  {
    if products != [] {
      PriceSplit(products[1..], wishlistIds);
    }
  }

  /** The empty state shows exactly when no catalogue product is on the list; otherwise the
      total is shown. */
  predicate ShowsEmptyState(products: seq<Product>, wishlistIds: seq<string>) {
    Items(products, wishlistIds) == []
  }

  lemma EmptyStateIff(products: seq<Product>, wishlistIds: seq<string>)
    ensures ShowsEmptyState(products, wishlistIds) <==> forall i | 0 <= i < |products| :: products[i].id !in wishlistIds
  {
    if forall i | 0 <= i < |products| :: products[i].id !in wishlistIds {
      FilterDropsAll(products, Wanted(wishlistIds));
    }
  }
}

=== FILE: wrappers.dfy ===
/** Optional values: the model's stand-in for `undefined`, a missing storage key,
    an absent form field and a `find` that found nothing. */
module Wrappers {

  datatype Option<+T> = None | Some(value: T) {

    /** The value, or `default` when absent (the source's `x || default` on objects). */
    function GetOr(default: T): T {
      match this
      case Some(v) => v
      case None => default
    }
  }
}
